=== FILE: README.md ===
# HERE linear conflation — a Dafny model of the decision logic

The conflation tools match HERE street links to DOT (state department of
transportation) routes, build HERE routes from the matched links, derive a
measure crosswalk (the XREF table) between the two linear referencing
systems, and carry event attributes across in both directions. Almost every
tool wraps its decisions inside ArcPy cursor loops around geoprocessing
calls. This project lifts those decisions out as pure functions over
sequences of records. Each geoprocessing result becomes an input sequence:
a spatial-join row, a route's length and measure extent, a located link, a
near-table row.

One module per source concern:

- `Base`: optional values, results carrying the error a script would raise, and the string operations the scripts use.
- `MatchCandidate` (generate_match_candidate.py): the angle fold, the per-link accounting that gives 'No Match', 'High' or 'Low', and the knowledge pass that upgrades 'Low' rows.
- `ActiveFilter`: the active-route date clause of the match, XREF and transfer tools.
- `HereRoute` (generate_here_route.py): the plateau-tolerant monotonicity test, the gap and non-monotonic exclusion lists, the output filter, the confidence threshold, the duplicate-pair check, and the filter on located links.
- `Crosswalk` (generate_xref_table.py, and the formulas of the DOT-to-HERE transfer): the affine measure rescaling over `real`, and the XREF table.
- `EventTransfer` (transfer_dot_event_attribute_to_here.py, transfer_here_event_attribute_to_dot.py): route filtering, rescaling, output columns, and the link-id join.
- `Node` (node_util.py): node-set composition, and the collapse of duplicate (route, node) locations to their mean.
- `Intersection` and `IntersectionRoute` (intersection_util.py, intersection_route_util.py): classification of intersection points, the loop split, intersection ids, and on/at route pairs.
- `HereUtil` (here_util.py): route-id parsing and comparison, the YES/NO id-match flags, the confidence rules, and the intersection count.
- `Review` (VerifyMatchCandidateDialog.py): the threshold filter of the review window and the write-back of the reviewer's edits.
- `DaoUtil`, `FieldUtil`, `CoreUtil`, `DatetimeUtil`, `NtPath`, `Meta`: the small utilities. These are SQL `IN` builders and keep-min-OID de-duplication, field-type mapping, unit conversion and number extraction, SQL date formatting, Windows parent directories, and the metadata upsert.

Floating-point measures are modelled as `real`. Python exceptions become
`Err` results. Date-times are records of their fields.

One might expect the knowledge pass to be idempotent; the code is not: a
row that the single-candidate rule upgrades to 'High' only becomes
knowledge on a second run. The model follows the code, with a
counterexample (`MatchCandidate.PropagateNotIdempotent`) and the condition
under which a second run changes nothing
(`MatchCandidate.PropagateIdempotentWithoutSingleUpgrades`).

## Model

| member | source | states |
|---|---|---|
| CoreUtil.MatchAt | Install/src/tss/core_util.py:7 | a match at a position exists exactly when a digit or the fractional alternative starts there, and ends strictly after it |
| CoreUtil.MatchIsToken | Install/src/tss/core_util.py:7 | every match is a word of the pattern `[-+]?\d*\.\d+|\d+` |
| CoreUtil.FindAll | Install/src/tss/core_util.py:7 | every string `re.findall` returns is a word of the pattern |
| CoreUtil.TokenParses | Install/src/tss/core_util.py:7 | every word of the pattern is accepted by `float` |
| CoreUtil.ParseExponentExample | Install/src/tss/core_util.py:30 | `float` reads "1e3" as 1000 |
| CoreUtil.ParseNegativeExponentExample | Install/src/tss/core_util.py:30 | `float` reads "-5E-1" as -0.5 |
| CoreUtil.ParsePointExamples | Install/src/tss/core_util.py:30 | `float` reads "1." as 1 and rejects a point alone |
| CoreUtil.ParseInfinityExample | Install/src/tss/core_util.py:30 | "inf" does not read: the model has no infinities |
| CoreUtil.ExtractNumbers | Install/src/tss/core_util.py:1-7 | one number per match, in order, each the `float` of its match |
| CoreUtil.NoDigitNoNumber | Install/src/tss/core_util.py:7 | text without a digit yields no number |
| CoreUtil.DigitGivesNumber | Install/src/tss/core_util.py:7 | a digit anywhere yields at least one number |
| CoreUtil.SkipFiller | Install/src/tss/core_util.py:7 | characters that are not digits, signs or '.' are skipped without effect |
| CoreUtil.IntegerMatch | Install/src/tss/core_util.py:7 | a digit run not followed by '.' is matched whole as one integer |
| CoreUtil.ExtractExample | Install/src/tss/core_util.py:7 | "1 and 1" yields the numbers 1 and 1 |
| CoreUtil.SignDroppedOnIntegers | Install/src/tss/core_util.py:7 | the sign of an integer is not matched: "-5" yields 5 |
| CoreUtil.SignKeptOnFractions | Install/src/tss/core_util.py:7 | the sign of a fraction is matched: "-1.5" yields -1.5 |
| CoreUtil.SplitOnce | Install/src/tss/core_util.py:17 | `split(None, 1)` gives at most two parts, both non-empty, the second starting with a non-blank |
| CoreUtil.ConvertParts | Install/src/tss/core_util.py:18-30 | succeeds exactly when the value parses as a signed decimal with an optional exponent and the unit is in the table, giving value times factor; an unknown unit raises "unhandled unit" whatever the value; a known unit with a bad value raises the float error that FloatError words |
| CoreUtil.FloatError | Install/src/tss/core_util.py:30 | the message of `float` for a text that is not a number: "invalid literal for float()" when some non-empty prefix of it is a number, "could not convert string to float" when no prefix is |
| CoreUtil.PrefixParsesSomePrefix | Install/src/tss/core_util.py:30 | the prefix search behind FloatError holds exactly when some prefix of length 1 up to n reads as a number |
| CoreUtil.InvalidLiteralExample | Install/src/tss/core_util.py:30 | "1x Meters" fails with "invalid literal for float(): 1x", since "1" reads as a number |
| CoreUtil.NoNumberExample | Install/src/tss/core_util.py:30 | "x Meters" fails with "could not convert string to float: x", since no prefix reads as a number |
| CoreUtil.LinearUnitsToMile | Install/src/tss/core_util.py:10-30 | a blank text raises the unpacking error for 0 values and a single word the one for 1 value; otherwise its two parts are converted |
| CoreUtil.UnitConversion | Install/src/tss/core_util.py:17-30 | a number, a blank and a known unit, even a two-word one, convert to the number times the unit's factor |
| CoreUtil.UnknownUnitRaises | Install/src/tss/core_util.py:28-29 | a unit outside the table raises "unhandled unit" and that unit, whether or not the word before it is a number |
| CoreUtil.UnknownUnitExample | Install/src/tss/core_util.py:28-29 | "1 decimal" and "x decimal" both raise "unhandled unit decimal" |
| CoreUtil.KnownUnitShape | Install/src/tss/core_util.py:18-27 | every unit name in the table starts with a non-blank, so the split keeps it whole |
| CoreUtil.MetricFactors | Install/src/tss/core_util.py:19-25 | kilometers and centimeters scale the meter factor by powers of ten; millimeters do not |
| DatetimeUtil.Truncate | Install/src/tss/datetime_util.py:3-9 | None stays None; a date keeps its day and has a zero time of day |
| DatetimeUtil.TruncateIsStartOfDay | Install/src/tss/datetime_util.py:9 | truncation is never later than its input, changes nothing exactly at midnight, and identifies exactly the dates of one day |
| DatetimeUtil.TruncateIdempotent | Install/src/tss/datetime_util.py:9 | truncating twice is truncating once |
| DatetimeUtil.Stamp | Install/src/tss/datetime_util.py:18 | the stamp is 19 characters long |
| DatetimeUtil.StampRoundTrip | Install/src/tss/datetime_util.py:18 | reading the stamp back gives the date and time to the second |
| DatetimeUtil.FormatSqlDate | Install/src/tss/datetime_util.py:11-28 | succeeds exactly for a year from 1900 and the three known database types, wrapping the stamp in each type's literal syntax |
| DatetimeUtil.StampExample | Install/src/tss/datetime_util.py:18 | 2010-01-02 03:04:05.000006 is stamped "2010-01-02 03:04:05" |
| DatetimeUtil.FileGdbExample | Install/src/tss/datetime_util.py:19-20 | the file geodatabase literal of that date is "date '2010-01-02 03:04:05'" |
| DatetimeUtil.SqlServerDropsDateKeyword | Install/src/tss/datetime_util.py:19-24 | for every date from 1900 on, the SQL Server literal is the file-geodatabase literal with its `date ` keyword removed |
| DatetimeUtil.SqlServerExample | Install/src/tss/datetime_util.py:23-24 | the SQL Server literal of that date is "'2010-01-02 03:04:05'" |
| DatetimeUtil.UnknownDbTypeExample | Install/src/tss/datetime_util.py:25-27 | an unknown database type raises |
| DatetimeUtil.MaximumDate | Install/src/tss/datetime_util.py:38-43 | raises exactly when no date is present; otherwise returns a present date no other present date follows |
| DatetimeUtil.MaximumDateExample | Install/src/tss/datetime_util.py:43 | of 2010 and 2011 dates the 2011 one wins, with or without a None among them |
| NtPath.PathJoin | Install/src/tss/ags/dao_util.py:98-103 | joining a plain name inserts exactly one backslash unless the directory is only a drive or already ends in a separator |
| NtPath.TailStartSpec | Install/src/tss/path_util.py:16 | the last component starts after the last separator and contains none |
| NtPath.TrimSepsSpec | Install/src/tss/path_util.py:16 | the directory part loses exactly its trailing separators |
| NtPath.SplitAt | Install/src/tss/path_util.py:16 | `dirname` of a path whose last component is `t` is the drive plus the trimmed head |
| NtPath.JoinThenSplit | Install/src/tss/path_util.py:16 | `dirname` and `basename` undo a join of a plain name |
| NtPath.GetParentDirectory | Install/src/tss/path_util.py:5-18 | a level below one raises; otherwise the result is `dirname` applied exactly `level` times |
| NtPath.DirnameDropsName | Install/src/tss/path_util.py:16 | one `dirname` removes a backslash and a plain last component |
| NtPath.ThreeLevels | Install/src/tss/path_util.py:15-17 | three successive `dirname`s are levels one, two and three |
| NtPath.FileLevel | Install/src/tss/path_util.py:16 | the parent of C:\Dir1\Dir2\Dir3\test.txt is C:\Dir1\Dir2\Dir3 |
| NtPath.NestedParents | Install/src/tss/path_util.py:5-18 | for any base path and plain non-empty names, levels 1, 2 and 3 above base\a\b\file drop the file, then b, then a |
| NtPath.ParentDirectoryExamples | Install/src/tss/path_util.py:5-18 | levels 1, 2 and 3 above C:\Dir1\Dir2\Dir3\test.txt are Dir3, Dir2 and Dir1 under C: |
| DaoUtil.InExpression | Install/src/tss/ags/dao_util.py:20-30 | the never-true "1=2" exactly when there is no value, otherwise the field, " in (", the comma-joined values and ")" |
| DaoUtil.NumericIn | Install/src/tss/ags/dao_util.py:13-20 | "1=2" exactly for an empty list |
| DaoUtil.StringIn | Install/src/tss/ags/dao_util.py:23-30 | "1=2" exactly for an empty list |
| DaoUtil.DecodeRendered | Install/src/tss/ags/dao_util.py:20 | reading back the `str` of each natural gives the naturals |
| Base.SplitJoin | Install/src/tss/ags/dao_util.py:20 | splitting a join of pieces free of the separator at that separator gives the pieces back |
| DaoUtil.NumericInListRoundTrip | Install/src/tss/ags/dao_util.py:20 | the list inside a numeric IN clause over object ids reads back as exactly those ids, in order |
| DaoUtil.Unquote | Install/src/tss/ags/dao_util.py:30 | an unquoted piece quotes back to the piece it came from |
| DaoUtil.DecodeStrings | Install/src/tss/ags/dao_util.py:30 | decoded values render back, quoted, to the pieces they came from |
| DaoUtil.StringInListRoundTrip | Install/src/tss/ags/dao_util.py:30 | the list inside a text IN clause over comma-free values reads back as exactly those values, in order |
| DaoUtil.NumericInExample | Install/src/tss/ags/dao_util.py:20 | [1, 2, 3, 4] on "field" gives "field in (1,2,3,4)" |
| DaoUtil.StringInExample | Install/src/tss/ags/dao_util.py:30 | ["a", "b", "c", "d"] on "field" gives "field in ('a','b','c','d')" |
| DaoUtil.EmptyInExamples | Install/src/tss/ags/dao_util.py:20-30 | an empty list gives "1=2" in both builders |
| DaoUtil.RepeatFidsSpec | Install/src/tss/ags/dao_util.py:69-74 | an id is marked for deletion exactly when some row with it belongs to a group an earlier row opened |
| DaoUtil.SelectRepeats | Install/src/tss/ags/dao_util.py:66-74 | the loop over the FindIdentical rows collects exactly the ids of rows whose group was already seen |
| DaoUtil.KeepsMinOid | Install/src/tss/ags/dao_util.py:56-74 | with rows in ascending id order, an id is deleted exactly when its group holds a smaller id |
| DaoUtil.KeepMinOidDeleteClause | Install/src/tss/ags/dao_util.py:66-79 | nothing is deleted exactly when every row opens its own group; otherwise the delete clause is the numeric IN over the repeated ids |
| DaoUtil.NonEmpty | Install/src/tss/ags/dao_util.py:102 | keeps exactly the non-empty parts |
| DaoUtil.NonEmptyAppend | Install/src/tss/ags/dao_util.py:102 | the filter of a concatenation is the concatenation of the filters, so the kept parts stay in order for the dot join |
| DaoUtil.NonEmptyCount | Install/src/tss/ags/dao_util.py:102 | each non-empty part is kept as many times as it occurs, an empty one never |
| DaoUtil.FullTableNameSplits | Install/src/tss/ags/dao_util.py:97-98 | outside an enterprise connection `dirname` and `basename` of the full name give the workspace and the table name |
| DaoUtil.FullTableNameEnterprise | Install/src/tss/ags/dao_util.py:99-103 | inside an enterprise connection they give the workspace and the database's dotted name, whatever table name was passed |
| FieldUtil.MapFieldType | Install/src/tss/ags/field_util.py:59-70 | the keyword is one of the six AddField types, and TEXT exactly for a type the table does not name |
| FieldUtil.MapFieldTypeRoundTrip | Install/src/tss/ags/field_util.py:59-70 | the listed type of a field created with a keyword maps back to that keyword |
| FieldUtil.FirstNamed | Install/src/tss/ags/field_util.py:53-57 | None exactly when no field has the name; otherwise the earliest field with it |
| FieldUtil.GetFieldDetails | Install/src/tss/ags/field_util.py:48-72 | TEXT and 255 when no field has the name; otherwise the mapped type and length of the first field with it |
| FieldUtil.KeepFields | Install/src/tss/ags/field_util.py:3-15 | a field survives exactly when it is required, an object id or geometry, or named in the keep list |
| FieldUtil.KeepIsCaseInsensitive | Install/src/tss/ags/field_util.py:14 | a keep name protects a field whatever the case of either spelling |
| FieldUtil.AlterFieldName | Install/src/tss/ags/field_util.py:17-46 | equal names change nothing; otherwise it fails exactly when no field has the old name, and on success no field keeps the old name and one has the new name |
| FieldUtil.Without | Install/src/tss/ags/field_util.py:36 | removes exactly the fields of the given name |
| FieldUtil.RenameAll | Install/src/tss/ags/field_util.py:39 | renames each field of the old name in place and leaves the rest, and the order, alone |
| FieldUtil.InlineRidDetails | Install/generate_match_candidate.py:104-111 | TEXT and 255 when the network has no field of the route-id name |
| FieldUtil.InlineType | Install/generate_match_candidate.py:113-124 | agrees with the shared mapping on the types it names and passes every other type through |
| FieldUtil.InlineLookupAgrees | Install/generate_match_candidate.py:104-126 | the match tool's own lookup differs from `get_field_details` exactly when the first field of that name has an unmapped type other than TEXT |
| Meta.FirstRowOf | Install/src/util/meta.py:21-26 | None exactly when the component has no row; otherwise the earliest row of it |
| Meta.WriteMeta | Install/src/util/meta.py:11-36 | every row of another component keeps its position and its values, and exactly one row is added, only for a create date of a component without a row |
| Meta.LastRowOf | Install/src/util/meta.py:46-48 | None exactly when the component has no row; otherwise the latest row of it |
| Meta.ReadMeta | Install/src/util/meta.py:38-50 | no "Component" key and both dates None exactly when the table or the component's row is missing; otherwise the dates of one of its rows |
| Meta.WritePreservesUnique | Install/src/util/meta.py:11-36 | writing keeps at most one row per component |
| Meta.WriteThenRead | Install/src/util/meta.py:11-50 | with one row per component, a written create date reads back, and so does an update date unless a create date for an existing row came with it |
| Meta.ExistingCreateSkipsUpdate | Install/src/util/meta.py:20-26 | a create date for an existing row returns before the update date is written |
| Meta.UpdateNeverInserts | Install/src/util/meta.py:31-36 | an update date alone never adds a row, so a missing component still reads as missing |
| Meta.DuplicateRowsHideCreateDate | Install/src/util/meta.py:21-48 | with two rows of one component the write goes to the first and the read reports the last |
| Node.RefNodes | Install/src/here/node_util.py:39-43 | the dissolved start points: every link's start row, each once |
| Node.LooseEnds | Install/src/here/node_util.py:44-51 | a row is in the result exactly when it is the end row of some link and no reference node lies on its point; repeats are left in, and only the dissolve in IdentifyNodes removes them |
| Node.IdentifyNodes | Install/src/here/node_util.py:34-80 | the merged node table holds each row once, and a row exactly when it is a link's start row or an end row no reference node lies on |
| Node.NodeIdsCovered | Install/src/here/node_util.py:43-70 | every start becomes a node, and an end becomes a node of its own exactly when no reference node lies on it |
| Node.ClosedNetworkHasOnlyRefNodes | Install/src/here/node_util.py:44-51 | when every end point is some link's start point the nodes are just the reference nodes |
| Node.GroupMembers | Install/src/here/node_util.py:112-114 | the rows a cursor with the route-and-node clause sees are exactly the rows of that key |
| Node.GroupSetMeasure | Install/src/here/node_util.py:122-125 | writing the mean changes the measures of that key's rows and nothing else |
| Node.GroupDropFirst | Install/src/here/node_util.py:127-130 | deleting the first rows of a key touches no other key |
| Node.CollapseKeyEffect | Install/src/here/node_util.py:107-130 | one frequency row leaves its key with a single survivor and every other key as it was |
| Node.CollapseKeysEffect | Install/src/here/node_util.py:107-130 | the loop over the frequency rows collapses exactly the listed keys |
| Node.FrequentKeys | Install/src/here/node_util.py:93-97 | the keys with `FREQUENCY > 1`, each once: exactly the keys with more than one row |
| Node.LocateNodeAlongRoute | Install/src/here/node_util.py:83-136 | a node located on one route more than once keeps only its last row, at the mean measure; every other key is unchanged |
| Node.LocatedKeysUnique | Install/src/here/node_util.py:91-130 | afterwards each (route, node) pair has exactly one row when it had any |
| Node.LocateIdempotent | Install/src/here/node_util.py:97-105 | a table without duplicated pairs is left alone, so running the step twice is running it once |
| Node.MinMeas | Install/src/here/node_util.py:117-119 | a measure of the group no other measure is below |
| Node.MaxMeas | Install/src/here/node_util.py:117-119 | a measure of the group no other measure exceeds |
| Node.MeanWithinGroup | Install/src/here/node_util.py:115-120 | the averaged measure lies between the group's smallest and largest, and equals the common value when all agree |
| Node.TwoLocationsExample | Install/src/here/node_util.py:107-130 | two locations of a node on one route collapse to the later row at their midpoint |
| Intersection.RidsAt | Install/src/tss/intersection_util.py:55-61 | the route ids collected at a location are exactly the routes with a vertex there |
| Intersection.ClassifyMeaning | Install/src/tss/intersection_util.py:69-84 | a dangle exactly for one record; among two or more, true when all routes differ, circular when all agree, concurrent otherwise |
| Intersection.TypeVertices | Install/src/tss/intersection_util.py:65-93 | the update cursor keeps exactly the vertices at a location of two or more records, each typed by its location's classification |
| Intersection.FirstPerXY | Install/src/tss/intersection_util.py:95 | `DeleteIdentical` on the shape leaves one row per location, drawn from the input, and loses no location |
| Intersection.DetectIntersections | Install/src/tss/intersection_util.py:55-95 | one point per location, exactly at the locations with two or more records, each of a route recorded there and typed by its records |
| Intersection.DangleDropped | Install/src/tss/intersection_util.py:70-90 | a location on a single record is deleted |
| Intersection.CircularExample | Install/src/tss/intersection_util.py:72-74 | two records of one route make a circular point |
| Intersection.TrueIntersectionExample | Install/src/tss/intersection_util.py:72-76 | records of two routes make a true intersection, whatever else the routes cross |
| Intersection.CircularIds | Install/src/tss/intersection_util.py:99-104 | the `TSS_ID`s selected are exactly the circular points |
| Intersection.RightLoops | Install/src/tss/intersection_util.py:105-108 | exactly the ids the locate step found exactly twice |
| Intersection.WrongLoops | Install/src/tss/intersection_util.py:109-110 | exactly the circular ids not located twice |
| Intersection.Surviving | Install/src/tss/intersection_util.py:111 | exactly the points whose id is not a wrong loop |
| Intersection.RealLoops | Install/src/tss/intersection_util.py:112 | exactly the circular ids located twice |
| Intersection.LoopCheck | Install/src/tss/intersection_util.py:99-112 | a point stays unless it is circular and not located exactly twice; it is a generated loop exactly when it is circular and located twice |
| Intersection.LoopCheckSound | Install/src/tss/intersection_util.py:104-112 | the lists the source builds step by step are the kept points and the loops the check defines |
| Intersection.LoopCheckPartitions | Install/src/tss/intersection_util.py:104-112 | a circular point is kept exactly when it becomes a loop; every other point is kept and is no loop |
| Intersection.Survivors | Install/src/tss/intersection_util.py:111 | the rows left are exactly the detected points whose id the loop check keeps |
| Intersection.Appended | Install/src/tss/intersection_util.py:116-117 | the dangle points are appended one row each, with ids numbered on from the layer's |
| Intersection.FilterLocated | Install/src/tss/intersection_util.py:132-137 | the rows left are exactly those whose object id the second locate returned |
| Intersection.FilterLocatedAppend | Install/src/tss/intersection_util.py:134-137 | filtering a concatenation filters each part in turn, so the rows keep their order |
| Intersection.FinishIntersections | Install/src/tss/intersection_util.py:114-140 | one point per location, each a located row of the loop-checked layer or the dangles, and every location of such a row |
| Intersection.FinishKeepsLocated | Install/src/tss/intersection_util.py:129-140 | a detected point the loop check keeps and the second locate finds leaves its location in the output |
| Intersection.DangleCollected | Install/src/tss/intersection_util.py:116-117 | every dangle point reaches the layer under the id it is appended with |
| Intersection.LocatedRowPresent | Install/src/tss/intersection_util.py:129-140 | a located row of the collected layer leaves its location in the output |
| Intersection.FinishDropsWrongLoops | Install/src/tss/intersection_util.py:111-117 | a collected row with a detected point's id is that point and one the loop check keeps: a deleted circular point never comes back |
| Intersection.IntersectionIds | Install/src/tss/intersection_util.py:179-186 | one id per row |
| Intersection.IntersectionIdsUnique | Install/src/tss/intersection_util.py:179-186 | the ids are pairwise distinct and read back as their row numbers from one |
| IntersectionRoute.Measures | Install/src/tss/intersection_route_util.py:56-64 | the measures listed for an intersection on a route are exactly those the locate step found for that pair |
| IntersectionRoute.MeasuresKeepRepeats | Install/src/tss/intersection_route_util.py:63-64 | the list holds one entry per located row of the pair, so a loop located twice keeps both measures |
| IntersectionRoute.RouteList | Install/src/tss/intersection_route_util.py:70-76 | the routes listed for an intersection are exactly those the spatial join found there |
| IntersectionRoute.Permutations2 | Install/src/tss/intersection_route_util.py:86 | n(n-1) pairs, exactly the ordered pairs of routes at two different positions |
| IntersectionRoute.DistinctRoutesNeverSelfPaired | Install/src/tss/intersection_route_util.py:86 | when no route repeats, no pair puts a route at itself |
| IntersectionRoute.PairRows | Install/src/tss/intersection_route_util.py:87-91 | one row per measure of the on-route, or one row without a measure when it has none |
| IntersectionRoute.RowsOfPairs | Install/src/tss/intersection_route_util.py:86-91 | every pair gets at least one row, each row belongs to a pair, and a row lacks a measure exactly when its on-route has none |
| IntersectionRoute.IntersectionRows | Install/src/tss/intersection_route_util.py:80-91 | raises exactly for a single route without measures there; a single route is otherwise paired with itself once per measure |
| IntersectionRoute.CrossingRows | Install/src/tss/intersection_route_util.py:85-91 | n distinct routes at an intersection give at least n(n-1) rows and never pair a route with itself |
| IntersectionRoute.JoinedIds | Install/src/tss/intersection_route_util.py:70-79 | each intersection the spatial join found, once |
| IntersectionRoute.RowsOfIds | Install/src/tss/intersection_route_util.py:78-91 | raises exactly when one of the intersections raises; otherwise a row is written exactly when it is a row of one of them |
| IntersectionRoute.PopulateIntersectionRoutes | Install/src/tss/intersection_route_util.py:50-92 | raises exactly when a joined intersection lies on one route without measures; otherwise the table holds exactly the rows of the joined intersections |
| IntersectionRoute.LoopExample | Install/src/tss/intersection_route_util.py:80-84 | a route crossing itself gives one self-paired row per measure |
| IntersectionRoute.UnmeasuredRouteExample | Install/src/tss/intersection_route_util.py:85-91 | a route without measures still appears as an on-route, with no measure |
| HereUtil.PySlice | Install/src/here/here_util.py:67-68 | a Python slice is never longer than the text, and within bounds it is the plain subsequence |
| HereUtil.PyIndex | Install/src/here/here_util.py:80-86 | a list index is valid exactly in [-n, n), and names the element counted from the front or from the back |
| HereUtil.ParseIntDigits | Install/src/here/here_util.py:68 | `int` of a numeral is its decimal value |
| HereUtil.LeadingZero | Install/src/here/here_util.py:68 | leading zeros do not change the value `int` reads |
| HereUtil.SplitAny | Install/src/here/here_util.py:62-65 | `re.split` always returns at least one piece |
| HereUtil.SplitFromJoins | Install/src/here/here_util.py:65 | joining the pieces with the single delimiter rebuilds the split text |
| HereUtil.SplitJoinRoundTrip | Install/src/here/here_util.py:65 | with one non-empty delimiter, splitting and joining back gives the id unchanged |
| HereUtil.Criteria | Install/src/here/here_util.py:72-74 | every naming-convention criterion has at least its HERE name |
| HereUtil.TargetNumberCanonical | Install/src/here/here_util.py:67-69 | targets with equal type slices and number slices of equal value parse to the same id, whatever the zero padding |
| HereUtil.TargetExample | Install/src/here/here_util.py:67-69 | "SR007" with type at 1-2 and number at 3-5 parses as "SR-7" |
| HereUtil.Convert | Install/src/here/here_util.py:79-82 | a token no criterion renames is returned unchanged |
| HereUtil.ConvertMeaning | Install/src/here/here_util.py:79-82 | a renamed token is the DOT name of some criterion, and a token no criterion names stays as it is |
| HereUtil.DirectionIgnored | Install/src/here/here_util.py:84-86 | two renamed source ids that agree on the type and number tokens parse alike, whatever their direction token |
| HereUtil.RebuiltId | Install/src/here/here_util.py:85-86 | a renamed source id is rebuilt as the renamed type, "-" and the number token |
| HereUtil.UnconvertedKeepsRawId | Install/src/here/here_util.py:87-88 | a source id whose type token no criterion names is compared raw |
| HereUtil.CompareRouteId | Install/src/here/here_util.py:46-96 | raises exactly when the target or the source cannot be parsed; otherwise true exactly when the parsed ids are equal |
| HereUtil.Flags | Install/src/here/here_util.py:30-41 | one flag per comparison when none raised |
| HereUtil.FlagsMeaning | Install/src/here/here_util.py:30-41 | the run fails exactly when some comparison raised; otherwise a row reads "YES" exactly when its comparison was true, "NO" otherwise |
| HereUtil.MatchingRouteById | Install/src/here/here_util.py:12-43 | one flag per candidate row when no comparison raised |
| HereUtil.MatchingRouteByIdMeaning | Install/src/here/here_util.py:12-43 | a candidate is "YES" exactly when its route ids compare equal, and the run fails only on a row whose comparison raises |
| HereUtil.ConfidenceLevel | Install/src/here/here_util.py:99-120 | HIGH exactly for two or more matching intersections and an id match; LOW exactly for none, or one without an id match |
| HereUtil.ConfidenceMonotone | Install/src/here/here_util.py:107-118 | more matching intersections, or an id match, never lower the level |
| HereUtil.CapitalLabelsUnrecognised | Install/src/here/here_util.py:109-118 | the capitalised labels written here are not among those the route builder recognises |
| HereUtil.IdsOn | Install/src/here/here_util.py:161-169 | the ids collected for a route are exactly the look-up rows on it |
| HereUtil.CountMatchingIntersections | Install/src/here/here_util.py:156-206 | the loops compute the candidate's count, which is positive only when both routes have intersections |
| HereUtil.MoreNearRowsNeverLower | Install/src/here/here_util.py:190-201 | a further near row never lowers the count |
| MatchCandidate.LevelOf | Install/generate_match_candidate.py:284-311 | a cell names a level exactly when it is that level's label |
| MatchCandidate.LabelRoundTrip | Install/generate_match_candidate.py:284-311 | every level reads back from its label, and distinct levels have distinct ranks |
| MatchCandidate.StoredAngle | Install/generate_match_candidate.py:219-241 | nothing is stored exactly when the helper raised or reported a zero vector; otherwise the angle or its supplement, folded into [0, 90] |
| MatchCandidate.FoldIgnoresDirection | Install/generate_match_candidate.py:237-238 | reversing one vector stores the same angle |
| MatchCandidate.FoldKeepsLineAngles | Install/generate_match_candidate.py:237-238 | an angle of at most 90 degrees is stored as it is |
| MatchCandidate.RowAngle | Install/generate_match_candidate.py:199-241 | a pair the angle pass skipped keeps a null angle |
| MatchCandidate.RowPassShape | Install/generate_match_candidate.py:271-311 | every written row is 'No Match' exactly when it carries no route, the pass writes only 'No Match', 'Low' or 'High', and every row is of a joined link |
| MatchCandidate.RouteRowsAreGood | Install/generate_match_candidate.py:284-311 | a row with a route comes from a join row within the angle tolerance, 'High' exactly when its link had one match |
| MatchCandidate.GoodRowsAreEmitted | Install/generate_match_candidate.py:309-311 | every join row within the tolerance becomes a candidate row |
| MatchCandidate.AccountingFrom | Install/generate_match_candidate.py:291-306 | the bad-match list of a link grows by its bad rows, and 'No Match' is written once exactly when the list reaches the link's frequency |
| MatchCandidate.LinkAccounting | Install/generate_match_candidate.py:291-306 | a link of several matches gets one 'No Match' row exactly when at least that many of its rows are bad |
| MatchCandidate.GoodCandidateSuppressesNoMatch | Install/generate_match_candidate.py:291-311 | a link with one good match among its rows gets no 'No Match' row |
| MatchCandidate.KnowledgeIsKnown | Install/generate_match_candidate.py:320-341 | the dictionary pairs a DOT key with a HERE key exactly when some 'High' row carries both |
| MatchCandidate.Propagate | Install/generate_match_candidate.py:345-386 | only 'Low' rows change and only in level: to 'High' exactly when the link has one row, otherwise to 'Medium' exactly when a 'High' row taught the key pair |
| MatchCandidate.LinkCountLevelsOnly | Install/generate_match_candidate.py:345-352 | changing levels only keeps every link's row count |
| MatchCandidate.PropagateNotIdempotent | Install/generate_match_candidate.py:320-386 | a second run can still upgrade rows, since a row raised to 'High' by the single-candidate rule only becomes knowledge then |
| MatchCandidate.PropagateIdempotentWithoutSingleUpgrades | Install/generate_match_candidate.py:320-386 | when no 'Low' row is its link's only row, a second run changes nothing |
| MatchCandidate.GenerateMatchCandidates | Install/generate_match_candidate.py:265-386 | row i is row i of the row pass, with the same link, route and values; a 'Low' row becomes 'High' exactly when it is its link's only candidate, else 'Medium' exactly when a 'High' row of the row pass pairs its DOT and HERE keys, and other rows are unchanged; 'No Match' exactly when a row carries no route |
| MatchCandidate.GeneratedRoutesAreGood | Install/generate_match_candidate.py:265-386 | every written row with a route comes from a join row with that route within the angle tolerance, with that row's values |
| MatchCandidate.GeneratedLinkAccounting | Install/generate_match_candidate.py:265-386 | a link whose f > 1 candidates all carry a route gets one 'No Match' row in the written table exactly when at least f are bad |
| MatchCandidate.NoMatchCountLevels | Install/generate_match_candidate.py:345-386 | changing levels other than to or from 'No Match' keeps every link's 'No Match' count |
| ActiveFilter.DateWindowClause | Install/generate_xref_table.py:82-85 | the clause opens with the start field, is never the no-filter clause "1=1", and for blank-free fields reads back as those two fields, the start compared with "<=" and the end with ">" the current timestamp |
| ActiveFilter.ParseWindow | Install/generate_xref_table.py:82-85 | a clause that parses has exactly the words of the window clause over the fields read |
| ActiveFilter.WindowReadBack | Install/generate_xref_table.py:82-85 | the window clause over two blank-free fields parses back to those fields |
| ActiveFilter.ActiveClause | Install/generate_xref_table.py:81-85 | no filter exactly when either date field is missing; otherwise the date window over both fields |
| ActiveFilter.MatchToolActiveClause | Install/generate_match_candidate.py:84-88 | no filter exactly when the start field is missing, whatever the end field |
| ActiveFilter.MatchToolGuardDiffers | Install/generate_match_candidate.py:84 | the match tool's guard and the others' disagree exactly when only the end field is missing |
| ActiveFilter.EmptyEndFieldExample | Install/generate_match_candidate.py:84-88 | start field "FDATE" and no end field: the match tool filters on a window naming an empty field, the others do not filter |
| ActiveFilter.EventActiveClause | Install/transfer_dot_event_attribute_to_here.py:90-95 | the event filter is switched on by the route date fields but written over the event date fields |
| Crosswalk.XrefByRatios | Install/generate_xref_table.py:135-140 | the tool's three-ratio HERE-to-DOT formula equals the affine rescaling: the offset from the HERE MMin scaled by DOT span over HERE span, from the DOT MMin; the route lengths cancel |
| Crosswalk.XrefEndpoints | Install/generate_xref_table.py:135-140 | the HERE MMin and MMax land exactly on the DOT MMin and MMax |
| Crosswalk.XrefMonotone | Install/generate_xref_table.py:139-140 | the crosswalk keeps the order of measures, so a link's from measure stays at or below its to measure |
| Crosswalk.XrefExample | Install/generate_xref_table.py:139-140 | a 10-long HERE route measured 0..10 against a 20-long DOT route measured 0..100 sends 2 and 4 to 20 and 40 |
| Crosswalk.TransferLineByRatios | Install/transfer_dot_event_attribute_to_here.py:126-131 | the DOT-to-HERE line formula equals the affine rescaling from the DOT extent onto the HERE extent |
| Crosswalk.TransferPointByRatios | Install/transfer_dot_event_attribute_to_here.py:180-183 | the point formula as written equals the affine rescaling with the DOT MMin added to the measure instead of subtracted |
| Crosswalk.TransferUndoesXref | Install/transfer_dot_event_attribute_to_here.py:130-131 | transferring a crosswalked measure back gives the original HERE measure whenever both measure spans are non-zero |
| Crosswalk.XrefUndoesTransfer | Install/generate_xref_table.py:139-140 | crosswalking a transferred measure gives the original DOT measure whenever both measure spans are non-zero |
| Crosswalk.TransferEndpoints | Install/transfer_dot_event_attribute_to_here.py:126-131 | the DOT MMin and MMax land exactly on the HERE MMin and MMax |
| Crosswalk.PointQuirk | Install/transfer_dot_event_attribute_to_here.py:183 | the point formula places a point where the line formula places a measure twice the DOT MMin further, and agrees with the line formula exactly when the DOT MMin is zero |
| Crosswalk.PointQuirkExample | Install/transfer_dot_event_attribute_to_here.py:183 | DOT route 10..20 onto HERE route 0..10, both 10 long: the point at DOT measure 10 lands at 20, past the HERE route's end, where the line formula gives 0 |
| Crosswalk.MeasureDict | Install/generate_xref_table.py:42-60 | the measure dictionary has exactly the (link, route) pairs of the located events |
| Crosswalk.MeasureDictLatest | Install/generate_xref_table.py:51-58 | a pair keeps the from/to measures of its last event |
| Crosswalk.InfoDict | Install/generate_xref_table.py:62-78 | the route dictionary has exactly the ids with at least one non-null shape |
| Crosswalk.InfoDictLatest | Install/generate_xref_table.py:68-76 | an id keeps the length and extent of its last record with a shape |
| Crosswalk.XrefTable | Install/generate_xref_table.py:113-142 | the table raises exactly when some located event's route has a zero HERE length, DOT length or HERE measure span; otherwise every row comes from a located pair whose route has a shape in both networks, with one row per pair |
| Crosswalk.RowOf | Install/generate_xref_table.py:139-142 | a row carries the link and route ids and the two crosswalked measures |
| Crosswalk.XrefLatestEventWins | Install/generate_xref_table.py:113-142 | every pair whose route has a shape in both networks gets a row carrying the crosswalk of its last event's measures |
| Crosswalk.XrefSkipsMissingRoutes | Install/generate_xref_table.py:119-133 | no row is written for a route without a HERE shape or without a DOT shape |
| EventTransfer.DotInfo | Install/transfer_dot_event_attribute_to_here.py:69-87 | the DOT dictionary of the transfer only holds HERE route ids |
| EventTransfer.AmongInfo | Install/transfer_dot_event_attribute_to_here.py:78-86 | skipping DOT records whose id is not a HERE id is the same as restricting the full DOT dictionary to the HERE ids, values included |
| EventTransfer.EventRouteClause | Install/transfer_dot_event_attribute_to_here.py:97-99 | the event clause is "1=2" exactly when no route is kept; otherwise an IN list of quoted ids for a text field and of bare ids for any other field type |
| EventTransfer.SelectEvents | Install/transfer_dot_event_attribute_to_here.py:98-101 | the selected events are exactly the events on kept routes; none when no route is kept |
| EventTransfer.SelectEventsAppend | Install/transfer_dot_event_attribute_to_here.py:98-101 | selecting from a concatenation selects from each part in turn, so the events keep their order |
| EventTransfer.SelectEventsCount | Install/transfer_dot_event_attribute_to_here.py:98-101 | an event on a kept route is selected as often as it occurs, any other never |
| EventTransfer.KeptRoutes | Install/transfer_dot_event_attribute_to_here.py:44-87 | the kept ids are exactly the ids with a shape in both networks |
| EventTransfer.AdjustEvent | Install/transfer_dot_event_attribute_to_here.py:126-183 | a line event has both measures rescaled by the line formula; a point event has its measure rescaled by the point formula, which adds the DOT MMin, and its to measure untouched; route id and values are unchanged |
| EventTransfer.AdjustEventIntended | Install/transfer_dot_event_attribute_to_here.py:130-131 | the corrected rescaling: the line formula for the measure of both kinds of event, the to measure of a line event too, route id and values unchanged |
| EventTransfer.IntendedMapsBack | Install/transfer_dot_event_attribute_to_here.py:166-183 | the XREF crosswalk undoes the corrected rescaling for both kinds of event; it undoes the tool's point rescaling only up to twice the DOT MMin, and the two point rescalings agree exactly when that MMin is zero |
| EventTransfer.AdjustAll | Install/transfer_dot_event_attribute_to_here.py:113-183 | the events are rescaled in order, one output per event, each with its own routes' information (line or point formula by mode); a zero length or DOT measure span on any selected event's route raises |
| EventTransfer.TransferDotToHere | Install/transfer_dot_event_attribute_to_here.py:97-186 | the transfer raises exactly when a selected event's route divides by zero; otherwise it outputs one event per selected event, in order, with route id and values unchanged |
| EventTransfer.TransferredLineMapsBack | Install/transfer_dot_event_attribute_to_here.py:113-134 | crosswalking a transferred line event's measures back gives its DOT measures |
| EventTransfer.TransferredPointMapsBack | Install/transfer_dot_event_attribute_to_here.py:166-186 | crosswalking a transferred point event's measure back gives its DOT measure plus twice the DOT MMin, and its to measure is unchanged |
| EventTransfer.NoRoutesNoEvents | Install/transfer_dot_event_attribute_to_here.py:97-101 | when no DOT route has a HERE route with a shape, nothing is transferred |
| EventTransfer.OutputName | Install/transfer_dot_event_attribute_to_here.py:140-161 | a rescaled column takes its measure's name, an original measure column gets the DOT_ prefix, and any other field keeps its name |
| EventTransfer.DotToHereColumns | Install/transfer_dot_event_attribute_to_here.py:140-161 | the output is the route id's column, one rescaled column per measure under the measure's own name, then one column per transferred field in order; a field that is no measure name keeps its name, and a transferred from-measure field becomes DOT_ plus its name |
| EventTransfer.DotToHereColumnsExample | Install/transfer_dot_event_attribute_to_here.py:140-161 | with measures BEG and END and fields BEG, END and SPEED, the columns are RID, BEG, END, DOT_BEG, DOT_END and SPEED |
| EventTransfer.AppendIfAbsentProperties | Install/transfer_here_event_attribute_to_dot.py:64-65 | after the call the link-id field is among the transferred fields, nothing else is added, and a second call changes nothing |
| EventTransfer.HereToDotColumns | Install/transfer_here_event_attribute_to_dot.py:62-85 | the output has the transferred fields, link id included, followed by the XREF route id and the from and to measures |
| EventTransfer.JoinOne | Install/transfer_here_event_attribute_to_dot.py:55-58 | an event's placements are exactly the XREF rows of its link |
| EventTransfer.JoinXref | Install/transfer_here_event_attribute_to_dot.py:54-60 | a placement exists exactly when its event is a HERE event and its route and measures form an XREF row of the event's link |
| EventTransfer.JoinCount | Install/transfer_here_event_attribute_to_dot.py:55-58 | the join gives one placement per pair of an event and an XREF row of its link: events without rows are dropped and events with several are repeated |
| HereRoute.NonDecreasingIsAscending | Install/generate_here_route.py:199-200 | the adjacent-pair test passes exactly when every earlier measure is at most every later one, so plateaus pass and any later drop fails |
| HereRoute.NonIncreasingIsDescending | Install/generate_here_route.py:202-203 | the adjacent-pair test passes exactly when every earlier measure is at least every later one |
| HereRoute.Present | Install/generate_here_route.py:193-196 | a part's measure list holds exactly the measures of its points, interior-ring separators skipped |
| HereRoute.MeasureListHolds | Install/generate_here_route.py:190-196 | the shape's measure list holds exactly the measures of the points of all its parts |
| HereRoute.MeasureListAppend | Install/generate_here_route.py:192-196 | the measure list of two shapes end to end is their two lists end to end, so parts are read in part order |
| HereRoute.AlignedIsOrdered | Install/generate_here_route.py:190-197 | a shape is aligned exactly when its whole measure list is ascending or descending |
| HereRoute.PlateauPasses | Install/generate_here_route.py:176-180 | a route measured 1, 1, 2, 2, 3 is aligned: repeated measures are tolerated |
| HereRoute.ReversalFails | Install/generate_here_route.py:197-203 | a route measured 1, 2, 1 is not aligned |
| HereRoute.ShortListsPass | Install/generate_here_route.py:197-203 | a shape with no points or a single point is aligned |
| HereRoute.AcrossParts | Install/generate_here_route.py:190-197 | two parts that each rise from 1 to 2 fail together: the parts are judged as one list |
| HereRoute.SeparatorSkipped | Install/generate_here_route.py:194-196 | a separator between two points leaves just the two measures |
| HereRoute.DetectNonMonotonic | Install/generate_here_route.py:181-188 | the reported ids are exactly the ids of routes whose shape is not aligned |
| HereRoute.DetectAppend | Install/generate_here_route.py:184-188 | the report follows the cursor order: a longer cursor's ids extend its prefix's ids |
| HereRoute.MultipartIds | Install/generate_here_route.py:47-55 | the gap list holds each multipart route's id exactly once |
| HereRoute.GapList | Install/generate_here_route.py:43-56 | the gap list is empty when gaps are not checked, and otherwise holds each id of a multipart route once |
| HereRoute.Excluded | Install/generate_here_route.py:100-109 | an id is left out exactly when it is on the gap list and only continuous routes are wanted, or on the non-monotonic list and only monotonic routes are wanted |
| HereRoute.NotInClause | Install/generate_here_route.py:111 | the output filter is "1=1" exactly when there is nothing to leave out; otherwise it is the id field followed by " NOT IN (" and a closing parenthesis |
| HereRoute.NotInClauseReadBack | Install/generate_here_route.py:109-111 | the list inside the parentheses reads back as exactly the left-out ids, in order, when no id holds a comma |
| HereRoute.KeepRoutes | Install/generate_here_route.py:111-113 | the output routes are exactly the raw routes whose id is not left out |
| HereRoute.KeepRoutesAppend | Install/generate_here_route.py:111-113 | filtering a concatenation filters each part in turn, so the routes keep their order |
| HereRoute.KeepRoutesCount | Install/generate_here_route.py:111-113 | a route whose id is not left out is kept as often as it occurs, any other never |
| HereRoute.GenerateHereRoute | Install/generate_here_route.py:14-113 | with no restriction the raw routes are copied; otherwise a raw route is output exactly when no restriction that was also checked rejects its id |
| HereRoute.OutputIsClean | Install/generate_here_route.py:95-113 | with both checks and both restrictions on, every output route is in one part and has aligned measures |
| HereRoute.RestrictionNeedsCheck | Install/generate_here_route.py:100-111 | restrictions without their checks remove nothing |
| HereRoute.AcceptedLevels | Install/generate_here_route.py:245-259 | a threshold is accepted exactly when it is 'Medium', 'High' or 'User Confirmed'; the accepted levels start at the threshold and rise in rank |
| HereRoute.AcceptedAreAtLeastThreshold | Install/generate_here_route.py:257-259 | a level is accepted exactly when it ranks at or above the threshold, and never below 'Medium' |
| HereRoute.LowThresholdRaises | Install/generate_here_route.py:258 | a threshold of 'Low' or 'No Match' raises |
| HereRoute.HighThreshold | Install/generate_here_route.py:257-259 | threshold 'High' accepts 'High' and 'User Confirmed' |
| HereRoute.ThresholdClauseOfTwo | Install/generate_here_route.py:261 | two accepted levels give an IN list of the two quoted labels joined by a bare comma |
| HereRoute.SelectLevels | Install/generate_here_route.py:261-265 | the selected candidates are exactly those whose level is one of the accepted labels; a null level is never selected |
| HereRoute.SelectLevelsAppend | Install/generate_here_route.py:261-265 | selecting from a concatenation selects from each part in turn, so the rows keep their order |
| HereRoute.SelectLevelsCount | Install/generate_here_route.py:261-265 | a row at an accepted level is selected as often as it occurs, so the frequency check sees every duplicate |
| HereRoute.NoDuplicatesIsUnique | Install/generate_here_route.py:268-290 | the frequency table reports no repeated pair exactly when no two selected candidates share a link id and route id |
| HereRoute.SelectCandidates | Install/generate_here_route.py:255-290 | the selection succeeds exactly when the threshold is accepted and no (link, route) pair repeats, and then it is the candidates at the accepted levels |
| HereRoute.SelectedAreAboveThreshold | Install/generate_here_route.py:257-265 | every selected candidate's level ranks at or above the threshold |
| HereRoute.CorrectlyLocated | Install/generate_here_route.py:150-153 | a located link is kept exactly when it was located on a route and that route is the one it was assigned |
| HereRoute.OutLinkFields | Install/generate_here_route.py:295-298 | the carried link fields are exactly the fields other than OBJECTID, SHAPE and SHAPE_Length, compared case-insensitively |
| HereRoute.LocatedColumns | Install/generate_here_route.py:160-169 | the located-link output has the carried link fields in their order, each under its own name except RID, which becomes DOT_RID; then DOT_RID, FMEAS and TMEAS; no column is named RID |
| Review.ShownRows | Install/VerifyMatchCandidateDialog.py:184-195 | listing raises exactly when the threshold is not a choice; otherwise the listed rows are exactly the rows the threshold shows |
| Review.ThresholdPrefix | Install/VerifyMatchCandidateDialog.py:185 | a level threshold selects the labels from 'No Match' up to the threshold itself |
| Review.AllShowsEverything | Install/VerifyMatchCandidateDialog.py:187-188 | threshold 'All' selects no label and lists every row |
| Review.ShownMeaning | Install/VerifyMatchCandidateDialog.py:184-189 | a level threshold lists a row exactly when its level is a known label ranked at or below the threshold |
| Review.ShownMonotone | Install/VerifyMatchCandidateDialog.py:184-189 | raising the threshold never hides a row a lower threshold lists |
| Review.Blank | Install/VerifyMatchCandidateDialog.py:192 | a displayed cell is never null |
| Review.Unblank | Install/VerifyMatchCandidateDialog.py:305 | a saved cell is never an empty string |
| Review.BlankRoundTrip | Install/VerifyMatchCandidateDialog.py:305 | saving undoes displaying for every cell that was not already an empty string, and displaying undoes saving for every cell that was not null |
| Review.Normalise | Install/VerifyMatchCandidateDialog.py:305-315 | a saved row keeps its OBJECTID; a rejected flag of '1' makes it 'No Match', a verified flag of '1' alone makes it 'User Confirmed', and otherwise the level is kept |
| Review.NormaliseIdempotent | Install/VerifyMatchCandidateDialog.py:305-315 | saving a saved row again changes nothing |
| Review.RejectionWins | Install/VerifyMatchCandidateDialog.py:311-315 | a row both verified and rejected is saved as 'No Match' |
| Review.EditMap | Install/VerifyMatchCandidateDialog.py:318 | the edit dictionary has exactly the edited OBJECTIDs, each mapped to a row with that OBJECTID |
| Review.LastEditWins | Install/VerifyMatchCandidateDialog.py:318 | the row kept for an OBJECTID is its last edit, saved |
| Review.UpdateTable | Install/VerifyMatchCandidateDialog.py:296-327 | a missing table or an empty edit list changes nothing; otherwise the table keeps its size |
| Review.UpdateTableEffect | Install/VerifyMatchCandidateDialog.py:318-327 | a row nobody edited is untouched, and an edited row becomes its last edit, saved |
| Review.UpdateTableIdempotent | Install/VerifyMatchCandidateDialog.py:318-327 | saving the same edits twice leaves the table as saving them once |

## Left out

- Geoprocessing (SpatialJoin, Buffer, Intersect, SplitLineAtPoint, Dissolve, CreateRoutes, LocateFeaturesAlongRoutes, MakeRouteEventLayer, MakeQueryTable, GenerateNearTable, SimplifyLine, FeatureVerticesToPoints, SelectByLocation): an external spatial engine. Its results are inputs to the model.
- The dangle points of intersection_util.py (detect_dangle_intersections, Install/src/tss/intersection_util.py:152-170) come from Intersect and SelectByLocation, which are geometric. The model takes them as an input sequence, the loop test's locate outcome as an input set, and the object ids the second locate returns (lines 129-133) as an input too. Appended dangle rows are taken to get ids numbered on from the layer's rows.
- CoreUtil.ConvertParts: Python's `float` also reads "inf", "infinity" and "nan" in any case, and surrounding whitespace. The model reads signed decimal and exponent notation only, and gives `Err` for those other texts, because `real` has no infinities or NaN. A text that starts with one of those words and goes on (such as "infx") therefore gets the "could not convert string to float" message in the model, where Python says "invalid literal for float()".
- CoreUtil.LinearUnitsToMile: a value of "inf" or "nan" gives `Err` in the model, where Python converts it, for the reason given for ConvertParts. Surrounding whitespace cannot reach the value after the split.
- IntersectionRoute.RouteList: the KEEP_ALL spatial join (Install/src/tss/intersection_route_util.py:69) can give an intersection a null route, which then raises a KeyError at line 83. The model's joined rows always carry a route id, so that failure is not modelled.
- HereRoute.SelectLevels: candidate rows always carry a route id in the model. A candidate row with a null route id, which the table can hold, is not modelled.
- The angle between two chord vectors: geometry_util is not part of this model. The angle is an input in [0, 180], or the -1 sentinel.
- Rounding: measures rounded to three places in the XREF and transfer tools and in measure_scale, and chord vectors to six places. Values are exact reals, so every equality is stated before rounding.
- Python dictionary iteration order: where the scripts write rows in dictionary order, the model returns a set or a map, or states its order (first appearance) explicitly.
- Regular-expression metacharacters in route-id delimiters: the model splits on the delimiter characters literally.
- Rows already inserted before an exception are not modelled. A failing run is an `Err` with no output.
- HereUtil.CountMatchingIntersections: the near table is generated with an IN_INTERSECTION_ID column but queried as IN_INTERSECTIONID (Install/src/here/here_util.py:134, 192). The SearchCursor that names the missing column is opened outside the `try:` of line 193. So as written, the tool stops with a RuntimeError at the first candidate pair whose source and target routes both have intersections, and it never writes a positive count. The model counts over the intended column instead.
- HereUtil.ConfidenceLevel writes capitalised labels that the route builder's threshold does not recognise. This is stated by HereUtil.CapitalLabelsUnrecognised and is not corrected.
- UNC paths (`\\server\share`): the path model knows drive letters only.
- Configuration values reach compare_route_id as strings where it slices with them. The model takes integer positions.
- get_datetime_stamp (the clock), get_user_directory and get_scratch_folder (the operating system, uuid), clearWSLocks, subset_data_exist, delete_subset_data and get_count (ArcPy calls): I/O only.
- alter_field_name's AddField/CalculateField data copy is left out. Only its renaming decision and its no-op case are modelled.
- The wx windows, grids, menus and message boxes. In generate_here_route.py the user is taken to answer 'Yes' to both prompts.
- The scripts' `__main__` parameter handling, scratch geodatabase set-up and clean-up.
- Crosswalk.XrefTable, EventTransfer.TransferDotToHere: the DOT route and event records are given already cut to the active ones. The date clause itself is modelled in ActiveFilter; evaluating it against CURRENT_TIMESTAMP is not.

## Findings

| source | as written | input that shows it | evidently intended | confidence | as-written member | corrected member |
|---|---|---|---|---|---|---|
| Install/generate_match_candidate.py:84 | the guard `not dot_network_fdate_field or not dot_network_fdate_field` tests the start field twice | start field "FDATE", end field "": the clause names an empty end field | skip the filter when either date field is missing, as the XREF and transfer tools do | medium; not executed | ActiveFilter.MatchToolActiveClause | ActiveFilter.ActiveClause |
| Install/transfer_dot_event_attribute_to_here.py:183 | a point event is rescaled from `fmeas + dot_route_mmin` | DOT route 10..20 and HERE route 0..10, both 10 long: a point at DOT measure 10 lands at 20, past the HERE route's end (Crosswalk.PointQuirkExample) | `fmeas - dot_route_mmin`, the line formula of lines 130-131 | high; not executed | EventTransfer.AdjustEvent | EventTransfer.AdjustEventIntended |

=== FILE: active_filter.dfy ===
/** The "active route" SQL clause that the match, XREF and transfer tools put
    on a dated route layer before reading it.  A date field name that is empty
    (or not given) stands for "the layer is undated". */
module ActiveFilter {
  import opened Base

  /** The words of one half of the window, "(F is null or F op
      CURRENT_TIMESTAMP)": the date field is null, or it compares with the
      current time by the operator. */
  function ConditionWords(field: string, op: string): seq<string> {
    ["(" + field, "is", "null", "or", field, op, "CURRENT_TIMESTAMP)"]
  }

  /** The words of the whole window: the start date is null or not in the
      future, and the end date is null or in the future. */
  function WindowWords(startField: string, endField: string): seq<string> {
    ConditionWords(startField, "<=") + ["and"] + ConditionWords(endField, ">")
  }

  /** The two-condition clause, its words joined with single blanks; the
      two fields read back from it when neither holds a blank. */
  function DateWindowClause(startField: string, endField: string): (r: string)
    ensures |r| > |startField| + 1 && r[..|startField| + 1] == "(" + startField
    ensures r != "1=1"
    ensures NoChar(startField, ' ') && NoChar(endField, ' ') ==>
      ParseWindow(r) == Some((startField, endField))
  {
    var w := WindowWords(startField, endField);
    var r := Join(" ", w);
    assert r == w[0] + " " + Join(" ", w[1..]);
    assert r[..|w[0]|] == w[0] && r[0] == '(' && "1=1"[0] == '1';
    WindowReadBack(startField, endField);
    r
  }

  /** Splitting the joined words at blanks gives them back, so the parse
      recovers both fields. */
  lemma WindowReadBack(startField: string, endField: string)
    ensures NoChar(startField, ' ') && NoChar(endField, ' ') ==>
      ParseWindow(Join(" ", WindowWords(startField, endField))) == Some((startField, endField))
  {
    var w := WindowWords(startField, endField);
    if NoChar(startField, ' ') && NoChar(endField, ' ') {
      forall i | 0 <= i < |w| ensures NoChar(w[i], ' ') {
      }
      SplitJoin(w, ' ');
    }
  }

  /** Reads the two date fields back from a clause: its words must be those
      of a window clause, the start field compared with "<=" and the end
      field with ">"; None for any other text. */
  function ParseWindow(clause: string): (r: Option<(string, string)>)
    ensures r.Some? ==> SplitOn(clause, ' ') == WindowWords(r.value.0, r.value.1)
  {
    var w := SplitOn(clause, ' ');
    if |w| == 15 && |w[0]| >= 1 && |w[8]| >= 1 && w[0][0] == '(' && w[8][0] == '(' &&
       w[0][1..] == w[4] && w[8][1..] == w[12] &&
       w[1] == "is" && w[2] == "null" && w[3] == "or" && w[5] == "<=" && w[6] == "CURRENT_TIMESTAMP)" &&
       w[7] == "and" && w[9] == "is" && w[10] == "null" && w[11] == "or" && w[13] == ">" &&
       w[14] == "CURRENT_TIMESTAMP)"
    then
      assert w[0] == "(" + w[4] && w[8] == "(" + w[12];
      Some((w[4], w[12]))
    else None
  }

  /** The clause used by the XREF and transfer tools: no filter as soon as
      either date field is missing. */
  function ActiveClause(startField: string, endField: string): (r: string)
    ensures r == "1=1" <==> startField == "" || endField == ""
    ensures r != "1=1" ==> r == DateWindowClause(startField, endField)
  {
    if startField == "" || endField == "" then "1=1" else DateWindowClause(startField, endField)
  }

  /** The clause used by the match-candidate tool, whose guard tests the start
      field twice and never looks at the end field. */
  function MatchToolActiveClause(startField: string, endField: string): (r: string)
    ensures r == "1=1" <==> startField == ""
    ensures r != "1=1" ==> r == DateWindowClause(startField, endField)
  {
    if startField == "" || startField == "" then "1=1" else DateWindowClause(startField, endField)
  }

  /** The two guards disagree exactly when only the end field is missing: the
      match tool then filters on a clause naming an empty end field. */
  lemma MatchToolGuardDiffers(startField: string, endField: string)
    ensures MatchToolActiveClause(startField, endField) != ActiveClause(startField, endField)
        <==> startField != "" && endField == ""
  {
  }

  /** A dated layer whose end field is not given: the match tool builds the
      window clause with an empty end field, where the other tools drop the
      filter. */
  lemma EmptyEndFieldExample()
    ensures MatchToolActiveClause("FDATE", "") == DateWindowClause("FDATE", "")
    ensures ActiveClause("FDATE", "") == "1=1"
  {
  }

  /** The line-event transfer to HERE switches the event filter on by the ROUTE
      date fields but writes the clause with the EVENT date fields. */
  function EventActiveClause(routeStart: string, routeEnd: string, eventStart: string, eventEnd: string): (r: string)
    ensures r == "1=1" <==> routeStart == "" || routeEnd == ""
    ensures r != "1=1" ==> r == DateWindowClause(eventStart, eventEnd)
  {
    if routeStart == "" || routeEnd == "" then "1=1" else DateWindowClause(eventStart, eventEnd)
  }
}

=== FILE: base.dfy ===
/** Shared vocabulary of the conflation model: optional values, results with
    an error message (the Python code's exceptions), and the small string
    operations the scripts perform with `str` methods. */
module Base {

  /** A possibly-null cell value (`None` in the scripts). */
  datatype Option<+T> = None | Some(value: T)

  /** The outcome of an operation that may raise in the source. */
  datatype Result<+T> = Ok(value: T) | Err(msg: string)

  // ---------------------------------------------------------------------------
  // Characters

  /** Characters removed by Python's `str.strip()` and used by `str.split()`. */
  predicate IsSpace(c: char) {
    c == ' ' || c == '\t' || c == '\n' || c == '\r' || c as int == 11 || c as int == 12
  }

  predicate IsDigit(c: char) {
    '0' <= c <= '9'
  }

  function DigitValue(c: char): nat
    requires IsDigit(c)
  {
    (c as int) - ('0' as int)
  }

  function DigitChar(d: nat): char
    requires d < 10
  {
    (('0' as int) + d) as char
  }

  /** ASCII lower-casing, as `str.lower()` does on ASCII text. */
  function LowerChar(c: char): char {
    if 'A' <= c <= 'Z' then ((c as int) + 32) as char else c
  }

  function Lower(s: string): (r: string)
    ensures |r| == |s|
    ensures forall i :: 0 <= i < |s| ==> r[i] == LowerChar(s[i])
  {
    if |s| == 0 then "" else [LowerChar(s[0])] + Lower(s[1..])
  }

  // ---------------------------------------------------------------------------
  // Whitespace

  /** True when `s.strip() == ""`. */
  predicate IsBlank(s: string) {
    forall i :: 0 <= i < |s| ==> IsSpace(s[i])
  }

  function StripLeft(s: string): (r: string)
    ensures |r| <= |s| && r == s[|s| - |r|..]
    ensures |r| > 0 ==> !IsSpace(r[0])
    decreases |s|
  {
    if |s| > 0 && IsSpace(s[0]) then StripLeft(s[1..]) else s
  }

  function StripRight(s: string): (r: string)
    ensures |r| <= |s| && r == s[..|r|]
    ensures |r| > 0 ==> !IsSpace(r[|r| - 1])
    decreases |s|
  {
    if |s| > 0 && IsSpace(s[|s| - 1]) then StripRight(s[..|s| - 1]) else s
  }

  /** Python's `str.strip()` with no argument. */
  function Strip(s: string): string {
    StripRight(StripLeft(s))
  }

  // ---------------------------------------------------------------------------
  // Searching and joining

  predicate IsPrefix(p: string, s: string) {
    |p| <= |s| && s[..|p|] == p
  }

  /** Python's `sub in s`. */
  predicate Contains(s: string, sub: string)
    decreases |s|
  {
    IsPrefix(sub, s) || (|s| > 0 && Contains(s[1..], sub))
  }

  /** Python's `sep.join(parts)`. */
  function Join(sep: string, parts: seq<string>): string
    decreases |parts|
  {
    if |parts| == 0 then ""
    else if |parts| == 1 then parts[0]
    else parts[0] + sep + Join(sep, parts[1..])
  }

  lemma JoinTwo(sep: string, a: string, b: string)
    ensures Join(sep, [a, b]) == a + sep + b
  {
    assert [a, b][1..] == [b];
  }

  /** Python's `s.split(c)` for a one-character separator. */
  function SplitOn(s: string, c: char): (r: seq<string>)
    ensures |r| >= 1
    decreases |s|
  {
    if |s| == 0 then [""]
    else
      var rest := SplitOn(s[1..], c);
      if s[0] == c then [""] + rest else [[s[0]] + rest[0]] + rest[1..]
  }

  predicate NoChar(s: string, c: char) {
    forall k :: 0 <= k < |s| ==> s[k] != c
  }

  lemma {:induction false} SplitWithoutSeparator(a: string, c: char)
    requires NoChar(a, c)
    ensures SplitOn(a, c) == [a]
    decreases |a|
  {
    if |a| > 0 {
      SplitWithoutSeparator(a[1..], c);
      assert [a[0]] + a[1..] == a;
    }
  }

  lemma {:induction false} SplitAtSeparator(a: string, rest: string, c: char)
    requires NoChar(a, c)
    ensures SplitOn(a + [c] + rest, c) == [a] + SplitOn(rest, c)
    decreases |a|
  {
    if |a| == 0 {
      assert a + [c] + rest == [c] + rest;
      assert (a + [c] + rest)[1..] == rest;
    } else {
      assert (a + [c] + rest)[1..] == a[1..] + [c] + rest;
      SplitAtSeparator(a[1..], rest, c);
      assert [a[0]] + a[1..] == a;
    }
  }

  /** Splitting a join of pieces free of the separator gives the pieces
      back. */
  lemma {:induction false} SplitJoin(parts: seq<string>, c: char)
    requires |parts| > 0
    requires forall i :: 0 <= i < |parts| ==> NoChar(parts[i], c)
    ensures SplitOn(Join([c], parts), c) == parts
    decreases |parts|
  {
    if |parts| == 1 {
      SplitWithoutSeparator(parts[0], c);
    } else {
      SplitJoin(parts[1..], c);
      SplitAtSeparator(parts[0], Join([c], parts[1..]), c);
      assert [parts[0]] + parts[1..] == parts;
    }
  }

  /** Python's `s.replace(pat, rep)` for a non-empty `pat`. */
  function Replace(s: string, pat: string, rep: string): string
    requires |pat| > 0
    decreases |s|
  {
    if |s| == 0 then ""
    else if IsPrefix(pat, s) then rep + Replace(s[|pat|..], pat, rep)
    else [s[0]] + Replace(s[1..], pat, rep)
  }

  // ---------------------------------------------------------------------------
  // Decimal rendering of naturals (Python's `str(n)` / `"%s" % n`)

  function NatToString(n: nat): (r: string)
    ensures |r| >= 1
    ensures forall i :: 0 <= i < |r| ==> IsDigit(r[i])
  {
    if n < 10 then [DigitChar(n)] else NatToString(n / 10) + [DigitChar(n % 10)]
  }

  function IntToString(n: int): string {
    if n < 0 then "-" + NatToString(-n) else NatToString(n)
  }

  /** The value of a string of decimal digits (leading zeros allowed). */
  function ParseDigits(s: string): nat
    requires forall i :: 0 <= i < |s| ==> IsDigit(s[i])
  {
    if |s| == 0 then 0 else ParseDigits(s[..|s| - 1]) * 10 + DigitValue(s[|s| - 1])
  }

  /** Parsing undoes rendering, so `str(n)` loses no information. */
  lemma {:induction false} ParseRendersBack(n: nat)
    ensures ParseDigits(NatToString(n)) == n
  {
    if n >= 10 {
      var s := NatToString(n);
      var p := NatToString(n / 10);
      assert s == p + [DigitChar(n % 10)];
      assert s[..|s| - 1] == p;
      ParseRendersBack(n / 10);
    }
  }

  /** Distinct naturals render to distinct strings. */
  lemma NatToStringInjective(a: nat, b: nat)
    requires a != b
    ensures NatToString(a) != NatToString(b)
  {
    ParseRendersBack(a);
    ParseRendersBack(b);
  }

  // ---------------------------------------------------------------------------
  // Counting

  function Count<T(==)>(s: seq<T>, x: T): (n: nat)
    ensures n <= |s|
    ensures n == 0 <==> x !in s
  {
    if |s| == 0 then 0 else (if s[0] == x then 1 else 0) + Count(s[1..], x)
  }

  lemma CountAppend<T>(a: seq<T>, b: seq<T>, x: T)
    ensures Count(a + b, x) == Count(a, x) + Count(b, x)
  {
    if |a| == 0 {
      assert a + b == b;
    } else {
      assert (a + b)[1..] == a[1..] + b;
      CountAppend(a[1..], b, x);
    }
  }

  // ---------------------------------------------------------------------------
  // Duplicates

  predicate NoDuplicates<T(==)>(s: seq<T>) {
    forall i, j :: 0 <= i < j < |s| ==> s[i] != s[j]
  }

  /** The first occurrence of every element, in order (a dissolve, a
      frequency table or a `set` built in a loop). */
  function Distinct<T(==,!new)>(s: seq<T>): (r: seq<T>)
    ensures NoDuplicates(r)
    ensures forall x :: x in r <==> x in s
    ensures |r| <= |s|
    decreases |s|
  {
    if |s| == 0 then []
    else
      var front := Distinct(s[..|s| - 1]);
      var last := s[|s| - 1];
      assert s == s[..|s| - 1] + [last];
      if last in front then front else front + [last]
  }
}

=== FILE: core_util.dfy ===
/** Number extraction from free text and linear-unit conversion to miles. */
module CoreUtil {
  import opened Base

  // ---------------------------------------------------------------------------
  // extract_number_from_string: findall of  [-+]?\d*\.\d+|\d+

  predicate IsSign(c: char) {
    c == '-' || c == '+'
  }

  predicate AllDigits(s: string) {
    forall k :: 0 <= k < |s| ==> IsDigit(s[k])
  }

  /** The end of the maximal run of digits starting at `q`. */
  function DigitRunEnd(s: string, q: nat): (e: nat)
    requires q <= |s|
    ensures q <= e <= |s|
    ensures forall k :: q <= k < e ==> IsDigit(s[k])
    ensures e == |s| || !IsDigit(s[e])
    decreases |s| - q
  {
    if q < |s| && IsDigit(s[q]) then DigitRunEnd(s, q + 1) else q
  }

  /** A run of digits that stops at a non-digit (or the end) is the maximal
      run. */
  lemma {:induction false} DigitRunUnique(s: string, q: nat, e: nat)
    requires q <= e <= |s|
    requires forall k :: q <= k < e ==> IsDigit(s[k])
    requires e == |s| || !IsDigit(s[e])
    ensures DigitRunEnd(s, q) == e
    decreases e - q
  {
    if q < e {
      DigitRunUnique(s, q + 1, e);
    }
  }

  /** Python's `float` on decimal notation: an optional sign, a mantissa
      (digits, digits and a point, or digits, a point and digits, with at
      least one digit in all), and an optional exponent ('e' or 'E', an
      optional sign, digits); None when the text is not of that shape. */
  function ParseDecimal(v: string): (r: Option<real>) {
    var a := if |v| > 0 && IsSign(v[0]) then 1 else 0;
    var body := v[a..];
    var x := ExponentAt(body, 0);
    var magnitude := ParseMantissa(body[..x]);
    var exponent := if x == |body| then Some(0) else ParseExponent(body[x + 1..]);
    if magnitude.None? || exponent.None? then None
    else
      var m := magnitude.value * Scale(exponent.value);
      Some(if a == 1 && v[0] == '-' then -m else m)
  }

  /** The position of the first exponent mark at or after `q`, or the
      length. */
  function ExponentAt(s: string, q: nat): (x: nat)
    requires q <= |s|
    ensures q <= x <= |s|
    ensures forall k :: q <= k < x ==> s[k] != 'e' && s[k] != 'E'
    ensures x < |s| ==> s[x] == 'e' || s[x] == 'E'
    decreases |s| - q
  {
    if q == |s| || s[q] == 'e' || s[q] == 'E' then q else ExponentAt(s, q + 1)
  }

  /** The mantissa: digits, optionally followed by a point and more
      digits, with at least one digit on either side of the point. */
  function ParseMantissa(s: string): (r: Option<real>) {
    var e := DigitRunEnd(s, 0);
    if e == |s| && e > 0 then Some(ParseDigits(s) as real)
    else if e < |s| && s[e] == '.' && AllDigits(s[e + 1..]) && (e > 0 || e + 1 < |s|) then
      var frac := s[e + 1..];
      Some(ParseDigits(s[..e]) as real + (ParseDigits(frac) as real) / (Pow10(|frac|) as real))
    else None
  }

  /** The exponent: an optional sign and at least one digit. */
  function ParseExponent(s: string): (r: Option<int>) {
    var a := if |s| > 0 && IsSign(s[0]) then 1 else 0;
    var digits := s[a..];
    if |digits| > 0 && AllDigits(digits) then
      var n: int := ParseDigits(digits);
      Some(if a == 1 && s[0] == '-' then -n else n)
    else None
  }

  /** Ten to an integer power. */
  function Scale(n: int): (r: real)
    ensures r > 0.0
  {
    if n >= 0 then Pow10(n) as real else 1.0 / (Pow10(-n) as real)
  }

  /** An exponent reads as `float` reads it. */
  lemma ParseExponentExample()
    ensures ParseDecimal("1e3") == Some(1000.0)
  {
    assert "1e3"[0..] == "1e3" && "1e3"[..1] == "1" && "1e3"[2..] == "3";
    assert ExponentAt("1e3", 0) == 1;
    assert DigitRunEnd("1", 0) == 1 && ParseDigits("1") == 1;
    assert ParseExponent("3") == Some(3) by {
      assert "3"[0..] == "3" && ParseDigits("3") == 3;
    }
    assert Pow10(3) == 1000;
  }

  /** A negative exponent on a signed number. */
  lemma ParseNegativeExponentExample()
    ensures ParseDecimal("-5E-1") == Some(-0.5)
  {
    var v := "-5E-1";
    var body := v[1..];
    assert IsSign(v[0]) && body == "5E-1";
    assert ExponentAt(body, 0) == 1 && body[..1] == "5" && body[2..] == "-1";
    assert ParseMantissa("5") == Some(5.0) by {
      assert DigitRunEnd("5", 0) == 1 && ParseDigits("5") == 5;
    }
    assert ParseExponent("-1") == Some(-1) by {
      assert "-1"[1..] == "1" && ParseDigits("1") == 1;
    }
    assert Scale(-1) == 0.1 by {
      assert Pow10(1) == 10;
    }
  }

  /** A trailing point reads; a point alone does not. */
  lemma ParsePointExamples()
    ensures ParseDecimal("1.") == Some(1.0)
    ensures ParseDecimal(".") == None
  {
    assert "1."[0..] == "1.";
    assert ExponentAt("1.", 0) == 2 && "1."[..2] == "1.";
    assert DigitRunEnd("1.", 0) == 1 && "1."[..1] == "1" && "1."[2..] == "";
    assert "."[0..] == ".";
    assert ExponentAt(".", 0) == 1 && "."[..1] == "." && DigitRunEnd(".", 0) == 0;
  }

  /** The infinities and NaN have no real value and do not read. */
  lemma ParseInfinityExample()
    ensures ParseDecimal("inf") == None
  {
    assert "inf"[0..] == "inf" && ExponentAt("inf", 0) == 3 && "inf"[..3] == "inf";
    assert DigitRunEnd("inf", 0) == 0;
  }

  function Pow10(n: nat): (r: nat)
    ensures r >= 1
  {
    if n == 0 then 1 else 10 * Pow10(n - 1)
  }

  /** The language of the pattern: a signed or unsigned decimal with a
      fractional part, or an unsigned run of digits. */
  predicate IsNumberToken(t: string) {
    var a := if |t| > 0 && IsSign(t[0]) then 1 else 0;
    var body := t[a..];
    var e := DigitRunEnd(body, 0);
    (a == 0 && e == |body| && e > 0) || (e + 1 < |body| && body[e] == '.' && AllDigits(body[e + 1..]))
  }

  /** Every token of the pattern is a number `float` accepts. */
  lemma TokenParses(t: string)
    requires IsNumberToken(t)
    ensures ParseDecimal(t).Some?
  {
  }

  /** The fractional alternative matches at `p`. */
  predicate FractionAt(s: string, p: nat)
    requires p < |s|
  {
    var q := if IsSign(s[p]) then p + 1 else p;
    var e := DigitRunEnd(s, q);
    e + 1 < |s| && s[e] == '.' && IsDigit(s[e + 1])
  }

  /** Where a match starting at `p` ends, trying the fractional alternative
      first (sign, greedy digits, '.', digits) and then a plain digit run. */
  function MatchAt(s: string, p: nat): (r: Option<nat>)
    requires p < |s|
    ensures r.Some? ==> p < r.value <= |s|
    ensures r.None? <==> !IsDigit(s[p]) && !FractionAt(s, p)
  {
    if FractionAt(s, p) then
      var q := if IsSign(s[p]) then p + 1 else p;
      Some(DigitRunEnd(s, DigitRunEnd(s, q) + 1))
    else if IsDigit(s[p]) then Some(DigitRunEnd(s, p))
    else None
  }

  /** Every match is a token of the pattern's language. */
  lemma MatchIsToken(s: string, p: nat)
    requires p < |s| && MatchAt(s, p).Some?
    ensures IsNumberToken(s[p..MatchAt(s, p).value])
  {
    if FractionAt(s, p) {
      FractionIsToken(s, p);
    } else {
      IntegerIsToken(s, p);
    }
  }

  lemma FractionIsToken(s: string, p: nat)
    requires p < |s| && FractionAt(s, p)
    ensures IsNumberToken(s[p..MatchAt(s, p).value])
  {
    var f := MatchAt(s, p).value;
    var t := s[p..f];
    var q := if IsSign(s[p]) then p + 1 else p;
    var e := DigitRunEnd(s, q);
    var a := q - p;
    assert a == (if |t| > 0 && IsSign(t[0]) then 1 else 0);
    var body := t[a..];
    assert body == s[q..f];
    assert body[e - q] == '.';
    DigitRunUnique(body, 0, e - q);
    assert body[e - q + 1..] == s[e + 1..f];
  }

  lemma IntegerIsToken(s: string, p: nat)
    requires p < |s| && !FractionAt(s, p) && IsDigit(s[p])
    ensures IsNumberToken(s[p..MatchAt(s, p).value])
  {
    var t := s[p..MatchAt(s, p).value];
    assert !IsSign(t[0]);
    assert t[0..] == t;
    DigitRunUnique(t, 0, |t|);
  }

  /** `re.findall` from position `p`: after a match the scan resumes at its
      end, otherwise one character later. */
  function FindAll(s: string, p: nat): (r: seq<string>)
    requires p <= |s|
    ensures forall i :: 0 <= i < |r| ==> IsNumberToken(r[i])
    decreases |s| - p
  {
    if p == |s| then []
    else
      match MatchAt(s, p)
      case Some(e) =>
        MatchIsToken(s, p);
        [s[p..e]] + FindAll(s, e)
      case None => FindAll(s, p + 1)
  }

  /** `extract_number_from_string`: `float` of every match, left to right. */
  function ExtractNumbers(s: string): (r: seq<real>)
    ensures |r| == |FindAll(s, 0)|
    ensures forall i :: 0 <= i < |r| ==> Some(r[i]) == ParseDecimal(FindAll(s, 0)[i])
  {
    var tokens := FindAll(s, 0);
    seq(|tokens|, i requires 0 <= i < |tokens| =>
      TokenParses(tokens[i]);
      ParseDecimal(tokens[i]).value)
  }

  /** Text with no digit holds no number. */
  lemma {:induction false} NoDigitNoNumber(s: string, p: nat)
    requires p <= |s| && forall k :: p <= k < |s| ==> !IsDigit(s[k])
    ensures FindAll(s, p) == []
    decreases |s| - p
  {
    if p < |s| {
      var q := if IsSign(s[p]) then p + 1 else p;
      assert DigitRunEnd(s, q) == q;
      NoDigitNoNumber(s, p + 1);
    }
  }

  /** A digit anywhere yields at least one number. */
  lemma {:induction false} DigitGivesNumber(s: string, p: nat, k: nat)
    requires p <= k < |s| && IsDigit(s[k])
    ensures |FindAll(s, p)| > 0
    decreases |s| - p
  {
    if MatchAt(s, p).None? {
      DigitGivesNumber(s, p + 1, k);
    }
  }

  /** Characters that cannot start or belong to a number are skipped. */
  lemma {:induction false} SkipFiller(s: string, p: nat, k: nat)
    requires p <= k <= |s|
    requires forall j :: p <= j < k ==> !IsDigit(s[j]) && !IsSign(s[j]) && s[j] != '.'
    ensures FindAll(s, p) == FindAll(s, k)
    decreases k - p
  {
    if p < k {
      FillerStep(s, p);
      SkipFiller(s, p + 1, k);
    }
  }

  /** One filler character is skipped. */
  lemma FillerStep(s: string, p: nat)
    requires p < |s| && !IsDigit(s[p]) && !IsSign(s[p]) && s[p] != '.'
    ensures FindAll(s, p) == FindAll(s, p + 1)
  {
    assert DigitRunEnd(s, p) == p;
    assert MatchAt(s, p).None?;
  }

  /** A digit run not followed by '.' is matched as one integer. */
  lemma IntegerMatch(s: string, p: nat, e: nat)
    requires p < e <= |s| && forall k :: p <= k < e ==> IsDigit(s[k])
    requires e == |s| || (!IsDigit(s[e]) && s[e] != '.')
    ensures FindAll(s, p) == [s[p..e]] + FindAll(s, e)
  {
    DigitRunUnique(s, p, e);
  }

  /** "1 and 1" gives two numbers, both 1. */
  lemma ExtractExample(s: string)
    requires s == "1 and 1"
    ensures FindAll(s, 0) == ["1", "1"]
    ensures ExtractNumbers(s) == [1.0, 1.0]
  {
    ParseOne("1");
    IntegerMatch(s, 0, 1);
    SkipFiller(s, 1, 6);
    IntegerMatch(s, 6, 7);
    assert s[0..1] == "1" && s[6..7] == "1";
  }

  /** An integer's sign is not part of the match: "-5" yields 5. */
  lemma SignDroppedOnIntegers()
    ensures FindAll("-5", 0) == ["5"]
  {
    var s := "-5";
    assert DigitRunEnd(s, 1) == 2;
    assert MatchAt(s, 0) == None;
    IntegerMatch(s, 1, 2);
    assert s[1..2] == "5";
  }

  /** A sign is kept on a number with a fractional part. */
  lemma SignKeptOnFractions()
    ensures FindAll("-1.5", 0) == ["-1.5"]
  {
    var s := "-1.5";
    assert DigitRunEnd(s, 1) == 2;
    assert DigitRunEnd(s, 3) == 4;
    assert MatchAt(s, 0) == Some(4);
    assert s[0..4] == s;
  }

  // ---------------------------------------------------------------------------
  // linear_units_to_mile

  /** Miles per unit for each unit name the conversion knows. */
  function MilesPerUnit(unit: string): Option<real> {
    if unit == "Centimeters" then Some(0.00000621371)
    else if unit == "Feet" then Some(0.000189394)
    else if unit == "Inches" then Some(0.000015783)
    else if unit == "Kilometers" then Some(0.621371)
    else if unit == "Meters" then Some(0.000621371)
    else if unit == "Miles" then Some(1.0)
    else if unit == "Millimeters" then Some(0.00000062137)
    else if unit == "Nautical Miles" then Some(1.15078)
    else None
  }

  /** The index of the first whitespace character at or after `q`. */
  function SpaceAt(s: string, q: nat): (e: nat)
    requires q <= |s|
    ensures q <= e <= |s|
    ensures forall k :: q <= k < e ==> !IsSpace(s[k])
    ensures e == |s| || IsSpace(s[e])
    decreases |s| - q
  {
    if q < |s| && !IsSpace(s[q]) then SpaceAt(s, q + 1) else q
  }

  /** `s.split(None, 1)`: the first word and the rest after the whitespace
      that follows it (trailing whitespace of the rest is kept). */
  function SplitOnce(s: string): (r: seq<string>)
    ensures |r| <= 2
    ensures |r| == 2 ==> |r[0]| > 0 && |r[1]| > 0 && !IsSpace(r[1][0])
  {
    var t := StripLeft(s);
    if |t| == 0 then []
    else
      var e := SpaceAt(t, 0);
      var rest := StripLeft(t[e..]);
      if |rest| == 0 then [t[..e]] else [t[..e], rest]
  }

  /** Whether a non-empty prefix of `s` of at most `n` characters reads as a
      number: Python 2's `float` reads the longest such prefix first and
      words its error by whether there was one. */
  predicate PrefixParses(s: string, n: nat)
    requires n <= |s|
  {
    n > 0 && (ParseDecimal(s[..n]).Some? || PrefixParses(s, n - 1))
  }

  /** `PrefixParses` tries every prefix length from `n` down to 1. */
  lemma {:induction false} PrefixParsesSomePrefix(s: string, n: nat)
    requires n <= |s|
    ensures PrefixParses(s, n) <==> exists k :: 1 <= k <= n && ParseDecimal(s[..k]).Some?
  {
    if n > 0 {
      PrefixParsesSomePrefix(s, n - 1);
    }
  }

  /** The value of the first part times the factor of the second.  The unit
      is looked up before the value is read, so an unknown unit is the error
      reported even when the value is not a number either.  A value that is
      not a number is reported, as Python 2 does, as an invalid literal when
      a number is followed by other text, and as not convertible when no
      prefix of it is a number. */
  function ConvertParts(val: string, unit: string): (r: Result<real>)
    ensures r.Ok? <==> ParseDecimal(val).Some? && MilesPerUnit(unit).Some?
    ensures r.Ok? ==> r.value == ParseDecimal(val).value * MilesPerUnit(unit).value
    ensures MilesPerUnit(unit).None? ==> r == Err("unhandled unit " + unit)
    ensures MilesPerUnit(unit).Some? && ParseDecimal(val).None? ==> r == Err(FloatError(val))
  {
    var factor := MilesPerUnit(unit);
    var value := ParseDecimal(val);
    if factor.None? then Err("unhandled unit " + unit)
    else if value.Some? then Ok(value.value * factor.value)
    else Err(FloatError(val))
  }

  /** The message of Python 2's `float` for a text that is not a number:
      an invalid literal when some prefix of it is a number followed by
      other text, not convertible when no prefix of it is a number. */
  function FloatError(val: string): (r: string)
    ensures (exists k :: 1 <= k <= |val| && ParseDecimal(val[..k]).Some?) ==>
      r == "invalid literal for float(): " + val
    ensures (forall k :: 1 <= k <= |val| ==> ParseDecimal(val[..k]).None?) ==>
      r == "could not convert string to float: " + val
  {
    PrefixParsesSomePrefix(val, |val|);
    if PrefixParses(val, |val|) then "invalid literal for float(): " + val
    else "could not convert string to float: " + val
  }

  /** `linear_units_to_mile`: an input that does not split into two parts,
      a value that is not a number, or an unknown unit raises. */
  function LinearUnitsToMile(s: string): (r: Result<real>)
    ensures |SplitOnce(s)| == 0 ==> r == Err("need more than 0 values to unpack")
    ensures |SplitOnce(s)| == 1 ==> r == Err("need more than 1 value to unpack")
    ensures |SplitOnce(s)| == 2 ==> r == ConvertParts(SplitOnce(s)[0], SplitOnce(s)[1])
  {
    var parts := SplitOnce(s);
    if |parts| == 0 then Err("need more than 0 values to unpack")
    else if |parts| == 1 then Err("need more than 1 value to unpack")
    else ConvertParts(parts[0], parts[1])
  }

  /** A number, one space and a known unit convert by that unit's factor;
      the split keeps a two-word unit such as "Nautical Miles" whole. */
  lemma UnitConversion(v: string, x: real, unit: string, f: real)
    requires ParseDecimal(v) == Some(x) && |v| > 0 && NoSpace(v)
    requires |unit| > 0 && !IsSpace(unit[0]) && MilesPerUnit(unit) == Some(f)
    ensures LinearUnitsToMile(v + " " + unit) == Ok(x * f)
  {
    var s := v + " " + unit;
    SplitOnceWordRest(v, unit);
    var parts := SplitOnce(s);
    assert LinearUnitsToMile(s) == ConvertParts(parts[0], parts[1]);
    ConvertKnown(parts[0], x, parts[1], f);
  }

  lemma ConvertKnown(v: string, x: real, unit: string, f: real)
    requires ParseDecimal(v) == Some(x) && MilesPerUnit(unit) == Some(f)
    ensures ConvertParts(v, unit) == Ok(x * f)
  {
  }

  predicate NoSpace(s: string) {
    forall k :: 0 <= k < |s| ==> !IsSpace(s[k])
  }

  /** A word, one space and a rest that starts with a non-space split into
      exactly those two parts, so a unit name may itself hold spaces. */
  lemma SplitOnceWordRest(w: string, rest: string)
    requires |w| > 0 && NoSpace(w) && |rest| > 0 && !IsSpace(rest[0])
    ensures SplitOnce(w + " " + rest) == [w, rest]
  {
    var s := w + " " + rest;
    assert s[0] == w[0];
    assert StripLeft(s) == s;
    assert s[..|w|] == w && s[|w|..] == " " + rest;
    SpaceAtWord(s, w);
    SpaceThenWord(rest);
  }

  /** The first space after a space-free prefix `w` is right after it. */
  lemma SpaceAtWord(s: string, w: string)
    requires |w| < |s| && s[..|w|] == w && NoSpace(w) && s[|w|] == ' '
    ensures SpaceAt(s, 0) == |w|
  {
    assert forall k :: 0 <= k < |w| ==> s[k] == w[k];
  }

  /** Left-stripping one space before a word gives the word. */
  lemma SpaceThenWord(rest: string)
    requires |rest| > 0 && !IsSpace(rest[0])
    ensures StripLeft(" " + rest) == rest
  {
    assert (" " + rest)[1..] == rest;
  }

  /** Metric units agree with the meter factor scaled by powers of ten,
      except millimeters, whose factor lost its last digit. */
  lemma MetricFactors()
    ensures MilesPerUnit("Kilometers").value == 1000.0 * MilesPerUnit("Meters").value
    ensures MilesPerUnit("Centimeters").value == MilesPerUnit("Meters").value / 100.0
    ensures MilesPerUnit("Millimeters").value != MilesPerUnit("Meters").value / 1000.0
  {
  }

  lemma ParseOne(v: string)
    requires v == "1"
    ensures ParseDecimal(v) == Some(1.0) && |v| > 0 && NoSpace(v)
  {
    assert !IsSign(v[0]) && v[0..] == v;
    assert DigitRunEnd(v, 0) == 1;
    assert v[..0] == [] && ParseDigits(v) == 1;
  }

  /** Every known unit name starts with a letter. */
  lemma KnownUnitShape(unit: string)
    requires MilesPerUnit(unit).Some?
    ensures |unit| > 0 && !IsSpace(unit[0])
  {
  }

  /** "1x" is a number followed by other text: an invalid literal. */
  lemma InvalidLiteralExample(a: string, unit: string)
    requires a == "1x" && unit == "Meters"
    ensures ConvertParts(a, unit) == Err("invalid literal for float(): " + a)
  {
    assert a[..1] == "1" && a[..2] == a;
    assert ParseDecimal("1") == Some(1.0) by {
      assert "1"[0..] == "1" && ExponentAt("1", 0) == 1 && "1"[..1] == "1";
      assert DigitRunEnd("1", 0) == 1 && ParseDigits("1") == 1;
    }
    assert ParseDecimal(a) == None by {
      assert a[0..] == a && ExponentAt(a, 0) == 2 && a[..2] == a;
      assert DigitRunEnd(a, 0) == 1;
    }
  }

  /** "x" has no numeric prefix: it cannot be converted at all. */
  lemma NoNumberExample(b: string, unit: string)
    requires b == "x" && unit == "Meters"
    ensures ConvertParts(b, unit) == Err("could not convert string to float: " + b)
  {
    assert b[..1] == b;
    assert ParseDecimal(b) == None by {
      assert b[0..] == b && ExponentAt(b, 0) == 1 && b[..1] == b;
      assert DigitRunEnd(b, 0) == 0;
    }
  }

  /** A word followed by a unit with no factor raises for the unit, whether
      or not the word is a number. */
  lemma UnknownUnitRaises(v: string, unit: string)
    requires |v| > 0 && NoSpace(v) && |unit| > 0 && !IsSpace(unit[0]) && MilesPerUnit(unit).None?
    ensures LinearUnitsToMile(v + " " + unit) == Err("unhandled unit " + unit)
  {
    var s := v + " " + unit;
    SplitOnceWordRest(v, unit);
    var parts := SplitOnce(s);
    assert LinearUnitsToMile(s) == ConvertParts(parts[0], parts[1]);
  }

  /** "1 decimal" raises for its unit; so does "x decimal", whose value is
      not a number either, because the unit is looked up first. */
  lemma UnknownUnitExample(v: string, w: string, unit: string)
    requires v == "1" && w == "x" && unit == "decimal"
    ensures LinearUnitsToMile(v + " " + unit) == Err("unhandled unit " + unit)
    ensures LinearUnitsToMile(w + " " + unit) == Err("unhandled unit " + unit)
  {
    UnknownUnitRaises(v, unit);
    UnknownUnitRaises(w, unit);
  }
}

=== FILE: crosswalk.dfy ===
/** The measure crosswalk between HERE routes and DOT routes: an event at
    measure `m` on one route is rescaled onto the route with the same id in
    the other system through the two routes' lengths and measure extents.
    The XREF tool applies it from HERE to DOT; the DOT-to-HERE transfer
    applies the reverse.  The transfer writes a different formula for point
    events, kept here as `TransferPoint` next to the line formula.

    Measures are modelled over `real`; the rounding to three decimal places
    is left out. */
module Crosswalk {
  import opened Base

  // ---------------------------------------------------------------------------
  // Route information

  /** What the tools keep of a route shape: its length and the measure
      extent (MMin, MMax). */
  datatype RouteInfo = RouteInfo(length: real, mmin: real, mmax: real)

  /** An extent never has MMax below MMin. */
  predicate Extent(i: RouteInfo) {
    i.mmin <= i.mmax
  }

  function Abs(x: real): (r: real)
    ensures r >= 0.0 && (r == x || r == -x)
  {
    if x < 0.0 then -x else x
  }

  // ---------------------------------------------------------------------------
  // HERE to DOT (generate_xref_table)

  /** The divisions of the HERE-to-DOT formula are defined: both lengths and
      the HERE measure span are non-zero. */
  predicate XrefDefined(h: RouteInfo, d: RouteInfo) {
    h.length != 0.0 && d.length != 0.0 && h.mmax != h.mmin
  }

  /** The affine rescaling that sends base `from` to base `to`, scaling the
      offset from the base by `toSpan / fromSpan`. */
  function Affine(m: real, from: real, to: real, fromSpan: real, toSpan: real): real
    requires fromSpan != 0.0
  {
    to + (m - from) * toSpan / fromSpan
  }

  /** The HERE-to-DOT crosswalk in closed form: the offset from the HERE
      MMin scaled by the ratio of the two measure spans, from the DOT MMin. */
  function XrefMeasure(m: real, h: RouteInfo, d: RouteInfo): real
    requires XrefDefined(h, d)
  {
    Affine(m, h.mmin, d.mmin, Abs(h.mmax - h.mmin), Abs(d.mmax - d.mmin))
  }

  /** The XREF formula as the tool writes it: measure offset over the HERE
      measure-per-length ratio, over the HERE/DOT length ratio, times the
      DOT measure-per-length ratio, plus the DOT MMin.  The route lengths
      cancel, leaving the closed form. */
  function XrefByRatios(m: real, h: RouteInfo, d: RouteInfo): (r: real)
    requires XrefDefined(h, d)
    ensures r == XrefMeasure(m, h, d)
  {
    var hereDotLengthRatio := h.length / d.length;
    var hereMeasureLengthRatio := Abs(h.mmax - h.mmin) / h.length;
    var dotMeasureLengthRatio := Abs(d.mmax - d.mmin) / d.length;
    ScaleCancels(m - h.mmin, Abs(h.mmax - h.mmin), Abs(d.mmax - d.mmin), h.length, d.length);
    (m - h.mmin) / hereMeasureLengthRatio / hereDotLengthRatio * dotMeasureLengthRatio + d.mmin
  }

  /** The lengths cancel out of the three ratios. */
  lemma ScaleCancels(a: real, spanFrom: real, spanTo: real, lenFrom: real, lenTo: real)
    requires spanFrom != 0.0 && lenFrom != 0.0 && lenTo != 0.0
    ensures a / (spanFrom / lenFrom) / (lenFrom / lenTo) * (spanTo / lenTo) == a * spanTo / spanFrom
  {
    var x := a / (spanFrom / lenFrom);
    assert x == a * lenFrom / spanFrom;
    var y := x / (lenFrom / lenTo);
    assert y == a * lenTo / spanFrom;
    assert y * (spanTo / lenTo) == a * spanTo / spanFrom;
  }

  /** The ends of the HERE extent land on the ends of the DOT extent. */
  lemma XrefEndpoints(h: RouteInfo, d: RouteInfo)
    requires XrefDefined(h, d) && Extent(h) && Extent(d)
    ensures XrefMeasure(h.mmin, h, d) == d.mmin
    ensures XrefMeasure(h.mmax, h, d) == d.mmax
  {
    assert (h.mmax - h.mmin) * (d.mmax - d.mmin) / (h.mmax - h.mmin) == d.mmax - d.mmin;
  }

  /** Scaling by a non-negative factor keeps the order. */
  lemma ScaleMonotone(a: real, b: real, s: real, t: real)
    requires a <= b && s >= 0.0 && t > 0.0
    ensures a * s / t <= b * s / t
  {
    var k := s / t;
    assert k >= 0.0;
    assert a * s / t == a * k;
    assert b * s / t == b * k;
    assert (b - a) * k >= 0.0;
  }

  /** A rescaling between positive spans keeps the order. */
  lemma AffineMonotone(m1: real, m2: real, from: real, to: real, fromSpan: real, toSpan: real)
    requires m1 <= m2 && fromSpan > 0.0 && toSpan >= 0.0
    ensures Affine(m1, from, to, fromSpan, toSpan) <= Affine(m2, from, to, fromSpan, toSpan)
  {
    ScaleMonotone(m1 - from, m2 - from, toSpan, fromSpan);
  }

  /** The crosswalk keeps the order of measures, so an event's from measure
      stays at or below its to measure. */
  lemma XrefMonotone(m1: real, m2: real, h: RouteInfo, d: RouteInfo)
    requires XrefDefined(h, d) && m1 <= m2
    ensures XrefMeasure(m1, h, d) <= XrefMeasure(m2, h, d)
  {
    AffineMonotone(m1, m2, h.mmin, d.mmin, Abs(h.mmax - h.mmin), Abs(d.mmax - d.mmin));
  }

  /** HERE length 10 over measures 0..10 and DOT length 20 over 0..100: the
      extent 2..4 maps to 20..40. */
  lemma XrefExample()
    ensures XrefMeasure(2.0, RouteInfo(10.0, 0.0, 10.0), RouteInfo(20.0, 0.0, 100.0)) == 20.0
    ensures XrefMeasure(4.0, RouteInfo(10.0, 0.0, 10.0), RouteInfo(20.0, 0.0, 100.0)) == 40.0
  {
  }

  // ---------------------------------------------------------------------------
  // DOT to HERE (transfer_dot_event_attribute_to_here)

  /** The divisions of the DOT-to-HERE formula are defined: both lengths and
      the DOT measure span are non-zero. */
  predicate TransferDefined(d: RouteInfo, h: RouteInfo) {
    d.length != 0.0 && h.length != 0.0 && d.mmax != d.mmin
  }

  /** DOT-to-HERE for line events in closed form: the XREF closed form with
      the roles of the two systems swapped. */
  function TransferLine(m: real, d: RouteInfo, h: RouteInfo): real
    requires TransferDefined(d, h)
  {
    Affine(m, d.mmin, h.mmin, Abs(d.mmax - d.mmin), Abs(h.mmax - h.mmin))
  }

  /** The line-event formula as the tool writes it, through the three
      ratios; the lengths cancel. */
  function TransferLineByRatios(m: real, d: RouteInfo, h: RouteInfo): (r: real)
    requires TransferDefined(d, h)
    ensures r == TransferLine(m, d, h)
  {
    var dotHereLengthRatio := d.length / h.length;
    var hereMeasureLengthRatio := Abs(h.mmax - h.mmin) / h.length;
    var dotMeasureLengthRatio := Abs(d.mmax - d.mmin) / d.length;
    ScaleCancels(m - d.mmin, Abs(d.mmax - d.mmin), Abs(h.mmax - h.mmin), d.length, h.length);
    (m - d.mmin) / dotMeasureLengthRatio / dotHereLengthRatio * hereMeasureLengthRatio + h.mmin
  }

  /** DOT-to-HERE for point events in closed form: the DOT MMin is added
      to the measure where the line formula subtracts it. */
  function TransferPoint(m: real, d: RouteInfo, h: RouteInfo): real
    requires TransferDefined(d, h)
  {
    Affine(m, -d.mmin, h.mmin, Abs(d.mmax - d.mmin), Abs(h.mmax - h.mmin))
  }

  /** The point-event formula as the tool writes it, through the three
      ratios. */
  function TransferPointByRatios(m: real, d: RouteInfo, h: RouteInfo): (r: real)
    requires TransferDefined(d, h)
    ensures r == TransferPoint(m, d, h)
  {
    var dotHereLengthRatio := d.length / h.length;
    var hereMeasureLengthRatio := Abs(h.mmax - h.mmin) / h.length;
    var dotMeasureLengthRatio := Abs(d.mmax - d.mmin) / d.length;
    ScaleCancels(m + d.mmin, Abs(d.mmax - d.mmin), Abs(h.mmax - h.mmin), d.length, h.length);
    (m + d.mmin) / dotMeasureLengthRatio / dotHereLengthRatio * hereMeasureLengthRatio + h.mmin
  }

  /** A rescaling is undone by the rescaling with the bases and the spans
      swapped. */
  lemma AffineInverse(m: real, a: real, b: real, s: real, t: real)
    requires s != 0.0 && t != 0.0
    ensures Affine(Affine(m, a, b, s, t), b, a, t, s) == m
  {
    var x := Affine(m, a, b, s, t);
    var c := (m - a) * t / s;
    assert x - b == c;
    assert c * s == (m - a) * t;
    assert c * s / t == m - a;
  }

  /** Line transfer undoes the crosswalk whenever both measure spans are
      non-zero. */
  lemma TransferUndoesXref(m: real, h: RouteInfo, d: RouteInfo)
    requires XrefDefined(h, d) && TransferDefined(d, h)
    ensures TransferLine(XrefMeasure(m, h, d), d, h) == m
  {
    AffineInverse(m, h.mmin, d.mmin, Abs(h.mmax - h.mmin), Abs(d.mmax - d.mmin));
  }

  /** The crosswalk undoes line transfer whenever both measure spans are
      non-zero. */
  lemma XrefUndoesTransfer(m: real, h: RouteInfo, d: RouteInfo)
    requires XrefDefined(h, d) && TransferDefined(d, h)
    ensures XrefMeasure(TransferLine(m, d, h), h, d) == m
  {
    AffineInverse(m, d.mmin, h.mmin, Abs(d.mmax - d.mmin), Abs(h.mmax - h.mmin));
  }

  /** A point event lands where a line end at a measure twice the DOT MMin
      further would land, so the two formulas agree exactly when the DOT
      MMin is zero (for a HERE route with a measure span). */
  lemma PointQuirk(m: real, d: RouteInfo, h: RouteInfo)
    requires TransferDefined(d, h)
    ensures TransferPoint(m, d, h) == TransferLine(m + 2.0 * d.mmin, d, h)
    ensures h.mmax != h.mmin ==> (TransferPoint(m, d, h) == TransferLine(m, d, h) <==> d.mmin == 0.0)
  {
    var sh := Abs(h.mmax - h.mmin);
    var sd := Abs(d.mmax - d.mmin);
    assert m - -d.mmin == (m + 2.0 * d.mmin) - d.mmin;
    if h.mmax != h.mmin {
      ScaleInjective(m - -d.mmin, m - d.mmin, sh, sd);
    }
  }

  /** Scaling by a non-zero factor keeps values apart. */
  lemma ScaleInjective(u: real, v: real, s: real, t: real)
    requires s != 0.0 && t != 0.0
    ensures u * s / t == v * s / t <==> u == v
  {
    if u * s / t == v * s / t {
      assert u * s == v * s;
    }
  }

  /** A DOT route measured 10 to 20 and a HERE route measured 0 to 10, both
      10 long: a point at the start of the DOT route lands at 20, past the
      end of the HERE route, where a line end at the same measure lands at
      the HERE start. */
  lemma PointQuirkExample()
    ensures TransferPoint(10.0, RouteInfo(10.0, 10.0, 20.0), RouteInfo(10.0, 0.0, 10.0)) == 20.0
    ensures TransferLine(10.0, RouteInfo(10.0, 10.0, 20.0), RouteInfo(10.0, 0.0, 10.0)) == 0.0
  {
  }

  /** The ends of the DOT extent land on the ends of the HERE extent under
      the line formula. */
  lemma TransferEndpoints(d: RouteInfo, h: RouteInfo)
    requires TransferDefined(d, h) && Extent(d) && Extent(h)
    ensures TransferLine(d.mmin, d, h) == h.mmin
    ensures TransferLine(d.mmax, d, h) == h.mmax
  {
  }

  // ---------------------------------------------------------------------------
  // The XREF table

  /** A located HERE link: the route it lies on and its from/to measures. */
  datatype LinkEvent = LinkEvent(lid: string, rid: string, fmeas: real, tmeas: real)

  /** A route record as the cursor reads it; `shape` is None for a null
      geometry. */
  datatype RouteRecord = RouteRecord(rid: string, shape: Option<RouteInfo>)

  /** A row of the XREF table. */
  datatype XrefRow = XrefRow(lid: string, rid: string, fmeas: real, tmeas: real)

  /** The (link, route) measure dictionary: the last event of each pair
      overwrites the earlier ones. */
  function MeasureDict(events: seq<LinkEvent>): (r: map<(string, string), (real, real)>)
    ensures forall k :: k in r <==> HasEvent(events, k.0, k.1)
    decreases |events|
  {
    if |events| == 0 then map[]
    else
      var front := events[..|events| - 1];
      var e := events[|events| - 1];
      assert forall i :: 0 <= i < |front| ==> front[i] == events[i];
      MeasureDict(front)[(e.lid, e.rid) := (e.fmeas, e.tmeas)]
  }

  /** The measures kept for a pair are those of its last event. */
  lemma {:induction false} MeasureDictLatest(events: seq<LinkEvent>, i: nat)
    requires i < |events|
    requires forall j :: i < j < |events| ==> (events[j].lid, events[j].rid) != (events[i].lid, events[i].rid)
    ensures (events[i].lid, events[i].rid) in MeasureDict(events)
    ensures MeasureDict(events)[(events[i].lid, events[i].rid)] == (events[i].fmeas, events[i].tmeas)
    decreases |events|
  {
    if i < |events| - 1 {
      var front := events[..|events| - 1];
      assert front[i] == events[i];
      forall j | i < j < |front| ensures (front[j].lid, front[j].rid) != (front[i].lid, front[i].rid) {
        assert front[j] == events[j];
      }
      MeasureDictLatest(front, i);
    }
  }

  /** The route dictionary: records with a null shape are skipped, and the
      last record of an id overwrites the earlier ones. */
  function InfoDict(records: seq<RouteRecord>): (r: map<string, RouteInfo>)
    ensures forall rid :: rid in r <==> exists i :: 0 <= i < |records| && records[i].rid == rid && records[i].shape.Some?
    decreases |records|
  {
    if |records| == 0 then map[]
    else
      var front := records[..|records| - 1];
      var last := records[|records| - 1];
      assert forall i :: 0 <= i < |front| ==> front[i] == records[i];
      if last.shape.None? then InfoDict(front) else InfoDict(front)[last.rid := last.shape.value]
  }

  /** The information kept for an id is that of its last record with a
      shape. */
  lemma {:induction false} InfoDictLatest(records: seq<RouteRecord>, i: nat)
    requires i < |records| && records[i].shape.Some?
    requires forall j :: i < j < |records| && records[j].rid == records[i].rid ==> records[j].shape.None?
    ensures records[i].rid in InfoDict(records)
    ensures InfoDict(records)[records[i].rid] == records[i].shape.value
    decreases |records|
  {
    if i < |records| - 1 {
      var front := records[..|records| - 1];
      assert front[i] == records[i];
      forall j | i < j < |front| && front[j].rid == front[i].rid ensures front[j].shape.None? {
        assert front[j] == records[j];
      }
      InfoDictLatest(front, i);
    }
  }

  /** Some record of the id has a shape. */
  predicate HasShape(records: seq<RouteRecord>, rid: string) {
    exists i :: 0 <= i < |records| && records[i].rid == rid && records[i].shape.Some?
  }

  /** Some event of the link lies on the route. */
  predicate HasEvent(events: seq<LinkEvent>, lid: string, rid: string) {
    exists i :: 0 <= i < |events| && events[i].lid == lid && events[i].rid == rid
  }

  /** `generate_link_route_xref_table` on the cursors' records (the DOT
      records already cut to the active routes): one row per (link, route)
      pair of the measure dictionary whose route has HERE and DOT
      information, both looked up by the HERE route id, with the pair's
      measures crosswalked; pairs without information are skipped.  A pair
      whose route makes the formula divide by zero raises. */
  function XrefTable(events: seq<LinkEvent>, hereRoutes: seq<RouteRecord>, dotRoutes: seq<RouteRecord>)
    : (r: Result<set<XrefRow>>)
    ensures r.Err? <==> exists i :: BadEvent(events, hereRoutes, dotRoutes, i)
    ensures r.Ok? ==> forall a, b :: a in r.value && b in r.value && a.lid == b.lid && a.rid == b.rid ==> a == b
    ensures r.Ok? ==> forall row :: row in r.value ==>
      HasEvent(events, row.lid, row.rid) && HasShape(hereRoutes, row.rid) && HasShape(dotRoutes, row.rid)
  {
    if exists i :: 0 <= i < |events| && BadEvent(events, hereRoutes, dotRoutes, i) then Err("float division by zero")
    else Ok(XrefRows(events, hereRoutes, dotRoutes))
  }

  /** An event whose route has HERE and DOT information that makes the
      formula divide by zero. */
  predicate BadEvent(events: seq<LinkEvent>, hereRoutes: seq<RouteRecord>, dotRoutes: seq<RouteRecord>, i: nat) {
    && i < |events|
    && HasShape(hereRoutes, events[i].rid) && HasShape(dotRoutes, events[i].rid)
    && !XrefDefined(InfoDict(hereRoutes)[events[i].rid], InfoDict(dotRoutes)[events[i].rid])
  }

  /** The rows of the table when no event's route divides by zero. */
  function XrefRows(events: seq<LinkEvent>, hereRoutes: seq<RouteRecord>, dotRoutes: seq<RouteRecord>): (r: set<XrefRow>)
    requires forall i :: !BadEvent(events, hereRoutes, dotRoutes, i)
    ensures forall a, b :: a in r && b in r && a.lid == b.lid && a.rid == b.rid ==> a == b
    ensures forall row :: row in r ==>
      HasEvent(events, row.lid, row.rid) && HasShape(hereRoutes, row.rid) && HasShape(dotRoutes, row.rid)
  {
    var meas := MeasureDict(events);
    var hi := InfoDict(hereRoutes);
    var di := InfoDict(dotRoutes);
    var used := set k | k in meas && k.1 in hi && k.1 in di;
    assert forall k :: k in used ==> XrefDefined(hi[k.1], di[k.1]) by {
      forall k | k in used ensures XrefDefined(hi[k.1], di[k.1]) {
        var i :| 0 <= i < |events| && events[i].lid == k.0 && events[i].rid == k.1;
        assert !BadEvent(events, hereRoutes, dotRoutes, i);
      }
    }
    RowsOf(used, meas, hi, di)
  }

  /** One row per used pair, so no two rows share a pair. */
  function RowsOf(used: set<(string, string)>, meas: map<(string, string), (real, real)>,
                  hi: map<string, RouteInfo>, di: map<string, RouteInfo>): (r: set<XrefRow>)
    requires forall k :: k in used ==> k in meas && k.1 in hi && k.1 in di && XrefDefined(hi[k.1], di[k.1])
    ensures forall row :: row in r ==> (row.lid, row.rid) in used
    ensures forall a, b :: a in r && b in r && a.lid == b.lid && a.rid == b.rid ==> a == b
  {
    var rows := set k | k in used :: RowOf(k, meas[k], hi[k.1], di[k.1]);
    forall a, b | a in rows && b in rows && a.lid == b.lid && a.rid == b.rid ensures a == b {
      var ka :| ka in used && a == RowOf(ka, meas[ka], hi[ka.1], di[ka.1]);
      var kb :| kb in used && b == RowOf(kb, meas[kb], hi[kb.1], di[kb.1]);
      assert ka == kb;
    }
    rows
  }

  /** The row of a (link, route) pair: its two measures crosswalked. */
  function RowOf(k: (string, string), m: (real, real), h: RouteInfo, d: RouteInfo): (r: XrefRow)
    requires XrefDefined(h, d)
    ensures r.lid == k.0 && r.rid == k.1
    ensures r.fmeas == XrefMeasure(m.0, h, d) && r.tmeas == XrefMeasure(m.1, h, d)
  {
    XrefRow(k.0, k.1, XrefByRatios(m.0, h, d), XrefByRatios(m.1, h, d))
  }

  /** Every pair with route information gets a row, carrying the crosswalk of
      the measures of the pair's last event. */
  lemma XrefLatestEventWins(events: seq<LinkEvent>, hereRoutes: seq<RouteRecord>, dotRoutes: seq<RouteRecord>, i: nat)
    requires XrefTable(events, hereRoutes, dotRoutes).Ok?
    requires i < |events| && HasShape(hereRoutes, events[i].rid) && HasShape(dotRoutes, events[i].rid)
    requires forall j :: i < j < |events| ==> (events[j].lid, events[j].rid) != (events[i].lid, events[i].rid)
    ensures XrefDefined(InfoDict(hereRoutes)[events[i].rid], InfoDict(dotRoutes)[events[i].rid])
    ensures
      var h := InfoDict(hereRoutes)[events[i].rid];
      var d := InfoDict(dotRoutes)[events[i].rid];
      XrefRow(events[i].lid, events[i].rid, XrefMeasure(events[i].fmeas, h, d), XrefMeasure(events[i].tmeas, h, d))
        in XrefTable(events, hereRoutes, dotRoutes).value
  {
    MeasureDictLatest(events, i);
    var k := (events[i].lid, events[i].rid);
    var meas := MeasureDict(events);
    var hi, di := InfoDict(hereRoutes), InfoDict(dotRoutes);
    assert k in meas && k.1 in hi && k.1 in di;
    assert !BadEvent(events, hereRoutes, dotRoutes, i);
    assert XrefTable(events, hereRoutes, dotRoutes).value == XrefRows(events, hereRoutes, dotRoutes);
    assert RowOf(k, meas[k], hi[k.1], di[k.1]) in XrefRows(events, hereRoutes, dotRoutes);
  }

  /** A pair whose HERE route has no shape, or whose id has no DOT route
      with a shape, gets no row. */
  lemma XrefSkipsMissingRoutes(events: seq<LinkEvent>, hereRoutes: seq<RouteRecord>, dotRoutes: seq<RouteRecord>, lid: string, rid: string)
    requires XrefTable(events, hereRoutes, dotRoutes).Ok?
    requires !HasShape(hereRoutes, rid) || !HasShape(dotRoutes, rid)
    ensures forall row :: row in XrefTable(events, hereRoutes, dotRoutes).value ==> row.rid != rid
  {
  }
}

=== FILE: dao_util.dfy ===
/** Data-access helpers: SQL `IN` clauses, the keep-smallest-id selection of
    identical records, and qualified table paths. */
module DaoUtil {
  import opened Base
  import opened NtPath

  // ---------------------------------------------------------------------------
  // IN clauses

  /** `field in (v1,v2,...)` over already rendered values, or the never-true
      clause "1=2" when there are none. */
  function InExpression(field: string, rendered: seq<string>): (r: string)
    ensures r == "1=2" <==> |rendered| == 0
    ensures |rendered| > 0 ==> r == field + " in (" + Join(",", rendered) + ")"
  {
    if |rendered| > 0 then field + " in (" + Join(",", rendered) + ")" else "1=2"
  }

  function RenderNumbers(values: seq<int>): (r: seq<string>)
    ensures |r| == |values|
    ensures forall i :: 0 <= i < |values| ==> r[i] == IntToString(values[i])
  {
    seq(|values|, i requires 0 <= i < |values| => IntToString(values[i]))
  }

  function Quote(v: string): string {
    "'" + v + "'"
  }

  function RenderStrings(values: seq<string>): (r: seq<string>)
    ensures |r| == |values|
    ensures forall i :: 0 <= i < |values| ==> r[i] == Quote(values[i])
  {
    seq(|values|, i requires 0 <= i < |values| => Quote(values[i]))
  }

  /** `build_numeric_in_sql_expression`: values rendered with `str`. */
  function NumericIn(field: string, values: seq<int>): (r: string)
    ensures r == "1=2" <==> |values| == 0
  {
    InExpression(field, RenderNumbers(values))
  }

  /** `build_string_in_sql_expression`: values wrapped in single quotes, with
      no escaping of quotes inside them. */
  function StringIn(field: string, values: seq<string>): (r: string)
    ensures r == "1=2" <==> |values| == 0
  {
    InExpression(field, RenderStrings(values))
  }

  // ---------------------------------------------------------------------------
  // Reading a numeric list back

  /** The numbers of a comma-separated list of decimal naturals; None when a
      piece is empty or holds a non-digit. */
  function DecodeNumbers(pieces: seq<string>): (r: Option<seq<nat>>)
    ensures r.Some? ==> |r.value| == |pieces|
  {
    if |pieces| == 0 then Some([])
    else if |pieces[0]| == 0 || exists k :: 0 <= k < |pieces[0]| && !IsDigit(pieces[0][k]) then None
    else
      match DecodeNumbers(pieces[1..])
      case None => None
      case Some(rest) => Some([ParseDigits(pieces[0])] + rest)
  }

  lemma {:induction false} DecodeRendered(values: seq<nat>)
    ensures DecodeNumbers(RenderNumbers(values)) == Some(values)
    decreases |values|
  {
    if |values| > 0 {
      var pieces := RenderNumbers(values);
      assert pieces[1..] == RenderNumbers(values[1..]);
      DecodeRendered(values[1..]);
      ParseRendersBack(values[0]);
      assert [values[0]] + values[1..] == values;
    }
  }

  /** The list inside a numeric IN clause over naturals (object ids) reads
      back as exactly the values it was built from, in order. */
  lemma NumericInListRoundTrip(values: seq<nat>)
    requires |values| > 0
    ensures DecodeNumbers(SplitOn(Join(",", RenderNumbers(values)), ',')) == Some(values)
  {
    var pieces := RenderNumbers(values);
    forall i | 0 <= i < |pieces| ensures NoChar(pieces[i], ',') {
      assert pieces[i] == NatToString(values[i]);
    }
    SplitJoin(pieces, ',');
    DecodeRendered(values);
  }

  // ---------------------------------------------------------------------------
  // Reading a text list back

  /** A piece with its surrounding quotes removed; None when it is not
      quoted. */
  function Unquote(piece: string): (r: Option<string>)
    ensures r.Some? ==> Quote(r.value) == piece
  {
    if |piece| >= 2 && piece[0] == '\'' && piece[|piece| - 1] == '\'' then
      assert piece == "'" + piece[1..|piece| - 1] + "'";
      Some(piece[1..|piece| - 1])
    else None
  }

  /** The values of a list of quoted pieces; None when a piece is not
      quoted. */
  function DecodeStrings(pieces: seq<string>): (r: Option<seq<string>>)
    ensures r.Some? ==> |r.value| == |pieces|
    ensures r.Some? ==> RenderStrings(r.value) == pieces
  {
    if |pieces| == 0 then Some([])
    else
      match (Unquote(pieces[0]), DecodeStrings(pieces[1..]))
      case (Some(v), Some(rest)) =>
        assert pieces == [pieces[0]] + pieces[1..];
        Some([v] + rest)
      case _ => None
  }

  /** The list inside a text IN clause over comma-free values reads back as
      exactly those values, in order. */
  lemma {:induction false} StringInListRoundTrip(values: seq<string>)
    requires |values| > 0
    requires forall i :: 0 <= i < |values| ==> NoChar(values[i], ',')
    ensures DecodeStrings(SplitOn(Join(",", RenderStrings(values)), ',')) == Some(values)
  {
    var pieces := RenderStrings(values);
    forall i | 0 <= i < |pieces| ensures NoChar(pieces[i], ',') {
      assert pieces[i] == "'" + values[i] + "'";
    }
    SplitJoin(pieces, ',');
    DecodeQuoted(values);
  }

  lemma {:induction false} DecodeQuoted(values: seq<string>)
    ensures DecodeStrings(RenderStrings(values)) == Some(values)
    decreases |values|
  {
    if |values| > 0 {
      var pieces := RenderStrings(values);
      assert pieces[1..] == RenderStrings(values[1..]);
      DecodeQuoted(values[1..]);
      var q := Quote(values[0]);
      assert q[1..|q| - 1] == values[0];
      assert [values[0]] + values[1..] == values;
    }
  }

  /** The documented numeric example. */
  lemma NumericInExample(values: seq<int>)
    requires values == [1, 2, 3, 4]
    ensures NumericIn("field", values) == "field in (1,2,3,4)"
  {
    var rendered := RenderNumbers(values);
    assert rendered[0] == "1" && rendered[1] == "2" && rendered[2] == "3" && rendered[3] == "4";
    assert rendered == ["1", "2", "3", "4"];
    JoinFour(",", "1", "2", "3", "4");
  }

  /** The documented string example. */
  lemma StringInExample(values: seq<string>)
    requires values == ["a", "b", "c", "d"]
    ensures StringIn("field", values) == "field in ('a','b','c','d')"
  {
    var quoted := RenderStrings(values);
    assert quoted[0] == "'a'" && quoted[1] == "'b'" && quoted[2] == "'c'" && quoted[3] == "'d'";
    assert quoted == ["'a'", "'b'", "'c'", "'d'"];
    JoinFour(",", "'a'", "'b'", "'c'", "'d'");
  }

  /** No value gives the clause that selects nothing. */
  lemma EmptyInExamples()
    ensures NumericIn("field", []) == "1=2"
    ensures StringIn("field", []) == "1=2"
  {
  }

  lemma JoinFour(sep: string, a: string, b: string, c: string, d: string)
    ensures Join(sep, [a, b, c, d]) == a + sep + b + sep + c + sep + d
  {
    assert [a, b, c, d][1..] == [b, c, d];
    assert [b, c, d][1..] == [c, d];
    JoinTwo(sep, c, d);
  }

  // ---------------------------------------------------------------------------
  // delete_identical_only_keep_min_oid

  /** A row of the FindIdentical output: the group number and the record id. */
  datatype IdenticalRow = IdenticalRow(featSeq: int, inFid: int)

  function FeatSeqs(rows: seq<IdenticalRow>): set<int> {
    set k | 0 <= k < |rows| :: rows[k].featSeq
  }

  /** Row `i` belongs to a group that an earlier row already opened. */
  predicate SeenBefore(rows: seq<IdenticalRow>, i: int)
    requires 0 <= i < |rows|
  {
    exists j :: 0 <= j < i && rows[j].featSeq == rows[i].featSeq
  }

  /** The ids of rows whose group was seen earlier in the scan. */
  function RepeatFids(rows: seq<IdenticalRow>): seq<int>
    decreases |rows|
  {
    if |rows| == 0 then []
    else
      var init := rows[..|rows| - 1];
      RepeatFids(init) + (if rows[|rows| - 1].featSeq in FeatSeqs(init) then [rows[|rows| - 1].inFid] else [])
  }

  /** An id is selected for deletion exactly when some row with that id is
      not the first row of its group. */
  lemma {:induction false} RepeatFidsSpec(rows: seq<IdenticalRow>)
    ensures forall x :: x in RepeatFids(rows) <==>
      exists i :: 0 <= i < |rows| && rows[i].inFid == x && SeenBefore(rows, i)
    decreases |rows|
  {
    if |rows| > 0 {
      var n := |rows| - 1;
      var init := rows[..n];
      RepeatFidsSpec(init);
      assert forall i :: 0 <= i < n ==> init[i] == rows[i];
      assert forall i :: 0 <= i < n ==> (SeenBefore(init, i) <==> SeenBefore(rows, i));
      assert rows[n].featSeq in FeatSeqs(init) <==> SeenBefore(rows, n);
    }
  }

  /** The scan of `delete_identical_only_keep_min_oid`: a group's first row
      is kept, every later row of the group is selected for deletion. */
  method SelectRepeats(rows: seq<IdenticalRow>) returns (deleteList: seq<int>)
    ensures deleteList == RepeatFids(rows)
  {
    var seen: seq<int> := [];
    deleteList := [];
    var i := 0;
    while i < |rows|
      invariant 0 <= i <= |rows|
      invariant forall s :: s in seen <==> s in FeatSeqs(rows[..i])
      invariant deleteList == RepeatFids(rows[..i])
    {
      assert rows[..i + 1][..i] == rows[..i];
      if rows[i].featSeq !in seen {
        seen := seen + [rows[i].featSeq];
      } else {
        deleteList := deleteList + [rows[i].inFid];
      }
      assert FeatSeqs(rows[..i + 1]) == FeatSeqs(rows[..i]) + {rows[i].featSeq};
      i := i + 1;
    }
    assert rows[..|rows|] == rows;
  }

  predicate StrictlyAscending(rows: seq<IdenticalRow>) {
    forall i, j :: 0 <= i < j < |rows| ==> rows[i].inFid < rows[j].inFid
  }

  /** With the scan in ascending id order, the row kept in each group is the
      one with the smallest id: an id is deleted exactly when its group holds
      a smaller one. */
  lemma KeepsMinOid(rows: seq<IdenticalRow>, i: int)
    requires StrictlyAscending(rows) && 0 <= i < |rows|
    ensures rows[i].inFid in RepeatFids(rows) <==>
      exists j :: 0 <= j < |rows| && rows[j].featSeq == rows[i].featSeq && rows[j].inFid < rows[i].inFid
  {
    RepeatFidsSpec(rows);
    if rows[i].inFid in RepeatFids(rows) {
      var k :| 0 <= k < |rows| && rows[k].inFid == rows[i].inFid && SeenBefore(rows, k);
      assert k == i;
    }
  }

  /** The delete clause: None (nothing deleted) when every row opens its own
      group, otherwise an IN clause over the object-id field. */
  method KeepMinOidDeleteClause(rows: seq<IdenticalRow>, oidField: string) returns (clause: Option<string>)
    ensures clause.None? <==> forall i :: 0 <= i < |rows| ==> !SeenBefore(rows, i)
    ensures clause.Some? ==> clause.value == NumericIn(oidField, RepeatFids(rows))
  {
    var deleteList := SelectRepeats(rows);
    RepeatFidsSpec(rows);
    if |deleteList| != 0 {
      assert deleteList[0] in RepeatFids(rows);
      clause := Some(NumericIn(oidField, deleteList));
    } else {
      clause := None;
      assert forall i :: 0 <= i < |rows| && SeenBefore(rows, i) ==> rows[i].inFid in deleteList;
    }
  }

  // ---------------------------------------------------------------------------
  // get_full_table_name

  function StripAll(items: seq<string>): (r: seq<string>)
    ensures |r| == |items|
    ensures forall i :: 0 <= i < |items| ==> r[i] == Strip(items[i])
  {
    seq(|items|, i requires 0 <= i < |items| => Strip(items[i]))
  }

  function NonEmpty(items: seq<string>): (r: seq<string>)
    ensures forall s :: s in r <==> s in items && s != ""
  {
    if |items| == 0 then []
    else (if items[0] != "" then [items[0]] else []) + NonEmpty(items[1..])
  }

  /** Filtering a concatenation filters each part in turn: together with the one-item case of the definition, the kept items keep their order. */
  lemma {:induction false} NonEmptyAppend(a: seq<string>, b: seq<string>)
    ensures NonEmpty(a + b) == NonEmpty(a) + NonEmpty(b)
    decreases |a|
  {
    if |a| == 0 {
      assert a + b == b;
    } else {
      assert (a + b)[0] == a[0] && (a + b)[1..] == a[1..] + b;
      NonEmptyAppend(a[1..], b);
    }
  }

  /** Each kept item is kept as often as it occurs, each other one not at
      all. */
  lemma {:induction false} NonEmptyCount(s: seq<string>, x: string)
    ensures Count(NonEmpty(s), x) == if x != "" then Count(s, x) else 0
    decreases |s|
  {
    if |s| > 0 {
      NonEmptyCount(s[1..], x);
      CountAppend(if s[0] != "" then [s[0]] else [], NonEmpty(s[1..]), x);
    }
  }

  /** `get_full_table_name`.  A workspace path without ".sde" is joined with
      the table name as given; for an enterprise connection the name the
      database reports (`parsed`, a comma-separated "database, owner, table"
      string) is trimmed, stripped of empty parts and dot-joined first. */
  function FullTableName(tableName: string, workspace: string, parsed: string): string {
    if !Contains(workspace, ".sde") then PathJoin(workspace, tableName)
    else PathJoin(workspace, QualifiedName(parsed))
  }

  /** Outside an enterprise connection the full name is the workspace path
      and the table name, recoverable by `dirname` and `basename`. */
  lemma FullTableNameSplits(tableName: string, workspace: string, parsed: string)
    requires !Contains(workspace, ".sde") && PlainName(tableName) && !EndsWithSep(workspace)
    ensures Dirname(FullTableName(tableName, workspace, parsed)) == workspace
    ensures Basename(FullTableName(tableName, workspace, parsed)) == tableName
  {
    JoinThenSplit(workspace, tableName);
  }

  /** The dotted name an enterprise connection reports for `parsed`. */
  function QualifiedName(parsed: string): string {
    Join(".", NonEmpty(StripAll(SplitOn(parsed, ','))))
  }

  /** Inside an enterprise connection the table name as given is ignored:
      the full name is the workspace path and the qualified name the
      database reports, recoverable by `dirname` and `basename`. */
  lemma FullTableNameEnterprise(tableName: string, workspace: string, parsed: string)
    requires Contains(workspace, ".sde") && PlainName(QualifiedName(parsed)) && !EndsWithSep(workspace)
    ensures Dirname(FullTableName(tableName, workspace, parsed)) == workspace
    ensures Basename(FullTableName(tableName, workspace, parsed)) == QualifiedName(parsed)
  {
    JoinThenSplit(workspace, QualifiedName(parsed));
  }
}

=== FILE: datetime_util.dfy ===
/** Date helpers: truncation to midnight, the SQL date literal of each
    supported database, and the latest of a list of optional dates. */
module DatetimeUtil {
  import opened Base

  /** A Python `datetime`; `Valid` is the range every such object satisfies. */
  datatype DateTime = DateTime(year: int, month: int, day: int, hour: int, minute: int, second: int, microsecond: int)

  predicate IsLeap(y: int) {
    (y % 4 == 0 && y % 100 != 0) || y % 400 == 0
  }

  function DaysIn(y: int, m: int): int {
    if m == 2 then (if IsLeap(y) then 29 else 28)
    else if m == 4 || m == 6 || m == 9 || m == 11 then 30
    else 31
  }

  predicate Valid(d: DateTime) {
    && 1 <= d.year <= 9999 && 1 <= d.month <= 12 && 1 <= d.day <= DaysIn(d.year, d.month)
    && 0 <= d.hour < 24 && 0 <= d.minute < 60 && 0 <= d.second < 60 && 0 <= d.microsecond < 1000000
  }

  /** A number that grows with the date and time, field by field: the
      chronological order Python compares datetimes by. */
  function Ordinal(d: DateTime): int {
    (((((d.year * 13 + d.month) * 32 + d.day) * 24 + d.hour) * 60 + d.minute) * 60 + d.second) * 1000000 + d.microsecond
  }

  predicate SameDay(a: DateTime, b: DateTime) {
    a.year == b.year && a.month == b.month && a.day == b.day
  }

  // ---------------------------------------------------------------------------
  // truncate_datetime

  /** `truncate_datetime`: None stays None; a date keeps its day and loses
      its time of day. */
  function Truncate(d: Option<DateTime>): (r: Option<DateTime>)
    ensures r.None? <==> d.None?
    ensures r.Some? ==> SameDay(r.value, d.value)
    ensures r.Some? ==> r.value.hour == 0 && r.value.minute == 0 && r.value.second == 0 && r.value.microsecond == 0
  {
    match d
    case None => None
    case Some(t) => Some(t.(hour := 0, minute := 0, second := 0, microsecond := 0))
  }

  /** Truncation is the start of the day: never later than the input, equal
      to it exactly at midnight, and two dates truncate alike exactly when
      they fall on the same day. */
  lemma TruncateIsStartOfDay(a: DateTime, b: DateTime)
    requires Valid(a) && Valid(b)
    ensures Ordinal(Truncate(Some(a)).value) <= Ordinal(a)
    ensures Truncate(Some(a)) == Some(a) <==> a.hour == 0 && a.minute == 0 && a.second == 0 && a.microsecond == 0
    ensures Truncate(Some(a)) == Truncate(Some(b)) <==> SameDay(a, b)
  {
  }

  lemma TruncateIdempotent(d: Option<DateTime>)
    ensures Truncate(Truncate(d)) == Truncate(d)
  {
  }

  // ---------------------------------------------------------------------------
  // format_sql_date

  function Pad2(n: int): (r: string)
    requires 0 <= n < 100
    ensures |r| == 2 && IsDigit(r[0]) && IsDigit(r[1])
  {
    [DigitChar(n / 10), DigitChar(n % 10)]
  }

  function Pad4(n: int): (r: string)
    requires 0 <= n < 10000
    ensures |r| == 4 && forall k :: 0 <= k < 4 ==> IsDigit(r[k])
  {
    Pad2(n / 100) + Pad2(n % 100)
  }

  /** `strftime("%Y-%m-%d %H:%M:%S")`. */
  function Stamp(d: DateTime): (r: string)
    requires Valid(d)
    ensures |r| == 19
  {
    Pad4(d.year) + "-" + Pad2(d.month) + "-" + Pad2(d.day) + " " +
    Pad2(d.hour) + ":" + Pad2(d.minute) + ":" + Pad2(d.second)
  }

  /** The fields a stamp holds, read back from its digit positions. */
  datatype StampFields = StampFields(year: int, month: int, day: int, hour: int, minute: int, second: int)

  function DigitsAt(s: string, i: nat, n: nat): (v: nat)
    requires i + n <= |s| && forall k :: i <= k < i + n ==> IsDigit(s[k])
  {
    ParseDigits(s[i..i + n])
  }

  function ParseStamp(s: string): Option<StampFields> {
    if |s| == 19 && s[4] == '-' && s[7] == '-' && s[10] == ' ' && s[13] == ':' && s[16] == ':' &&
       (forall k :: 0 <= k < 19 && k !in {4, 7, 10, 13, 16} ==> IsDigit(s[k]))
    then Some(StampFields(DigitsAt(s, 0, 4), DigitsAt(s, 5, 2), DigitsAt(s, 8, 2),
                          DigitsAt(s, 11, 2), DigitsAt(s, 14, 2), DigitsAt(s, 17, 2)))
    else None
  }

  lemma Pad2Reads(n: int)
    requires 0 <= n < 100
    ensures ParseDigits(Pad2(n)) == n
  {
    var r := Pad2(n);
    assert r[..1] == [r[0]];
    assert ParseDigits(r[..1][..0]) == 0;
  }

  lemma Pad4Reads(n: int)
    requires 0 <= n < 10000
    ensures ParseDigits(Pad4(n)) == n
  {
    var r := Pad4(n);
    var m := n % 100;
    assert r[..3][..2] == r[..2] == Pad2(n / 100);
    Pad2Reads(n / 100);
    assert r[2] == DigitChar(m / 10) && r[3] == DigitChar(m % 10);
    assert ParseDigits(r) == ParseDigits(r[..3]) * 10 + m % 10;
    assert ParseDigits(r[..3]) == (n / 100) * 10 + m / 10;
  }

  /** Reading a stamp back gives the date and time to the second: the
      formatted text loses only the microseconds. */
  lemma StampRoundTrip(d: DateTime)
    requires Valid(d)
    ensures ParseStamp(Stamp(d)) == Some(StampFields(d.year, d.month, d.day, d.hour, d.minute, d.second))
  {
    var s := Stamp(d);
    assert s[0..4] == Pad4(d.year);
    assert s[5..7] == Pad2(d.month);
    assert s[8..10] == Pad2(d.day);
    assert s[11..13] == Pad2(d.hour);
    assert s[14..16] == Pad2(d.minute);
    assert s[17..19] == Pad2(d.second);
    Pad4Reads(d.year);
    Pad2Reads(d.month);
    Pad2Reads(d.day);
    Pad2Reads(d.hour);
    Pad2Reads(d.minute);
    Pad2Reads(d.second);
  }

  /** `format_sql_date`: the stamp in the date literal syntax of a file
      geodatabase, Oracle or SQL Server; any other database type raises, and
      so does `strftime` for a year before 1900 (Python 2). */
  function FormatSqlDate(d: DateTime, dbType: string): (r: Result<string>)
    requires Valid(d)
    ensures r.Ok? <==> d.year >= 1900 && dbType in {"FileGdb", "Oracle", "SQL Server"}
    ensures r.Ok? && dbType == "FileGdb" ==> r.value == "date '" + Stamp(d) + "'"
    ensures r.Ok? && dbType == "Oracle" ==> r.value == "TO_DATE('" + Stamp(d) + "','YYYY-MM-DD HH24:MI:SS')"
    ensures r.Ok? && dbType == "SQL Server" ==> r.value == "'" + Stamp(d) + "'"
  {
    if d.year < 1900 then Err("year=" + IntToString(d.year) + " is before 1900")
    else
      var stamp := Stamp(d);
      if dbType == "FileGdb" then Ok("date '" + stamp + "'")
      else if dbType == "Oracle" then Ok("TO_DATE('" + stamp + "','YYYY-MM-DD HH24:MI:SS')")
      else if dbType == "SQL Server" then Ok("'" + stamp + "'")
      else Err("Unhandled DbType")
  }

  /** The documented stamp of 2010-01-02 03:04:05.000006. */
  lemma StampExample(d: DateTime)
    requires d == DateTime(2010, 1, 2, 3, 4, 5, 6)
    ensures Stamp(d) == "2010-01-02 03:04:05"
  {
    assert Pad4(2010) == "2010";
    assert Pad2(1) == "01" && Pad2(2) == "02" && Pad2(3) == "03" && Pad2(4) == "04" && Pad2(5) == "05";
  }

  /** The documented literal for a file geodatabase. */
  lemma FileGdbExample(d: DateTime)
    requires d == DateTime(2010, 1, 2, 3, 4, 5, 6)
    ensures FormatSqlDate(d, "FileGdb") == Ok("date '2010-01-02 03:04:05'")
  {
    assert "date '" + "2010-01-02 03:04:05" + "'" == "date '2010-01-02 03:04:05'";
    StampExample(d);
  }

  /** The SQL Server literal is the file-geodatabase literal without its `date ` keyword. */
  lemma SqlServerDropsDateKeyword(d: DateTime)
    requires Valid(d) && d.year >= 1900
    ensures FormatSqlDate(d, "FileGdb").Ok? && FormatSqlDate(d, "SQL Server").Ok?
    ensures FormatSqlDate(d, "FileGdb").value == "date " + FormatSqlDate(d, "SQL Server").value
  {
    var q := "'" + Stamp(d) + "'";
    assert "date '" + Stamp(d) + "'" == "date " + q;
  }

  /** The documented literal for SQL Server, read off the file-geodatabase one. */
  lemma SqlServerExample(d: DateTime)
    requires d == DateTime(2010, 1, 2, 3, 4, 5, 6)
    ensures FormatSqlDate(d, "SQL Server") == Ok("'2010-01-02 03:04:05'")
  {
    FileGdbExample(d);
    SqlServerDropsDateKeyword(d);
    var v := FormatSqlDate(d, "SQL Server").value;
    assert "date " + v == "date '2010-01-02 03:04:05'";
    assert v == ("date " + v)[5..];
  }

  /** An unknown database type raises. */
  lemma UnknownDbTypeExample(d: DateTime)
    requires d == DateTime(2010, 1, 2, 3, 4, 5, 6)
    ensures FormatSqlDate(d, "Wrong DbType").Err?
  {
  }

  // ---------------------------------------------------------------------------
  // get_maximum_date

  /** `max` over the dates that are not None: raises when there are none;
      otherwise a date of the list that no other date of the list follows. */
  function MaximumDate(dates: seq<Option<DateTime>>): (r: Result<DateTime>)
    ensures r.Ok? <==> exists i :: 0 <= i < |dates| && dates[i].Some?
    ensures r.Ok? ==> Some(r.value) in dates
    ensures r.Ok? ==> forall i :: 0 <= i < |dates| && dates[i].Some? ==> Ordinal(dates[i].value) <= Ordinal(r.value)
    decreases |dates|
  {
    if |dates| == 0 then Err("max() arg is an empty sequence")
    else
      var last := dates[|dates| - 1];
      var rest := MaximumDate(dates[..|dates| - 1]);
      assert forall i :: 0 <= i < |dates| - 1 ==> dates[..|dates| - 1][i] == dates[i];
      match last
      case None => rest
      case Some(t) =>
        if rest.Ok? && Ordinal(t) <= Ordinal(rest.value) then rest else Ok(t)
  }

  /** The documented example: a later year wins and a None is ignored. */
  lemma MaximumDateExample(d1: DateTime, d2: DateTime)
    requires d1 == DateTime(2010, 1, 2, 3, 4, 5, 6) && d2 == DateTime(2011, 1, 2, 3, 4, 5, 6)
    ensures MaximumDate([Some(d1), Some(d2)]) == Ok(d2)
    ensures MaximumDate([Some(d1), Some(d2), None]) == Ok(d2)
  {
    assert [Some(d1), Some(d2), None][..2] == [Some(d1), Some(d2)];
    assert [Some(d1), Some(d2)][..1] == [Some(d1)];
    assert [Some(d1)][..0] == [];
  }
}

=== FILE: field_util.dfy ===
/** Field-schema helpers: the type name to pass to AddField for an existing
    field, the keep-fields predicate, and field renaming.  A dataset's schema is
    the sequence of fields ListFields reports. */
module FieldUtil {
  import opened Base

  /** A field as ListFields describes it: `ftype` is ListFields' spelling
      ("String", "Double", "OID", ...). */
  datatype Field = Field(name: string, ftype: string, length: int, required: bool)

  datatype FieldDetails = FieldDetails(fieldType: string, fieldLength: int)

  /** The field types the mapping knows by name. */
  const MappedTypes: set<string> := {"Double", "Single", "Integer", "SmallInteger", "Date"}

  /** The AddField keyword for a ListFields type; every other type, String
      included, becomes TEXT. */
  function MapFieldType(t: string): (r: string)
    ensures r in {"DOUBLE", "FLOAT", "LONG", "SHORT", "DATE", "TEXT"}
    ensures r == "TEXT" <==> t !in MappedTypes
  {
    if t == "Double" then "DOUBLE"
    else if t == "Single" then "FLOAT"
    else if t == "Integer" then "LONG"
    else if t == "SmallInteger" then "SHORT"
    else if t == "Date" then "DATE"
    else "TEXT"
  }

  /** How ListFields reports a field created with an AddField keyword. */
  function ListedType(keyword: string): string {
    if keyword == "DOUBLE" then "Double"
    else if keyword == "FLOAT" then "Single"
    else if keyword == "LONG" then "Integer"
    else if keyword == "SHORT" then "SmallInteger"
    else if keyword == "DATE" then "Date"
    else "String"
  }

  /** Mapping a created field's listed type gives back the keyword it was
      created with, for each of the six keywords the mapping produces. */
  lemma MapFieldTypeRoundTrip(keyword: string)
    requires keyword in {"DOUBLE", "FLOAT", "LONG", "SHORT", "DATE", "TEXT"}
    ensures MapFieldType(ListedType(keyword)) == keyword
  {
  }

  /** The first field with exactly the given name. */
  function FirstNamed(fields: seq<Field>, name: string): (r: Option<Field>)
    ensures r.None? <==> forall i :: 0 <= i < |fields| ==> fields[i].name != name
    ensures r.Some? ==> exists i :: (0 <= i < |fields| && fields[i] == r.value && fields[i].name == name &&
      forall j :: 0 <= j < i ==> fields[j].name != name)
    decreases |fields|
  {
    if |fields| == 0 then None
    else if fields[0].name == name then Some(fields[0])
    else
      var r := FirstNamed(fields[1..], name);
      if r.Some? then
        ghost var i :| 0 <= i < |fields[1..]| && fields[1..][i] == r.value && fields[1..][i].name == name &&
          forall j :: 0 <= j < i ==> fields[1..][j].name != name;
        assert fields[i + 1] == r.value;
        r
      else r
  }

  /** `get_field_details`: ('TEXT', 255) when no field has the name, otherwise
      the mapped type and the length of the first field with that name. */
  function GetFieldDetails(fields: seq<Field>, name: string): (d: FieldDetails)
    ensures (forall i :: 0 <= i < |fields| ==> fields[i].name != name) ==> d == FieldDetails("TEXT", 255)
    ensures forall i :: (0 <= i < |fields| && fields[i].name == name &&
      (forall j :: 0 <= j < i ==> fields[j].name != name)) ==>
      d == FieldDetails(MapFieldType(fields[i].ftype), fields[i].length)
  {
    match FirstNamed(fields, name)
    case None => FieldDetails("TEXT", 255)
    case Some(f) => FieldDetails(MapFieldType(f.ftype), f.length)
  }

  function LowerAll(names: seq<string>): (r: seq<string>)
    ensures |r| == |names|
    ensures forall i :: 0 <= i < |names| ==> r[i] == Lower(names[i])
  {
    seq(|names|, i requires 0 <= i < |names| => Lower(names[i]))
  }

  /** The keep-fields predicate: a field is deleted when it is not required,
      is neither the OID nor the geometry, and its name is not a keep name,
      compared case-insensitively. */
  predicate ShouldDelete(f: Field, keep: seq<string>) {
    !f.required && f.ftype != "OID" && f.ftype != "Geometry" && Lower(f.name) !in LowerAll(keep)
  }

  /** The schema after `transform_dataset_keep_fields`. */
  function KeepFields(fields: seq<Field>, keep: seq<string>): (r: seq<Field>)
    ensures forall f :: f in r <==> f in fields && !ShouldDelete(f, keep)
    ensures |r| <= |fields|
  {
    if |fields| == 0 then []
    else (if ShouldDelete(fields[0], keep) then [] else [fields[0]]) + KeepFields(fields[1..], keep)
  }

  /** A keep name protects a field whatever the case of either spelling. */
  lemma KeepIsCaseInsensitive(f: Field, keep: seq<string>, k: string)
    requires k in keep && Lower(k) == Lower(f.name)
    ensures !ShouldDelete(f, keep)
  {
    var i :| 0 <= i < |keep| && keep[i] == k;
    assert LowerAll(keep)[i] == Lower(f.name);
  }

  /** `alter_field_name`.  Equal names: nothing happens.  Enterprise data: a
      copy of the first field with the old name is added under the new name and
      the old field is dropped (the first lookup raises when no field has the
      old name).  Other data: the field is renamed in place; when that fails the
      fallback takes the enterprise path, which raises on a missing field too. */
  function AlterFieldName(fields: seq<Field>, oldName: string, newName: string, isSde: bool): (r: Result<seq<Field>>)
    ensures oldName == newName ==> r == Ok(fields)
    ensures oldName != newName ==>
      (r.Ok? <==> exists i :: 0 <= i < |fields| && fields[i].name == oldName)
    ensures oldName != newName && r.Ok? ==>
      && (forall f :: f in r.value ==> f.name != oldName)
      && (exists f :: f in r.value && f.name == newName)
  {
    if oldName == newName then Ok(fields)
    else
      match FirstNamed(fields, oldName)
      case None => Err("list index out of range")
      case Some(found) =>
        if isSde then
          Ok(Without(fields, oldName) + [found.(name := newName)])
        else
          Ok(RenameAll(fields, oldName, newName))
  }

  function Without(fields: seq<Field>, name: string): (r: seq<Field>)
    ensures forall f :: f in r <==> f in fields && f.name != name
  {
    if |fields| == 0 then []
    else (if fields[0].name == name then [] else [fields[0]]) + Without(fields[1..], name)
  }

  function RenameAll(fields: seq<Field>, oldName: string, newName: string): (r: seq<Field>)
    requires oldName != newName
    ensures |r| == |fields|
    ensures forall i :: 0 <= i < |fields| ==>
      r[i] == (if fields[i].name == oldName then fields[i].(name := newName) else fields[i])
  {
    seq(|fields|, i requires 0 <= i < |fields| =>
      if fields[i].name == oldName then fields[i].(name := newName) else fields[i])
  }

  /** The match tool's own copy of the lookup for the DOT route-id field: the
      same first-match search, but a type outside its table is passed through
      unchanged instead of becoming TEXT. */
  function InlineRidDetails(fields: seq<Field>, name: string): (d: FieldDetails)
    ensures (forall i :: 0 <= i < |fields| ==> fields[i].name != name) ==> d == FieldDetails("TEXT", 255)
  {
    match FirstNamed(fields, name)
    case None => FieldDetails("TEXT", 255)
    case Some(f) => FieldDetails(InlineType(f.ftype), f.length)
  }

  function InlineType(t: string): (r: string)
    ensures t in MappedTypes || t == "String" ==> r == MapFieldType(t)
    ensures t !in MappedTypes && t != "String" ==> r == t
  {
    if t == "String" then "TEXT"
    else if t == "Double" then "DOUBLE"
    else if t == "Single" then "FLOAT"
    else if t == "Integer" then "LONG"
    else if t == "SmallInteger" then "SHORT"
    else if t == "Date" then "DATE"
    else t
  }

  /** The two lookups agree on every schema except one whose first field of
      that name has a type outside the mapping (a GUID id, say), which the
      match tool hands to AddField verbatim. */
  lemma InlineLookupAgrees(fields: seq<Field>, name: string)
    ensures InlineRidDetails(fields, name) != GetFieldDetails(fields, name) <==>
      exists i :: (0 <= i < |fields| && fields[i].name == name &&
        (forall j :: 0 <= j < i ==> fields[j].name != name) &&
        fields[i].ftype !in MappedTypes && fields[i].ftype != "String" && fields[i].ftype != "TEXT")
  {
    var r := FirstNamed(fields, name);
    if r.Some? {
      var i :| 0 <= i < |fields| && fields[i] == r.value && fields[i].name == name &&
        forall j :: 0 <= j < i ==> fields[j].name != name;
      forall k | 0 <= k < |fields| && fields[k].name == name && (forall j :: 0 <= j < k ==> fields[j].name != name)
        ensures k == i
      {
      }
    }
  }
}

=== FILE: here_route.dfy ===
/** Building HERE routes from the matched links: the plateau-tolerant
    monotonicity test on a route's measures, the gap and non-monotonic
    exclusion lists, the output filter, the confidence-threshold selection of
    candidates, the duplicate-pair check, and the filter that keeps links
    located on their own route.

    Route creation, location along routes and the query-table join are done
    by the geoprocessing engine; the model receives their results as
    sequences of records. */
module HereRoute {
  import opened Base
  import opened MatchCandidate
  import opened DaoUtil

  // ---------------------------------------------------------------------------
  // Monotonicity

  /** `x <= y` for every adjacent pair: the `zip(L, L[1:])` test. */
  predicate NonDecreasing(ms: seq<real>) {
    forall i :: 0 <= i < |ms| - 1 ==> ms[i] <= ms[i + 1]
  }

  predicate NonIncreasing(ms: seq<real>) {
    forall i :: 0 <= i < |ms| - 1 ==> ms[i] >= ms[i + 1]
  }

  /** Every earlier measure is at most every later one. */
  predicate Ascending(ms: seq<real>) {
    forall i, j :: 0 <= i <= j < |ms| ==> ms[i] <= ms[j]
  }

  predicate Descending(ms: seq<real>) {
    forall i, j :: 0 <= i <= j < |ms| ==> ms[i] >= ms[j]
  }

  /** The adjacent-pair test is the all-pairs order: plateaus are allowed,
      reversals anywhere are not. */
  lemma {:induction false} NonDecreasingIsAscending(ms: seq<real>)
    ensures NonDecreasing(ms) <==> Ascending(ms)
    decreases |ms|
  {
    if NonDecreasing(ms) && |ms| > 1 {
      var front := ms[..|ms| - 1];
      assert NonDecreasing(front) by {
        forall i | 0 <= i < |front| - 1 ensures front[i] <= front[i + 1] {
          assert front[i] == ms[i] && front[i + 1] == ms[i + 1];
        }
      }
      NonDecreasingIsAscending(front);
      forall i, j | 0 <= i <= j < |ms| ensures ms[i] <= ms[j] {
        if j < |ms| - 1 {
          assert front[i] <= front[j];
        } else if i < j {
          assert front[i] <= front[j - 1];
        }
      }
    }
  }

  lemma {:induction false} NonIncreasingIsDescending(ms: seq<real>)
    ensures NonIncreasing(ms) <==> Descending(ms)
    decreases |ms|
  {
    if NonIncreasing(ms) && |ms| > 1 {
      var front := ms[..|ms| - 1];
      assert NonIncreasing(front) by {
        forall i | 0 <= i < |front| - 1 ensures front[i] >= front[i + 1] {
          assert front[i] == ms[i] && front[i + 1] == ms[i + 1];
        }
      }
      NonIncreasingIsDescending(front);
      forall i, j | 0 <= i <= j < |ms| ensures ms[i] >= ms[j] {
        if j < |ms| - 1 {
          assert front[i] >= front[j];
        } else if i < j {
          assert front[i] >= front[j - 1];
        }
      }
    }
  }

  /** One part of a route shape: its points' measures, None where the part
      holds an interior-ring separator instead of a point. */
  type Part = seq<Option<real>>

  /** The measures of the points of one part, separators skipped. */
  function Present(pts: Part): (r: seq<real>)
    ensures |r| <= |pts|
    ensures forall x :: x in r <==> Some(x) in pts
    decreases |pts|
  {
    if |pts| == 0 then []
    else (match pts[0] case Some(m) => [m] case None => []) + Present(pts[1..])
  }

  /** The measure list of `measure_strictly_aligned`: every part in part
      order, separators skipped, one list for the whole shape. */
  function MeasureList(parts: seq<Part>): (r: seq<real>)
    decreases |parts|
  {
    if |parts| == 0 then []
    else Present(parts[0]) + MeasureList(parts[1..])
  }

  /** The list holds exactly the measures of the points of the parts. */
  lemma {:induction false} MeasureListHolds(parts: seq<Part>, x: real)
    ensures x in MeasureList(parts) <==> exists p :: 0 <= p < |parts| && Some(x) in parts[p]
    decreases |parts|
  {
    if |parts| > 0 {
      MeasureListHolds(parts[1..], x);
      if exists p :: 0 <= p < |parts| && Some(x) in parts[p] {
        var p :| 0 <= p < |parts| && Some(x) in parts[p];
        if p > 0 {
          assert Some(x) in parts[1..][p - 1];
        }
      }
      if x in MeasureList(parts[1..]) {
        var p :| 0 <= p < |parts[1..]| && Some(x) in parts[1..][p];
        assert Some(x) in parts[p + 1];
      }
    }
  }

  /** Measures of two shapes laid end to end are the two lists end to end. */
  lemma {:induction false} MeasureListAppend(a: seq<Part>, b: seq<Part>)
    ensures MeasureList(a + b) == MeasureList(a) + MeasureList(b)
    decreases |a|
  {
    if |a| > 0 {
      assert (a + b)[1..] == a[1..] + b;
      MeasureListAppend(a[1..], b);
    } else {
      assert a + b == b;
    }
  }

  /** `measure_strictly_aligned`: the measures never go down, or never go
      up. */
  predicate MeasureAligned(parts: seq<Part>) {
    NonDecreasing(MeasureList(parts)) || NonIncreasing(MeasureList(parts))
  }

  /** Aligned means ordered as a whole, one way or the other. */
  lemma AlignedIsOrdered(parts: seq<Part>)
    ensures MeasureAligned(parts) <==> Ascending(MeasureList(parts)) || Descending(MeasureList(parts))
  {
    NonDecreasingIsAscending(MeasureList(parts));
    NonIncreasingIsDescending(MeasureList(parts));
  }

  /** A part made of the given measures, with no separator. */
  function Points(ms: seq<real>): (r: Part)
    ensures |r| == |ms|
    ensures forall i :: 0 <= i < |ms| ==> r[i] == Some(ms[i])
  {
    seq(|ms|, i requires 0 <= i < |ms| => Some(ms[i]))
  }

  /** A part without separators measures exactly its points. */
  lemma {:induction false} PresentPoints(ms: seq<real>)
    ensures Present(Points(ms)) == ms
    decreases |ms|
  {
    if |ms| > 0 {
      assert Points(ms)[1..] == Points(ms[1..]);
      PresentPoints(ms[1..]);
    }
  }

  /** The measures of a two-part shape are the first part's, then the
      second's. */
  lemma TwoParts(p: Part, q: Part)
    ensures MeasureList([p]) == Present(p)
    ensures MeasureList([p, q]) == Present(p) + Present(q)
  {
    assert [p, q][1..] == [q];
    assert [q][1..] == [];
    assert [p][1..] == [];
    assert MeasureList([q]) == Present(q) + [] == Present(q);
    assert MeasureList([p]) == Present(p) + [] == Present(p);
  }

  /** Plateaus pass: [1, 1, 2, 2, 3] is aligned. */
  lemma PlateauPasses(ms: seq<real>)
    requires ms == [1.0, 1.0, 2.0, 2.0, 3.0]
    ensures MeasureAligned([Points(ms)])
  {
    PresentPoints(ms);
    TwoParts(Points(ms), []);
  }

  /** A reversal fails: [1, 2, 1] is not aligned. */
  lemma ReversalFails(ms: seq<real>)
    requires ms == [1.0, 2.0, 1.0]
    ensures !MeasureAligned([Points(ms)])
  {
    PresentPoints(ms);
    TwoParts(Points(ms), []);
    assert ms[0] < ms[1] && ms[1] > ms[2];
  }

  /** An empty shape and a single point always pass. */
  lemma ShortListsPass(m: real)
    ensures MeasureAligned([]) && MeasureAligned([Points([m])])
  {
    PresentPoints([m]);
    TwoParts(Points([m]), []);
  }

  /** Parts are judged together: two parts that each rise, the second
      starting below where the first ended, fail. */
  lemma AcrossParts(ms: seq<real>)
    requires ms == [1.0, 2.0]
    ensures NonDecreasing(MeasureList([Points(ms)]))
    ensures !MeasureAligned([Points(ms), Points(ms)])
  {
    PresentPoints(ms);
    TwoParts(Points(ms), Points(ms));
    var whole := MeasureList([Points(ms), Points(ms)]);
    assert whole == [1.0, 2.0, 1.0, 2.0];
    assert whole[0] < whole[1] && whole[1] > whole[2];
  }

  /** A separator between two points does not break the run. */
  lemma SeparatorSkipped(a: real, b: real)
    ensures Present([Some(a), None, Some(b)]) == [a, b]
  {
    assert [Some(a), None, Some(b)][1..] == [None, Some(b)];
    assert [None, Some(b)][1..] == [Some(b)];
  }

  // ---------------------------------------------------------------------------
  // Raw routes: gaps and non-monotonic routes

  /** A route of the raw route feature class. */
  datatype Route = Route(rid: string, parts: seq<Part>)

  predicate IsMultipart(r: Route) {
    |r.parts| > 1
  }

  /** `detect_non_monotonic_routes`: the ids of the routes whose shape is not
      aligned, in cursor order. */
  function DetectNonMonotonic(routes: seq<Route>): (r: seq<string>)
    ensures |r| <= |routes|
    ensures forall x :: x in r <==> exists i :: 0 <= i < |routes| && routes[i].rid == x && !MeasureAligned(routes[i].parts)
    decreases |routes|
  {
    if |routes| == 0 then []
    else
      var front := routes[..|routes| - 1];
      var last := routes[|routes| - 1];
      assert forall i :: 0 <= i < |front| ==> front[i] == routes[i];
      if MeasureAligned(last.parts) then DetectNonMonotonic(front)
      else DetectNonMonotonic(front) + [last.rid]
  }

  /** The detection keeps the cursor order: the ids of a longer cursor
      extend those of its prefix. */
  lemma {:induction false} DetectAppend(a: seq<Route>, b: seq<Route>)
    ensures DetectNonMonotonic(a + b) == DetectNonMonotonic(a) + DetectNonMonotonic(b)
    decreases |b|
  {
    if |b| == 0 {
      assert a + b == a;
    } else {
      var bf := b[..|b| - 1];
      assert (a + b)[..|a + b| - 1] == a + bf;
      DetectAppend(a, bf);
    }
  }

  /** The ids of the multipart routes, each once, in cursor order. */
  function MultipartIds(routes: seq<Route>): (r: seq<string>)
    ensures forall i, j :: 0 <= i < j < |r| ==> r[i] != r[j]
    ensures forall x :: x in r <==> exists i :: 0 <= i < |routes| && routes[i].rid == x && IsMultipart(routes[i])
    decreases |routes|
  {
    if |routes| == 0 then []
    else
      var front := routes[..|routes| - 1];
      var last := routes[|routes| - 1];
      assert forall i :: 0 <= i < |front| ==> front[i] == routes[i];
      var prev := MultipartIds(front);
      if IsMultipart(last) && last.rid !in prev then prev + [last.rid] else prev
  }

  /** The gap list: filled only when gaps are checked. */
  function GapList(routes: seq<Route>, checkGaps: bool): (r: seq<string>)
    ensures !checkGaps ==> r == []
    ensures forall i, j :: 0 <= i < j < |r| ==> r[i] != r[j]
    ensures forall x :: x in r <==> checkGaps && exists i :: 0 <= i < |routes| && routes[i].rid == x && IsMultipart(routes[i])
  {
    if checkGaps then MultipartIds(routes) else []
  }

  /** The non-monotonic list: filled only when monotonicity is checked. */
  function NonMonotonicList(routes: seq<Route>, checkNonMonotonic: bool): seq<string> {
    if checkNonMonotonic then DetectNonMonotonic(routes) else []
  }

  // ---------------------------------------------------------------------------
  // Output filter

  /** The route ids to leave out: the gap list when only continuous routes
      are wanted, then the non-monotonic list when only monotonic ones are. */
  function Excluded(gaps: seq<string>, nonMonotonic: seq<string>,
                    onlyContinuous: bool, onlyMonotonic: bool): (r: seq<string>)
    ensures forall x :: x in r <==> (onlyContinuous && x in gaps) || (onlyMonotonic && x in nonMonotonic)
  {
    (if onlyContinuous then gaps else []) + (if onlyMonotonic then nonMonotonic else [])
  }

  /** The where clause of the output layer: a NOT IN over the quoted ids, or
      no filter when there is nothing to leave out. */
  function NotInClause(field: string, rids: seq<string>): (r: string)
    ensures r == "1=1" <==> |rids| == 0
    ensures |rids| > 0 ==> |r| > |field| + 9 && r[..|field| + 9] == field + " NOT IN (" && r[|r| - 1] == ')'
  {
    if |rids| > 0 then field + " NOT IN (" + Join(",", RenderStrings(rids)) + ")" else "1=1"
  }

  /** The list between the parentheses of the clause reads back as exactly
      the left-out ids, in order, when no id holds a comma. */
  lemma NotInClauseReadBack(field: string, rids: seq<string>)
    requires |rids| > 0
    requires forall i :: 0 <= i < |rids| ==> NoChar(rids[i], ',')
    ensures var r := NotInClause(field, rids);
      DecodeStrings(SplitOn(r[|field| + 9..|r| - 1], ',')) == Some(rids)
  {
    var list := Join(",", RenderStrings(rids));
    var r := NotInClause(field, rids);
    assert r == (field + " NOT IN (") + list + ")";
    assert r[|field| + 9..|r| - 1] == list;
    StringInListRoundTrip(rids);
  }

  /** The routes the where clause lets through, in order. */
  function KeepRoutes(raw: seq<Route>, excluded: seq<string>): (r: seq<Route>)
    ensures |r| <= |raw|
    ensures forall x :: x in r <==> x in raw && x.rid !in excluded
    decreases |raw|
  {
    if |raw| == 0 then []
    else (if raw[0].rid in excluded then [] else [raw[0]]) + KeepRoutes(raw[1..], excluded)
  }

  /** Filtering a concatenation filters each part in turn: together with the one-item case of the definition, the kept items keep their order. */
  lemma {:induction false} KeepRoutesAppend(a: seq<Route>, b: seq<Route>, excluded: seq<string>)
    ensures KeepRoutes(a + b, excluded) == KeepRoutes(a, excluded) + KeepRoutes(b, excluded)
    decreases |a|
  {
    if |a| == 0 {
      assert a + b == b;
    } else {
      assert (a + b)[0] == a[0] && (a + b)[1..] == a[1..] + b;
      KeepRoutesAppend(a[1..], b, excluded);
    }
  }

  /** Each kept item is kept as often as it occurs, each other one not at
      all. */
  lemma {:induction false} KeepRoutesCount(s: seq<Route>, excluded: seq<string>, x: Route)
    ensures Count(KeepRoutes(s, excluded), x) == if x.rid !in excluded then Count(s, x) else 0
    decreases |s|
  {
    if |s| > 0 {
      KeepRoutesCount(s[1..], excluded, x);
      CountAppend(if s[0].rid !in excluded then [s[0]] else [], KeepRoutes(s[1..], excluded), x);
    }
  }

  /** Some route of the raw routes has this id and several parts. */
  predicate HasGap(raw: seq<Route>, rid: string) {
    exists i :: 0 <= i < |raw| && raw[i].rid == rid && IsMultipart(raw[i])
  }

  /** Some route of the raw routes has this id and a measure reversal. */
  predicate HasReversal(raw: seq<Route>, rid: string) {
    exists i :: 0 <= i < |raw| && raw[i].rid == rid && !MeasureAligned(raw[i].parts)
  }

  /** `generate_here_route` after route creation (the user is taken to answer
      'Yes' to both prompts): all raw routes when neither restriction is
      asked for; otherwise the raw routes minus those whose id is on a list
      the restrictions select, and nothing else. */
  function GenerateHereRoute(raw: seq<Route>, checkGaps: bool, checkNonMonotonic: bool,
                             onlyContinuous: bool, onlyMonotonic: bool): (r: seq<Route>)
    ensures !onlyContinuous && !onlyMonotonic ==> r == raw
    ensures forall x :: x in r <==>
      (&& x in raw
       && !(onlyContinuous && checkGaps && HasGap(raw, x.rid))
       && !(onlyMonotonic && checkNonMonotonic && HasReversal(raw, x.rid)))
  {
    if !onlyContinuous && !onlyMonotonic then raw
    else
      KeepRoutes(raw, Excluded(GapList(raw, checkGaps), NonMonotonicList(raw, checkNonMonotonic),
                               onlyContinuous, onlyMonotonic))
  }

  /** With both checks and both restrictions on, every output route is in
      one part and has aligned measures. */
  lemma OutputIsClean(raw: seq<Route>, x: Route)
    requires x in GenerateHereRoute(raw, true, true, true, true)
    ensures !IsMultipart(x) && MeasureAligned(x.parts)
  {
    var i :| 0 <= i < |raw| && raw[i] == x;
  }

  /** A restriction without its check removes nothing. */
  lemma RestrictionNeedsCheck(raw: seq<Route>)
    ensures GenerateHereRoute(raw, false, false, true, true) == raw
  {
    assert Excluded(GapList(raw, false), NonMonotonicList(raw, false), true, true) == [];
    KeepAll(raw);
  }

  lemma {:induction false} KeepAll(raw: seq<Route>)
    ensures KeepRoutes(raw, []) == raw
    decreases |raw|
  {
    if |raw| > 0 {
      KeepAll(raw[1..]);
      assert [raw[0]] + raw[1..] == raw;
    }
  }

  // ---------------------------------------------------------------------------
  // Confidence threshold

  /** The levels the threshold may name, lowest first. */
  const ThresholdOptions: seq<Confidence> := [Medium, High, UserConfirmed]

  /** The first position whose level has this label. */
  function FindLabel(levels: seq<Confidence>, text: string): (r: Option<nat>)
    ensures r.None? <==> forall i :: 0 <= i < |levels| ==> levels[i].Label() != text
    ensures r.Some? ==> r.value < |levels| && levels[r.value].Label() == text
    decreases |levels|
  {
    if |levels| == 0 then None
    else if levels[0].Label() == text then Some(0)
    else
      match FindLabel(levels[1..], text)
      case None => None
      case Some(k) => Some(k + 1)
  }

  /** The accepted levels: the options from the threshold on (a ValueError
      when the threshold is not an option). */
  function AcceptedLevels(threshold: string): (r: Result<seq<Confidence>>)
    ensures r.Ok? <==> threshold in {"Medium", "High", "User Confirmed"}
    ensures r.Ok? ==> |r.value| > 0 && r.value[0].Label() == threshold
    ensures r.Ok? ==> forall i, j :: 0 <= i < j < |r.value| ==> r.value[i].Rank() < r.value[j].Rank()
  {
    match FindLabel(ThresholdOptions, threshold)
    case None => Err("'" + threshold + "' is not in list")
    case Some(k) => Ok(ThresholdOptions[k..])
  }

  /** The accepted levels are exactly those ranked at or above the
      threshold, and never 'Low' or 'No Match'. */
  lemma AcceptedAreAtLeastThreshold(threshold: string, c: Confidence)
    requires AcceptedLevels(threshold).Ok?
    ensures LevelOf(threshold).Some?
    ensures c in AcceptedLevels(threshold).value <==> c.Rank() >= LevelOf(threshold).value.Rank()
    ensures c in AcceptedLevels(threshold).value ==> c.Rank() >= Medium.Rank()
  {
    var k := FindLabel(ThresholdOptions, threshold).value;
    var t := ThresholdOptions[k];
    assert AcceptedLevels(threshold).value == ThresholdOptions[k..];
    LabelRoundTrip(t, t);
    assert LevelOf(threshold) == Some(t);
    OptionsFrom(k, c);
  }

  /** The options from position k on are the levels of rank k + 2 and
      above. */
  lemma OptionsFrom(k: nat, c: Confidence)
    requires k < |ThresholdOptions|
    ensures ThresholdOptions[k].Rank() == k + 2
    ensures c in ThresholdOptions[k..] <==> c.Rank() >= k + 2
  {
    var opts := ThresholdOptions;
    assert opts[0] == Medium && opts[1] == High && opts[2] == UserConfirmed;
    if c.Rank() >= k + 2 {
      assert opts[k..][c.Rank() - 2 - k] == c;
    }
  }

  /** A threshold below the options raises. */
  lemma LowThresholdRaises()
    ensures AcceptedLevels("Low").Err? && AcceptedLevels("No Match").Err?
  {
  }

  /** The labels of some levels. */
  function Labels(levels: seq<Confidence>): (r: seq<string>)
    ensures |r| == |levels|
    ensures forall i :: 0 <= i < |levels| ==> r[i] == levels[i].Label()
  {
    seq(|levels|, i requires 0 <= i < |levels| => levels[i].Label())
  }

  /** The where clause selecting candidates at or above the threshold. */
  function ThresholdClause(field: string, levels: seq<Confidence>): string {
    field + " IN (" + Join(",", RenderStrings(Labels(levels))) + ")"
  }

  /** Threshold 'High' accepts 'High' and 'User Confirmed'. */
  lemma HighThreshold()
    ensures AcceptedLevels("High") == Ok([High, UserConfirmed])
  {
    assert FindLabel(ThresholdOptions, "High") == Some(1);
  }

  /** Two accepted levels give a two-value list: each label quoted, joined
      by a bare comma. */
  lemma ThresholdClauseOfTwo(field: string, x: Confidence, y: Confidence)
    ensures ThresholdClause(field, [x, y]) == field + " IN ('" + x.Label() + "','" + y.Label() + "')"
  {
    var parts := RenderStrings(Labels([x, y]));
    assert parts == [Quote(x.Label()), Quote(y.Label())];
    JoinTwo(",", Quote(x.Label()), Quote(y.Label()));
    ClauseOfTwo(field, x.Label(), y.Label());
  }

  lemma ClauseOfTwo(field: string, a: string, b: string)
    ensures field + " IN (" + (Quote(a) + "," + Quote(b)) + ")" == field + " IN ('" + a + "','" + b + "')"
  {
    assert " IN (" + "'" == " IN ('";
    assert "'" + "," + "'" == "','";
    assert "'" + ")" == "')";
  }

  // ---------------------------------------------------------------------------
  // Candidate selection and the duplicate check

  /** A row of the match-candidate table as the route tool reads it. */
  datatype CandidateRow = CandidateRow(lid: string, rid: string, level: Option<string>)

  /** The rows whose level is one of the accepted ones (a null level is in no
      IN list). */
  function SelectLevels(rows: seq<CandidateRow>, levels: seq<Confidence>): (r: seq<CandidateRow>)
    ensures |r| <= |rows|
    ensures forall x :: x in r <==> x in rows && x.level.Some? && x.level.value in Labels(levels)
    decreases |rows|
  {
    if |rows| == 0 then []
    else
      var keep := rows[0].level.Some? && rows[0].level.value in Labels(levels);
      (if keep then [rows[0]] else []) + SelectLevels(rows[1..], levels)
  }

  /** Filtering a concatenation filters each part in turn: together with the one-item case of the definition, the kept items keep their order. */
  lemma {:induction false} SelectLevelsAppend(a: seq<CandidateRow>, b: seq<CandidateRow>, levels: seq<Confidence>)
    ensures SelectLevels(a + b, levels) == SelectLevels(a, levels) + SelectLevels(b, levels)
    decreases |a|
  {
    if |a| == 0 {
      assert a + b == b;
    } else {
      assert (a + b)[0] == a[0] && (a + b)[1..] == a[1..] + b;
      SelectLevelsAppend(a[1..], b, levels);
    }
  }

  /** Each kept item is kept as often as it occurs, each other one not at
      all. */
  lemma {:induction false} SelectLevelsCount(s: seq<CandidateRow>, levels: seq<Confidence>, x: CandidateRow)
    ensures Count(SelectLevels(s, levels), x) == if x.level.Some? && x.level.value in Labels(levels) then Count(s, x) else 0
    decreases |s|
  {
    if |s| > 0 {
      SelectLevelsCount(s[1..], levels, x);
      CountAppend(if s[0].level.Some? && s[0].level.value in Labels(levels) then [s[0]] else [], SelectLevels(s[1..], levels), x);
    }
  }

  /** The (link id, route id) pair the frequency table groups by. */
  function Pairs(rows: seq<CandidateRow>): (r: seq<(string, string)>)
    ensures |r| == |rows|
    ensures forall i :: 0 <= i < |rows| ==> r[i] == (rows[i].lid, rows[i].rid)
  {
    seq(|rows|, i requires 0 <= i < |rows| => (rows[i].lid, rows[i].rid))
  }

  /** The pairs the frequency table reports more than once. */
  function Duplicates(pairs: seq<(string, string)>): (r: set<(string, string)>)
    ensures forall p :: p in r <==> Count(pairs, p) > 1
  {
    set p | p in pairs && Count(pairs, p) > 1
  }

  /** A count above one is two distinct positions holding the value. */
  lemma {:induction false} CountAboveOne<T>(s: seq<T>, x: T)
    ensures Count(s, x) > 1 <==> exists i, j :: 0 <= i < j < |s| && s[i] == x && s[j] == x
    decreases |s|
  {
    if |s| > 0 {
      CountAboveOne(s[1..], x);
      if Count(s, x) > 1 {
        if s[0] == x {
          assert x in s[1..];
          var k :| 0 <= k < |s[1..]| && s[1..][k] == x;
          assert s[0] == x && s[k + 1] == x;
        } else {
          var i, j :| 0 <= i < j < |s[1..]| && s[1..][i] == x && s[1..][j] == x;
          assert s[i + 1] == x && s[j + 1] == x;
        }
      }
      if exists i, j :: 0 <= i < j < |s| && s[i] == x && s[j] == x {
        var i, j :| 0 <= i < j < |s| && s[i] == x && s[j] == x;
        if i == 0 {
          assert s[1..][j - 1] == x;
        } else {
          assert s[1..][i - 1] == x && s[1..][j - 1] == x;
        }
      }
    }
  }

  predicate UniquePairs(rows: seq<CandidateRow>) {
    forall i, j :: 0 <= i < j < |rows| ==> (rows[i].lid, rows[i].rid) != (rows[j].lid, rows[j].rid)
  }

  /** No pair is reported exactly when no pair repeats. */
  lemma NoDuplicatesIsUnique(rows: seq<CandidateRow>)
    ensures Duplicates(Pairs(rows)) == {} <==> UniquePairs(rows)
  {
    var ps := Pairs(rows);
    if Duplicates(ps) != {} {
      var p :| p in Duplicates(ps);
      CountAboveOne(ps, p);
    }
    if !UniquePairs(rows) {
      var i, j :| 0 <= i < j < |rows| && (rows[i].lid, rows[i].rid) == (rows[j].lid, rows[j].rid);
      CountAboveOne(ps, ps[i]);
      assert ps[i] in Duplicates(ps);
    }
  }

  /** The candidate part of the route tool's main block: the threshold picks
      the levels (raising on a bad threshold), the table is cut to them, and
      any repeated (link, route) pair stops the run. */
  function SelectCandidates(rows: seq<CandidateRow>, threshold: string): (r: Result<seq<CandidateRow>>)
    ensures r.Ok? <==> AcceptedLevels(threshold).Ok? && UniquePairs(SelectLevels(rows, AcceptedLevels(threshold).value))
    ensures r.Ok? ==> r.value == SelectLevels(rows, AcceptedLevels(threshold).value)
  {
    match AcceptedLevels(threshold)
    case Err(msg) => Err(msg)
    case Ok(levels) =>
      var selected := SelectLevels(rows, levels);
      NoDuplicatesIsUnique(selected);
      if Duplicates(Pairs(selected)) != {} then Err("Please remove all match candidate duplicates")
      else Ok(selected)
  }

  /** Every selected candidate is at or above the threshold. */
  lemma SelectedAreAboveThreshold(rows: seq<CandidateRow>, threshold: string, x: CandidateRow)
    requires SelectCandidates(rows, threshold).Ok?
    requires x in SelectCandidates(rows, threshold).value
    ensures x.level.Some? && LevelOf(x.level.value).Some? && LevelOf(threshold).Some?
    ensures LevelOf(x.level.value).value.Rank() >= LevelOf(threshold).value.Rank()
  {
    var levels := AcceptedLevels(threshold).value;
    var k :| 0 <= k < |levels| && Labels(levels)[k] == x.level.value;
    LabelRoundTrip(levels[k], levels[k]);
    AcceptedAreAtLeastThreshold(threshold, levels[k]);
  }

  // ---------------------------------------------------------------------------
  // Links located on their route

  /** A HERE link after location along the routes: the route it was
      assigned and the route it was located on (either may be null). */
  datatype LocatedLink = LocatedLink(target: Option<string>, rid: Option<string>,
                                     fmeas: Option<real>, tmeas: Option<real>)

  /** The selection `RID IS NOT NULL AND <route id> = RID`: a null on either
      side never compares equal. */
  function CorrectlyLocated(links: seq<LocatedLink>): (r: seq<LocatedLink>)
    ensures |r| <= |links|
    ensures forall x :: x in r <==> x in links && x.rid.Some? && x.target == x.rid
    decreases |links|
  {
    if |links| == 0 then []
    else
      var l := links[0];
      (if l.rid.Some? && l.target == l.rid then [l] else []) + CorrectlyLocated(links[1..])
  }

  /** The link fields carried to the output: all but the object id, shape
      and shape length, compared case-insensitively. */
  function OutLinkFields(names: seq<string>): (r: seq<string>)
    ensures |r| <= |names|
    ensures forall x :: x in r <==> x in names && Lower(x) !in ["objectid", "shape", "shape_length"]
    decreases |names|
  {
    if |names| == 0 then []
    else
      (if Lower(names[0]) in ["objectid", "shape", "shape_length"] then [] else [names[0]])
      + OutLinkFields(names[1..])
  }

  /** The output column of an input field: RID is written as DOT_RID. */
  function OutputName(f: string): string {
    if f == "RID" then "DOT_RID" else f
  }

  /** The columns of the located-link output: the carried link fields, then
      the located route id and measures.  The field list the function uses
      is the one the main block built from the HERE link feature class it
      was given (a module-level name), not the list it builds itself from
      the located layer, which is left unused; `linkFields` is that
      feature class's fields. */
  function LocatedColumns(linkFields: seq<string>): (r: seq<string>)
    ensures |r| == |OutLinkFields(linkFields)| + 3
    ensures r[|r| - 3..] == ["DOT_RID", "FMEAS", "TMEAS"]
    ensures "RID" !in r
    ensures forall i :: 0 <= i < |OutLinkFields(linkFields)| ==>
      r[i] == (if OutLinkFields(linkFields)[i] == "RID" then "DOT_RID" else OutLinkFields(linkFields)[i])
  {
    var fields := OutLinkFields(linkFields) + ["RID", "FMEAS", "TMEAS"];
    seq(|fields|, i requires 0 <= i < |fields| => OutputName(fields[i]))
  }
}

=== FILE: here_util.dfy ===
/** Route-id matching and intersection-based confidence for HERE match
    candidates: the parsing of a source (HERE) and a target (DOT) route id
    into a comparable "TYPE-NUMBER" form, the YES/NO column it fills, the
    confidence rule, and the count of matching intersections. */
module HereUtil {
  import opened Base
  import MatchCandidate

  // ---------------------------------------------------------------------------
  // Python indexing and int()

  /** A Python slice bound normalised against a length. */
  function SliceBound(i: int, n: nat): (r: nat)
    ensures r <= n
  {
    if i < 0 then (if i + n < 0 then 0 else i + n) else if i > n then n else i
  }

  /** `s[a:b]`. */
  function PySlice(s: string, a: int, b: int): (r: string)
    ensures |r| <= |s|
    ensures 0 <= a <= b <= |s| ==> r == s[a..b]
  {
    var lo, hi := SliceBound(a, |s|), SliceBound(b, |s|);
    if hi <= lo then "" else s[lo..hi]
  }

  /** The position `list[i]` reads in a list of length n, or None for an
      IndexError. */
  function PyIndex(n: nat, i: int): (r: Option<nat>)
    ensures r.Some? <==> -(n as int) <= i < n
    ensures r.Some? ==> r.value < n && (r.value == i || r.value == i + n)
  {
    if 0 <= i < n then Some(i) else if -(n as int) <= i < 0 then Some(i + n) else None
  }

  predicate AllDigits(s: string) {
    forall k :: 0 <= k < |s| ==> IsDigit(s[k])
  }

  /** `int(s)` for a decimal numeral: surrounding whitespace and one sign
      allowed, ValueError otherwise. */
  function ParseInt(s: string): (r: Result<int>)
    ensures r.Ok? ==> exists k :: 0 <= k < |s| && IsDigit(s[k])
  {
    var t := Strip(s);
    var r := ParseSigned(t);
    assert r.Ok? ==> exists k :: 0 <= k < |t| && IsDigit(t[k]);
    r
  }

  /** `int()` of already stripped text. */
  function ParseSigned(t: string): (r: Result<int>)
    ensures r.Ok? ==> exists k :: 0 <= k < |t| && IsDigit(t[k])
  {
    if |t| > 0 && (t[0] == '-' || t[0] == '+') then
      var body := t[1..];
      if |body| > 0 && AllDigits(body) then
        assert IsDigit(t[1]);
        var v := ParseDigits(body) as int;
        Ok(if t[0] == '-' then -v else v)
      else Err("ValueError: invalid literal for int()")
    else if |t| > 0 && AllDigits(t) then
      assert IsDigit(t[0]);
      Ok(ParseDigits(t))
    else Err("ValueError: invalid literal for int()")
  }

  /** Stripping leaves a numeral alone. */
  lemma StripDigits(s: string)
    requires AllDigits(s)
    ensures Strip(s) == s
  {
    if |s| > 0 {
      assert !IsSpace(s[0]) && !IsSpace(s[|s| - 1]);
    }
  }

  /** `int()` reads a plain numeral as its value. */
  lemma ParseIntDigits(s: string)
    requires AllDigits(s) && |s| > 0
    ensures ParseInt(s) == Ok(ParseDigits(s))
  {
    StripDigits(s);
    SignedDigits(s);
  }

  lemma SignedDigits(t: string)
    requires AllDigits(t) && |t| > 0
    ensures ParseSigned(t) == Ok(ParseDigits(t))
  {
    assert IsDigit(t[0]);
  }

  /** A leading zero does not change the value of a numeral. */
  lemma {:induction false} LeadingZero(d: string)
    requires AllDigits(d)
    ensures AllDigits("0" + d) && ParseDigits("0" + d) == ParseDigits(d)
    decreases |d|
  {
    if |d| > 0 {
      var z := "0" + d;
      assert z[..|z| - 1] == "0" + d[..|d| - 1];
      assert z[|z| - 1] == d[|d| - 1];
      LeadingZero(d[..|d| - 1]);
    } else {
      assert ("0" + d)[..0] == [];
    }
  }

  // ---------------------------------------------------------------------------
  // Splitting on the delimiter alternation

  /** The length of the first delimiter, in order, that occurs at `i`; the
      alternation tries them in order, and an empty one matches first and
      makes no split. */
  function MatchAt(s: string, i: nat, delims: seq<string>): (r: nat)
    requires i <= |s|
    ensures r > 0 ==> i + r <= |s| && s[i..i + r] in delims
  {
    if |delims| == 0 then 0
    else if IsPrefix(delims[0], s[i..]) then
      assert s[i..][..|delims[0]|] == s[i..i + |delims[0]|];
      |delims[0]|
    else
      var r := MatchAt(s, i, delims[1..]);
      assert r > 0 ==> s[i..i + r] in delims[1..];
      r
  }

  function SplitFrom(s: string, delims: seq<string>, start: nat, i: nat): (r: seq<string>)
    requires start <= i <= |s|
    ensures |r| >= 1
    decreases |s| - i
  {
    if i == |s| then [s[start..]]
    else
      var m := MatchAt(s, i, delims);
      if m > 0 then [s[start..i]] + SplitFrom(s, delims, i + m, i + m)
      else SplitFrom(s, delims, start, i + 1)
  }

  /** `re.split("|".join(delims), s)` with every delimiter taken literally. */
  function SplitAny(s: string, delims: seq<string>): (r: seq<string>)
    ensures |r| >= 1
  {
    SplitFrom(s, delims, 0, 0)
  }

  lemma {:induction false} SplitFromJoins(s: string, d: string, start: nat, i: nat)
    requires |d| > 0 && start <= i <= |s|
    ensures Join(d, SplitFrom(s, [d], start, i)) == s[start..]
    decreases |s| - i
  {
    if i < |s| {
      var m := MatchAt(s, i, [d]);
      MatchOne(s, i, d);
      if m > 0 {
        SplitFromJoins(s, d, i + m, i + m);
        CutAtDelimiter(s, d, start, i);
      } else {
        SplitFromJoins(s, d, start, i + 1);
      }
    }
  }

  /** One cut: the piece before the delimiter, the delimiter, and the
      pieces after it join back into the text. */
  lemma CutAtDelimiter(s: string, d: string, start: nat, i: nat)
    requires |d| > 0 && start <= i < |s|
    requires MatchAt(s, i, [d]) == |d| && i + |d| <= |s| && s[i..i + |d|] == d
    requires Join(d, SplitFrom(s, [d], i + |d|, i + |d|)) == s[i + |d|..]
    ensures Join(d, SplitFrom(s, [d], start, i)) == s[start..]
  {
    var rest := SplitFrom(s, [d], i + |d|, i + |d|);
    assert SplitFrom(s, [d], start, i) == [s[start..i]] + rest;
    JoinCons(d, s[start..i], rest);
    SliceThree(s, start, i, i + |d|);
  }

  /** A suffix is the concatenation of three consecutive slices. */
  lemma SliceThree(s: string, a: nat, b: nat, c: nat)
    requires a <= b <= c <= |s|
    ensures s[a..] == s[a..b] + s[b..c] + s[c..]
  {
    assert s[a..] == s[a..b] + s[b..];
    assert s[b..] == s[b..c] + s[c..];
  }

  /** A single delimiter matches with its own length. */
  lemma MatchOne(s: string, i: nat, d: string)
    requires i <= |s| && |d| > 0
    ensures MatchAt(s, i, [d]) > 0 ==> MatchAt(s, i, [d]) == |d| && s[i..i + |d|] == d
  {
    assert [d][1..] == [];
  }

  /** Joining a non-empty list after one more part puts a separator
      between. */
  lemma JoinCons(d: string, x: string, rest: seq<string>)
    requires |rest| >= 1
    ensures Join(d, [x] + rest) == x + d + Join(d, rest)
  {
    assert ([x] + rest)[1..] == rest;
  }

  /** With a single non-empty delimiter, joining the pieces back with it
      gives the id again: splitting loses nothing. */
  lemma SplitJoinRoundTrip(s: string, d: string)
    requires |d| > 0
    ensures Join(d, SplitAny(s, [d])) == s
  {
    SplitFromJoins(s, d, 0, 0);
  }

  // ---------------------------------------------------------------------------
  // compare_route_id

  /** The `rules` list: the source id's delimiters and token positions, the
      target id's slice positions (1-based, inclusive), and the route type
      naming convention "HERE DOT;HERE DOT;...". */
  datatype IdRules = IdRules(hereDelimiter: string, typePos: int, numberPos: int, directionPos: int,
                             targetDelimiter: string, typeStart: int, typeEnd: int,
                             numberStart: int, numberEnd: int, convention: string)

  /** The source delimiters: "space" stands for a blank, ';' separates. */
  function Delimiters(rules: IdRules): seq<string> {
    SplitOn(Replace(rules.hereDelimiter, "space", " "), ';')
  }

  /** The naming convention as its criteria, each split on blanks. */
  function Criteria(rules: IdRules): (r: seq<seq<string>>)
    ensures forall k :: 0 <= k < |r| ==> |r[k]| >= 1
  {
    var items := SplitOn(rules.convention, ';');
    seq(|items|, k requires 0 <= k < |items| => SplitOn(items[k], ' '))
  }

  /** The target id parsed: its type slice, "-", and its number slice read
      as an integer and printed back, which drops leading zeros. */
  function ParseTarget(rules: IdRules, target: string): Result<string> {
    var kind := PySlice(target, rules.typeStart - 1, rules.typeEnd);
    var number := ParseInt(PySlice(target, rules.numberStart - 1, rules.numberEnd));
    if number.Err? then Err(number.msg) else Ok(kind + "-" + IntToString(number.value))
  }

  /** Two targets with the same type slice and number slices of the same
      value parse alike: "SR007" and "SR7" name the same route. */
  lemma TargetNumberCanonical(rules: IdRules, t1: string, t2: string)
    requires PySlice(t1, rules.typeStart - 1, rules.typeEnd) == PySlice(t2, rules.typeStart - 1, rules.typeEnd)
    requires var n1 := PySlice(t1, rules.numberStart - 1, rules.numberEnd);
             var n2 := PySlice(t2, rules.numberStart - 1, rules.numberEnd);
             |n1| > 0 && |n2| > 0 && AllDigits(n1) && AllDigits(n2) && ParseDigits(n1) == ParseDigits(n2)
    ensures ParseTarget(rules, t1).Ok? && ParseTarget(rules, t1) == ParseTarget(rules, t2)
  {
    var kind := PySlice(t1, rules.typeStart - 1, rules.typeEnd);
    var n1 := PySlice(t1, rules.numberStart - 1, rules.numberEnd);
    var n2 := PySlice(t2, rules.numberStart - 1, rules.numberEnd);
    ParseIntDigits(n1);
    ParseIntDigits(n2);
    TargetOfSlices(rules, t1, kind, n1, ParseDigits(n1));
    TargetOfSlices(rules, t2, kind, n2, ParseDigits(n2));
  }

  /** The numeral "007" reads as 7. */
  lemma PaddedSeven(n: string)
    requires n == "007"
    ensures AllDigits(n) && ParseDigits(n) == 7
  {
    var seven, zeroSeven := "7", "07";
    assert seven[..0] == [];
    assert ParseDigits(seven) == 7;
    LeadingZero(seven);
    assert "0" + seven == zeroSeven;
    LeadingZero(zeroSeven);
    assert "0" + zeroSeven == n;
  }

  lemma SevenParses(n: string)
    requires n == "007"
    ensures ParseInt(n) == Ok(7)
  {
    PaddedSeven(n);
    ParseIntDigits(n);
  }

  lemma TargetOfSlices(rules: IdRules, target: string, kind: string, n: string, v: int)
    requires PySlice(target, rules.typeStart - 1, rules.typeEnd) == kind
    requires PySlice(target, rules.numberStart - 1, rules.numberEnd) == n
    requires ParseInt(n) == Ok(v)
    ensures ParseTarget(rules, target) == Ok(kind + "-" + IntToString(v))
  {
    var number := ParseInt(PySlice(target, rules.numberStart - 1, rules.numberEnd));
    assert number.Ok? && number.value == v;
  }

  /** The documented form: type "SR", number "007", parsed "SR-7". */
  lemma TargetExample(rules: IdRules, target: string)
    requires target == "SR007"
    requires rules.typeStart == 1 && rules.typeEnd == 2 && rules.numberStart == 3 && rules.numberEnd == 5
    ensures ParseTarget(rules, target) == Ok("SR-7")
  {
    assert "SR" + "-" + "7" == "SR-7";
    var kind := PySlice(target, 0, 2);
    assert kind == "SR" by {
      assert SliceBound(0, 5) == 0 && SliceBound(2, 5) == 2;
      assert target[0..2] == "SR";
    }
    var n := PySlice(target, 2, 5);
    assert n == "007" by {
      assert SliceBound(2, 5) == 2 && SliceBound(5, 5) == 5;
      assert target[2..5] == "007";
    }
    assert IntToString(7) == "7" by {
      assert NatToString(7) == [DigitChar(7)];
    }
    SevenParses(n);
    TargetOfSlices(rules, target, kind, n, 7);
  }

  /** The naming convention applied to the type token, criteria in order:
      a token equal to a criterion's HERE name becomes its DOT name (an
      IndexError when the criterion has no second word).  Also says whether
      any criterion applied. */
  function Convert(token: string, criteria: seq<seq<string>>): (r: Result<(string, bool)>)
    requires forall k :: 0 <= k < |criteria| ==> |criteria[k]| >= 1
    ensures r.Ok? && !r.value.1 ==> r.value.0 == token
    decreases |criteria|
  {
    if |criteria| == 0 then Ok((token, false))
    else
      var c := criteria[0];
      assert forall k :: 1 <= k < |criteria| ==> criteria[1..][k - 1] == criteria[k];
      if token == c[0] then
        if |c| < 2 then Err("IndexError: list index out of range")
        else
          var rest := Convert(c[1], criteria[1..]);
          if rest.Err? then rest else Ok((rest.value.0, true))
      else Convert(token, criteria[1..])
  }

  /** A renamed token is the DOT name of some criterion, and a token no
      criterion names is left as it is. */
  lemma {:induction false} ConvertMeaning(token: string, criteria: seq<seq<string>>)
    requires forall k :: 0 <= k < |criteria| ==> |criteria[k]| >= 1
    ensures var r := Convert(token, criteria);
            r.Ok? && r.value.1 ==> exists k :: 0 <= k < |criteria| && |criteria[k]| >= 2 && r.value.0 == criteria[k][1]
    ensures (forall k :: 0 <= k < |criteria| ==> criteria[k][0] != token) ==> Convert(token, criteria) == Ok((token, false))
    decreases |criteria|
  {
    if |criteria| > 0 {
      var c := criteria[0];
      var tail := criteria[1..];
      assert forall k :: 1 <= k < |criteria| ==> tail[k - 1] == criteria[k];
      if token == c[0] {
        if |c| >= 2 {
          ConvertMeaning(c[1], tail);
          var rest := Convert(c[1], tail);
          if rest.Ok? && rest.value.1 {
            var j :| 0 <= j < |tail| && |tail[j]| >= 2 && rest.value.0 == tail[j][1];
            assert criteria[j + 1] == tail[j];
          }
        }
      } else {
        ConvertMeaning(token, tail);
        var r := Convert(token, tail);
        if r.Ok? && r.value.1 {
          var j :| 0 <= j < |tail| && |tail[j]| >= 2 && r.value.0 == tail[j][1];
          assert criteria[j + 1] == tail[j];
        }
      }
    }
  }

  /** The source id parsed from its tokens: rebuilt as type + "-" + number,
      direction dropped, when the convention renamed the type token, and
      the raw id otherwise. */
  function ParseSourceTokens(rules: IdRules, source: string, tokens: seq<string>): Result<string> {
    match PyIndex(|tokens|, rules.typePos - 1)
    case None => Err("IndexError: list index out of range")
    case Some(k) =>
      match Convert(tokens[k], Criteria(rules))
      case Err(msg) => Err(msg)
      case Ok(converted) =>
        if !converted.1 then Ok(source)
        else
          var renamed := tokens[k := converted.0];
          match PyIndex(|renamed|, rules.numberPos - 1)
          case None => Err("IndexError: list index out of range")
          case Some(n) => Ok(renamed[k] + "-" + renamed[n])
  }

  function ParseSource(rules: IdRules, source: string): Result<string> {
    ParseSourceTokens(rules, source, SplitAny(source, Delimiters(rules)))
  }

  /** Only the type and number tokens matter to a rebuilt id: two source
      ids whose tokens agree there (whatever their direction token) parse
      alike once the convention applies. */
  lemma DirectionIgnored(rules: IdRules, s1: string, s2: string, toks1: seq<string>, toks2: seq<string>, k: nat, n: nat)
    requires |toks1| == |toks2|
    requires PyIndex(|toks1|, rules.typePos - 1) == Some(k) && PyIndex(|toks1|, rules.numberPos - 1) == Some(n)
    requires toks1[k] == toks2[k] && toks1[n] == toks2[n]
    requires Convert(toks1[k], Criteria(rules)).Ok? && Convert(toks1[k], Criteria(rules)).value.1
    ensures ParseSourceTokens(rules, s1, toks1).Ok?
    ensures ParseSourceTokens(rules, s1, toks1) == ParseSourceTokens(rules, s2, toks2)
  {
    var name := Convert(toks1[k], Criteria(rules)).value.0;
    var r1, r2 := toks1[k := name], toks2[k := name];
    assert r1[k] == r2[k] && r1[n] == r2[n];
    RebuiltId(rules, s1, toks1, k, n);
    RebuiltId(rules, s2, toks2, k, n);
  }

  /** A renamed type token rebuilds the id from the renamed type token and
      the number token. */
  lemma RebuiltId(rules: IdRules, source: string, tokens: seq<string>, k: nat, n: nat)
    requires PyIndex(|tokens|, rules.typePos - 1) == Some(k) && PyIndex(|tokens|, rules.numberPos - 1) == Some(n)
    requires Convert(tokens[k], Criteria(rules)).Ok? && Convert(tokens[k], Criteria(rules)).value.1
    ensures var renamed := tokens[k := Convert(tokens[k], Criteria(rules)).value.0];
            ParseSourceTokens(rules, source, tokens) == Ok(renamed[k] + "-" + renamed[n])
  {
  }

  /** A type token no criterion names leaves the raw id to compare. */
  lemma UnconvertedKeepsRawId(rules: IdRules, source: string, tokens: seq<string>, k: nat)
    requires PyIndex(|tokens|, rules.typePos - 1) == Some(k)
    requires forall j :: 0 <= j < |Criteria(rules)| ==> Criteria(rules)[j][0] != tokens[k]
    ensures ParseSourceTokens(rules, source, tokens) == Ok(source)
  {
    ConvertMeaning(tokens[k], Criteria(rules));
  }

  /** `compare_route_id`: the target is parsed first (a bad number raises),
      then the source; true exactly when the parsed ids are equal. */
  function CompareRouteId(rules: IdRules, source: string, target: string): (r: Result<bool>)
    ensures r.Ok? <==> ParseTarget(rules, target).Ok? && ParseSource(rules, source).Ok?
    ensures r.Ok? ==> (r.value <==> ParseSource(rules, source).value == ParseTarget(rules, target).value)
  {
    match ParseTarget(rules, target)
    case Err(msg) => Err(msg)
    case Ok(t) =>
      match ParseSource(rules, source)
      case Err(msg) => Err(msg)
      case Ok(s) => Ok(s == t)
  }

  // ---------------------------------------------------------------------------
  // matching_route_by_id

  datatype IdCandidate = IdCandidate(targetRoute: string, sourceRoute: string)

  /** The comparison of one candidate row. */
  function CompareRow(rules: IdRules, row: IdCandidate): Result<bool> {
    CompareRouteId(rules, row.sourceRoute, row.targetRoute)
  }

  /** The YES/NO column from the row comparisons in cursor order; the first
      comparison that raised aborts the run with its error. */
  function Flags(results: seq<Result<bool>>): (r: Result<seq<string>>)
    ensures r.Ok? ==> |r.value| == |results|
  {
    if |results| == 0 then Ok([])
    else if results[0].Err? then Err(results[0].msg)
    else
      var rest := Flags(results[1..]);
      if rest.Err? then rest
      else Ok([if results[0].value then "YES" else "NO"] + rest.value)
  }

  /** `matching_route_by_id`: "YES" for every row whose ids compare equal,
      "NO" for the others. */
  function MatchingRouteById(rules: IdRules, rows: seq<IdCandidate>): (r: Result<seq<string>>)
    ensures r.Ok? ==> |r.value| == |rows|
  {
    Flags(seq(|rows|, i requires 0 <= i < |rows| => CompareRow(rules, rows[i])))
  }

  /** The column is filled for every comparison or the run fails on one that
      raised; a filled row says "YES" exactly when its comparison came out
      true, and "NO" otherwise. */
  lemma {:induction false} FlagsMeaning(results: seq<Result<bool>>)
    ensures Flags(results).Err? <==> exists i :: 0 <= i < |results| && results[i].Err?
    ensures var r := Flags(results);
      r.Ok? ==> forall i :: 0 <= i < |results| ==>
        (r.value[i] == "YES" <==> results[i] == Ok(true)) && (r.value[i] == "YES" || r.value[i] == "NO")
    decreases |results|
  {
    if |results| > 0 {
      FlagsMeaning(results[1..]);
      assert forall i :: 1 <= i < |results| ==> results[1..][i - 1] == results[i];
      if results[0].Ok? && Flags(results[1..]).Err? {
        var j :| 0 <= j < |results[1..]| && results[1..][j].Err?;
        assert results[j + 1].Err?;
      }
    }
  }

  /** The column as the source promises it: a row is "YES" exactly when its
      route ids compare equal, and the run fails only on a row whose
      comparison raises. */
  lemma MatchingRouteByIdMeaning(rules: IdRules, rows: seq<IdCandidate>)
    ensures MatchingRouteById(rules, rows).Err? <==> exists i :: 0 <= i < |rows| && CompareRow(rules, rows[i]).Err?
    ensures var r := MatchingRouteById(rules, rows);
      r.Ok? ==> forall i :: 0 <= i < |rows| ==>
        (r.value[i] == "YES" <==> CompareRow(rules, rows[i]) == Ok(true)) && (r.value[i] == "YES" || r.value[i] == "NO")
  {
    var results := seq(|rows|, i requires 0 <= i < |rows| => CompareRow(rules, rows[i]));
    assert MatchingRouteById(rules, rows) == Flags(results);
    FlagsMeaning(results);
    assert forall i :: 0 <= i < |rows| ==> results[i] == CompareRow(rules, rows[i]);
  }

  // ---------------------------------------------------------------------------
  // calculate_confidence_level

  datatype Level = LevelLow | LevelMedium | LevelHigh {
    function Label(): string {
      match this
      case LevelLow => "LOW"
      case LevelMedium => "MEDIUM"
      case LevelHigh => "HIGH"
    }

    function Rank(): nat {
      match this
      case LevelLow => 0
      case LevelMedium => 1
      case LevelHigh => 2
    }
  }

  /** Python 2 orders None below every number, so a missing count behaves
      as one below zero. */
  function CountValue(count: Option<int>): int {
    if count.None? then -1 else count.value
  }

  /** `calculate_confidence_level` for one row. */
  function ConfidenceLevel(count: Option<int>, idMatch: string): (r: Level)
    ensures r == LevelHigh <==> CountValue(count) >= 2 && idMatch == "YES"
    ensures r == LevelLow <==> CountValue(count) <= 0 || (CountValue(count) == 1 && idMatch != "YES")
  {
    var n := CountValue(count);
    if n >= 2 then (if idMatch == "YES" then LevelHigh else LevelMedium)
    else if n > 0 then (if idMatch == "YES" then LevelMedium else LevelLow)
    else LevelLow
  }

  /** More matching intersections, or an id match, never lower the
      level. */
  lemma ConfidenceMonotone(c1: Option<int>, c2: Option<int>, m1: string, m2: string)
    requires CountValue(c1) <= CountValue(c2)
    requires m1 == "YES" ==> m2 == "YES"
    ensures ConfidenceLevel(c1, m1).Rank() <= ConfidenceLevel(c2, m2).Rank()
  {
  }

  /** The levels are written in capitals, which the route builder's
      threshold filter, spelled "Medium"/"High", does not recognise. */
  lemma CapitalLabelsUnrecognised(l: Level)
    ensures MatchCandidate.LevelOf(l.Label()).None?
  {
  }

  // ---------------------------------------------------------------------------
  // matching_intersections_func (the count)

  /** A row of an intersection look-up table: an intersection on a route. */
  datatype LutRow = LutRow(iid: int, onRoute: string)

  /** A row of the near table, by intersection ids. */
  datatype NearRow = NearRow(inId: int, nearId: int)

  /** The intersection ids of a route, in cursor order. */
  function IdsOn(lut: seq<LutRow>, route: string): (r: seq<int>)
    ensures forall x :: x in r <==> LutRow(x, route) in lut
  {
    if |lut| == 0 then []
    else
      assert lut == [lut[0]] + lut[1..];
      (if lut[0].onRoute == route then [lut[0].iid] else []) + IdsOn(lut[1..], route)
  }

  /** The near rows of source intersection `s` whose near intersection
      lies on the target route. */
  function NearHits(near: seq<NearRow>, s: int, targets: seq<int>): nat {
    if |near| == 0 then 0
    else (if near[0].inId == s && near[0].nearId in targets then 1 else 0) + NearHits(near[1..], s, targets)
  }

  function TotalHits(sources: seq<int>, near: seq<NearRow>, targets: seq<int>): nat {
    if |sources| == 0 then 0 else NearHits(near, sources[0], targets) + TotalHits(sources[1..], near, targets)
  }

  /** The count a candidate gets: 0 when either route has no intersection;
      otherwise, for every source intersection (repeats included), the near
      rows reaching an intersection of the target route. */
  function MatchingCount(sourceLut: seq<LutRow>, targetLut: seq<LutRow>, near: seq<NearRow>,
                         sourceRoute: string, targetRoute: string): nat
  {
    var sources := IdsOn(sourceLut, sourceRoute);
    var targets := IdsOn(targetLut, targetRoute);
    if |sources| == 0 || |targets| == 0 then 0 else TotalHits(sources, near, targets)
  }

  lemma {:induction false} NearHitsSnoc(near: seq<NearRow>, x: NearRow, s: int, targets: seq<int>)
    ensures NearHits(near + [x], s, targets) == NearHits(near, s, targets) + (if x.inId == s && x.nearId in targets then 1 else 0)
    decreases |near|
  {
    if |near| == 0 {
      assert (near + [x])[1..] == [];
    } else {
      assert (near + [x])[1..] == near[1..] + [x];
      NearHitsSnoc(near[1..], x, s, targets);
    }
  }

  lemma {:induction false} TotalHitsSnoc(sources: seq<int>, s: int, near: seq<NearRow>, targets: seq<int>)
    ensures TotalHits(sources + [s], near, targets) == TotalHits(sources, near, targets) + NearHits(near, s, targets)
    decreases |sources|
  {
    if |sources| == 0 {
      assert (sources + [s])[1..] == [];
    } else {
      assert (sources + [s])[1..] == sources[1..] + [s];
      TotalHitsSnoc(sources[1..], s, near, targets);
    }
  }

  /** The nested loops of `matching_intersections_func` for one candidate:
      for every source intersection, every near row from it whose near
      intersection is on the target route adds one. */
  method CountMatchingIntersections(sourceLut: seq<LutRow>, targetLut: seq<LutRow>, near: seq<NearRow>,
                                    sourceRoute: string, targetRoute: string) returns (count: nat)
    ensures count == MatchingCount(sourceLut, targetLut, near, sourceRoute, targetRoute)
    ensures count > 0 ==> (exists x :: LutRow(x, sourceRoute) in sourceLut) && (exists y :: LutRow(y, targetRoute) in targetLut)
  {
    var sources := IdsOn(sourceLut, sourceRoute);
    if |sources| == 0 {
      return 0;
    }
    var targets := IdsOn(targetLut, targetRoute);
    if |targets| == 0 {
      return 0;
    }
    count := 0;
    var i := 0;
    while i < |sources|
      invariant 0 <= i <= |sources|
      invariant count == TotalHits(sources[..i], near, targets)
    {
      var j := 0;
      var hits := 0;
      while j < |near|
        invariant 0 <= j <= |near|
        invariant hits == NearHits(near[..j], sources[i], targets)
      {
        if near[j].inId == sources[i] && near[j].nearId in targets {
          hits := hits + 1;
        }
        NearHitsSnoc(near[..j], near[j], sources[i], targets);
        assert near[..j + 1] == near[..j] + [near[j]];
        j := j + 1;
      }
      assert near[..j] == near;
      TotalHitsSnoc(sources[..i], sources[i], near, targets);
      assert sources[..i + 1] == sources[..i] + [sources[i]];
      count := count + hits;
      i := i + 1;
    }
    assert sources[..i] == sources;
    assert LutRow(sources[0], sourceRoute) in sourceLut;
    assert LutRow(targets[0], targetRoute) in targetLut;
  }

  /** A further near row never lowers the count. */
  lemma {:induction false} MoreNearRowsNeverLower(sources: seq<int>, near: seq<NearRow>, x: NearRow, targets: seq<int>)
    ensures TotalHits(sources, near, targets) <= TotalHits(sources, near + [x], targets)
    decreases |sources|
  {
    if |sources| > 0 {
      NearHitsSnoc(near, x, sources[0], targets);
      MoreNearRowsNeverLower(sources[1..], near, x, targets);
    }
  }
}

=== FILE: intersection.dfy ===
/** Intersection events: the vertices of the simplified network classified
    by how many route records pass through each location, the split of the
    circular candidates into real loops and artefacts, and the intersection
    ids written in cursor order. */
module Intersection {
  import opened Base

  datatype XY = XY(x: real, y: real)

  /** A vertex of the simplified network and the route it belongs to. */
  datatype Vertex = Vertex(xy: XY, rid: string)

  /** The `INTER_SHAPE_TYPE` of a location. */
  datatype ShapeType = Dangle | TrueIntersection | Circular | Concurrent {
    function Label(): string {
      match this
      case Dangle => "DELETE"
      case TrueIntersection => "TRUE INTERSECTIONS"
      case Circular => "CIRCULAR INTERSECTIONS"
      case Concurrent => "CONCURRENT INTERSECTIONS OR OTHERS"
    }
  }

  /** A classified intersection point. */
  datatype Typed = Typed(xy: XY, rid: string, kind: ShapeType)

  // ---------------------------------------------------------------------------
  // Classification

  /** The route ids recorded at `xy`, in cursor order, repeats kept. */
  function RidsAt(vertices: seq<Vertex>, xy: XY): (r: seq<string>)
    ensures |r| <= |vertices|
    ensures forall rid :: rid in r <==> Vertex(xy, rid) in vertices
  {
    if |vertices| == 0 then []
    else
      assert vertices == [vertices[0]] + vertices[1..];
      (if vertices[0].xy == xy then [vertices[0].rid] else []) + RidsAt(vertices[1..], xy)
  }

  /** The type of a location from the route ids recorded there. */
  function Classify(rids: seq<string>): ShapeType
    requires |rids| > 0
  {
    if |rids| == 1 then Dangle
    else if |rids| == 2 then (if rids[0] == rids[1] then Circular else TrueIntersection)
    else
      var unique := |Distinct(rids)|;
      if unique == |rids| then TrueIntersection
      else if unique == 1 then Circular
      else Concurrent
  }

  predicate AllSame(rids: seq<string>) {
    forall i :: 0 <= i < |rids| ==> rids[i] == rids[0]
  }

  lemma {:induction false} DistinctOfUnique(s: seq<string>)
    requires NoDuplicates(s)
    ensures Distinct(s) == s
    decreases |s|
  {
    if |s| > 0 {
      var front := s[..|s| - 1];
      DistinctOfUnique(front);
      assert s[|s| - 1] !in front;
      assert front + [s[|s| - 1]] == s;
    }
  }

  lemma {:induction false} DistinctShrinks(s: seq<string>, i: nat, j: nat)
    requires i < j < |s| && s[i] == s[j]
    ensures |Distinct(s)| < |s|
    decreases |s|
  {
    var front := s[..|s| - 1];
    if j < |s| - 1 {
      DistinctShrinks(front, i, j);
    } else {
      assert front[i] == s[j];
    }
  }

  lemma {:induction false} DistinctOfAllSame(s: seq<string>)
    requires |s| > 0 && AllSame(s)
    ensures Distinct(s) == [s[0]]
    decreases |s|
  {
    if |s| > 1 {
      var front := s[..|s| - 1];
      assert AllSame(front) && front[0] == s[0];
      DistinctOfAllSame(front);
    }
  }

  lemma DistinctOfSame(s: seq<string>)
    requires |s| > 0
    ensures |Distinct(s)| == 1 <==> AllSame(s)
  {
    var d := Distinct(s);
    if AllSame(s) {
      DistinctOfAllSame(s);
    }
    if |d| == 1 {
      forall i | 0 <= i < |s| ensures s[i] == s[0] {
        assert s[i] in d && s[0] in d;
      }
    }
  }

  /** The classification in its own terms: a location on two or more route
      records is a true intersection when no route repeats there, circular
      when a single route passes it every time, and concurrent otherwise; a
      location on one record is a dangle. */
  lemma ClassifyMeaning(rids: seq<string>)
    requires |rids| > 0
    ensures Classify(rids) == Dangle <==> |rids| == 1
    ensures |rids| >= 2 ==> (Classify(rids) == TrueIntersection <==> NoDuplicates(rids))
    ensures |rids| >= 2 ==> (Classify(rids) == Circular <==> AllSame(rids))
    ensures |rids| >= 2 ==> (Classify(rids) == Concurrent <==> !NoDuplicates(rids) && !AllSame(rids))
  {
    if |rids| >= 2 {
      if NoDuplicates(rids) {
        DistinctOfUnique(rids);
      } else {
        var i, j :| 0 <= i < j < |rids| && rids[i] == rids[j];
        DistinctShrinks(rids, i, j);
      }
      DistinctOfSame(rids);
      if |rids| == 2 {
        assert NoDuplicates(rids) <==> rids[0] != rids[1];
        assert AllSame(rids) <==> rids[0] == rids[1];
      }
    }
  }

  /** The rows the update cursor keeps, in order: every vertex whose
      location is not a dangle, with its location's type. */
  function TypeVertices(all: seq<Vertex>, rest: seq<Vertex>): (r: seq<Typed>)
    requires forall v :: v in rest ==> v in all
    ensures forall t :: t in r <==>
      Vertex(t.xy, t.rid) in rest && t.kind == Classify(RidsAt(all, t.xy)) && t.kind != Dangle
  {
    if |rest| == 0 then []
    else
      var v := rest[0];
      assert rest == [v] + rest[1..];
      var kind := Classify(RidsAt(all, v.xy));
      (if kind == Dangle then [] else [Typed(v.xy, v.rid, kind)]) + TypeVertices(all, rest[1..])
  }

  predicate HasXY(rows: seq<Typed>, xy: XY) {
    exists i :: 0 <= i < |rows| && rows[i].xy == xy
  }

  predicate UniqueXY(rows: seq<Typed>) {
    forall i, j :: 0 <= i < j < |rows| ==> rows[i].xy != rows[j].xy
  }

  /** `DeleteIdentical` on the shape: the first row at every location. */
  function FirstPerXY(rows: seq<Typed>): (r: seq<Typed>)
    ensures UniqueXY(r)
    ensures forall t :: t in r ==> t in rows
    ensures forall xy :: HasXY(r, xy) <==> HasXY(rows, xy)
    decreases |rows|
  {
    if |rows| == 0 then []
    else
      var front := rows[..|rows| - 1];
      var last := rows[|rows| - 1];
      var kept := FirstPerXY(front);
      assert rows == front + [last];
      HasXYSnoc(front, last);
      if HasXY(kept, last.xy) then kept
      else
        HasXYSnoc(kept, last);
        kept + [last]
  }

  /** A location is in a list with one more row exactly when it is in the
      list or is that row's. */
  lemma HasXYSnoc(rows: seq<Typed>, last: Typed)
    ensures forall xy :: HasXY(rows + [last], xy) <==> HasXY(rows, xy) || last.xy == xy
  {
    var all := rows + [last];
    forall xy ensures HasXY(all, xy) <==> HasXY(rows, xy) || last.xy == xy {
      if HasXY(rows, xy) {
        var i :| 0 <= i < |rows| && rows[i].xy == xy;
        assert all[i] == rows[i];
      }
      if last.xy == xy {
        assert all[|rows|] == last;
      }
      if HasXY(all, xy) && last.xy != xy {
        var i :| 0 <= i < |all| && all[i].xy == xy;
        assert rows[i] == all[i];
      }
    }
  }

  /** The intersection points `detect_intersections` keeps before the loop
      check: one row per location, each location recorded on at least two
      route records, with the type all rows at that location share. */
  function DetectIntersections(vertices: seq<Vertex>): (r: seq<Typed>)
    ensures UniqueXY(r)
    ensures forall t :: t in r ==> Vertex(t.xy, t.rid) in vertices && t.rid in RidsAt(vertices, t.xy) && t.kind == Classify(RidsAt(vertices, t.xy))
    ensures forall xy :: HasXY(r, xy) <==> |RidsAt(vertices, xy)| >= 2
  {
    var typed := TypeVertices(vertices, vertices);
    var r := FirstPerXY(typed);
    forall xy ensures HasXY(typed, xy) <==> |RidsAt(vertices, xy)| >= 2 {
      var rids := RidsAt(vertices, xy);
      if |rids| >= 2 {
        assert rids[0] in rids;
        var t := Typed(xy, rids[0], Classify(rids));
        ClassifyMeaning(rids);
        assert t in typed;
        var i :| 0 <= i < |typed| && typed[i] == t;
      }
      if HasXY(typed, xy) {
        var i :| 0 <= i < |typed| && typed[i].xy == xy;
        assert typed[i] in typed;
        assert typed[i].rid in rids;
        ClassifyMeaning(rids);
      }
    }
    r
  }

  /** A location on a single route record is dropped as a dangle. */
  lemma DangleDropped(p: XY, a: string)
    ensures DetectIntersections([Vertex(p, a)]) == []
  {
    var vs := [Vertex(p, a)];
    assert vs[1..] == [];
    assert RidsAt(vs, p) == [a];
    var one := DetectIntersections(vs);
    if |one| > 0 {
      assert HasXY(one, one[0].xy);
    }
  }

  /** Two records of one route at a location make a circular point. */
  lemma CircularExample(p: XY, a: string)
    ensures Classify(RidsAt([Vertex(p, a), Vertex(p, a)], p)) == Circular
  {
    var vs := [Vertex(p, a), Vertex(p, a)];
    assert vs[1..] == [Vertex(p, a)];
    assert vs[1..][1..] == [];
    assert RidsAt(vs, p) == [a, a];
  }

  /** Records of two routes at a location make a true intersection, even
      when one of them also passes elsewhere. */
  lemma TrueIntersectionExample(p: XY, q: XY, a: string, b: string)
    requires p != q && a != b
    ensures Classify(RidsAt([Vertex(p, a), Vertex(q, a), Vertex(p, b)], p)) == TrueIntersection
  {
    var vs := [Vertex(p, a), Vertex(q, a), Vertex(p, b)];
    assert vs[1..] == [Vertex(q, a), Vertex(p, b)];
    assert vs[1..][1..] == [Vertex(p, b)];
    assert vs[1..][1..][1..] == [];
    assert RidsAt(vs, p) == [a, b];
  }

  // ---------------------------------------------------------------------------
  // Loop check

  /** The positions (`TSS_ID`s) of the circular points. */
  function CircularIds(events: seq<Typed>, n: nat): (r: seq<nat>)
    requires n <= |events|
    ensures forall i :: i in r <==> 0 <= i < n && events[i].kind == Circular
  {
    if n == 0 then []
    else CircularIds(events, n - 1) + (if events[n - 1].kind == Circular then [n - 1] else [])
  }

  /** The ids the frequency table lists with `FREQUENCY = 2`. */
  function TwiceLocated(located: seq<nat>, rest: seq<nat>): (r: seq<nat>)
    ensures forall i :: i in r <==> i in rest && Count(located, i) == 2
  {
    if |rest| == 0 then []
    else
      assert rest == [rest[0]] + rest[1..];
      (if Count(located, rest[0]) == 2 then [rest[0]] else []) + TwiceLocated(located, rest[1..])
  }

  function RightLoops(located: seq<nat>): (r: seq<nat>)
    ensures forall i :: i in r <==> Count(located, i) == 2
  {
    Distinct(TwiceLocated(located, located))
  }

  /** The circular ids not located exactly twice. */
  function WrongLoops(potential: seq<nat>, right: seq<nat>): (r: seq<nat>)
    ensures forall i :: i in r <==> i in potential && i !in right
  {
    if |potential| == 0 then []
    else
      assert potential == [potential[0]] + potential[1..];
      (if potential[0] in right then [] else [potential[0]]) + WrongLoops(potential[1..], right)
  }

  /** The positions the deletion of the wrong loops leaves. */
  function Surviving(n: nat, wrong: seq<nat>): (r: seq<nat>)
    ensures forall i :: i in r <==> 0 <= i < n && i !in wrong
  {
    if n == 0 then [] else Surviving(n - 1, wrong) + (if n - 1 in wrong then [] else [n - 1])
  }

  /** The circular ids found in the right list: the generated loops. */
  function RealLoops(potential: seq<nat>, right: seq<nat>): (r: seq<nat>)
    ensures forall i :: i in r <==> i in potential && i in right
  {
    if |potential| == 0 then []
    else
      assert potential == [potential[0]] + potential[1..];
      (if potential[0] in right then [potential[0]] else []) + RealLoops(potential[1..], right)
  }

  predicate KeepsPoint(events: seq<Typed>, located: seq<nat>, i: nat) {
    i < |events| && (events[i].kind != Circular || Count(located, i) == 2)
  }

  predicate IsLoop(events: seq<Typed>, located: seq<nat>, i: nat) {
    i < |events| && events[i].kind == Circular && Count(located, i) == 2
  }

  /** The loop check: the circular points, located along the network
      (`located` lists the id of every location found), are kept as loops
      when located exactly twice and deleted otherwise; the other points
      stay.  Returns the surviving positions and the loop positions. */
  function LoopCheck(events: seq<Typed>, located: seq<nat>): (r: (seq<nat>, seq<nat>))
    ensures forall i: nat :: i in r.0 <==> KeepsPoint(events, located, i)
    ensures forall i: nat :: i in r.1 <==> IsLoop(events, located, i)
  {
    var potential := CircularIds(events, |events|);
    var right := RightLoops(located);
    var wrong := WrongLoops(potential, right);
    var kept := Surviving(|events|, wrong);
    var loops := RealLoops(potential, right);
    LoopCheckSound(events, located, potential, right, wrong, kept, loops);
    (kept, loops)
  }

  lemma LoopCheckSound(events: seq<Typed>, located: seq<nat>, potential: seq<nat>, right: seq<nat>,
                       wrong: seq<nat>, kept: seq<nat>, loops: seq<nat>)
    requires potential == CircularIds(events, |events|) && right == RightLoops(located)
    requires wrong == WrongLoops(potential, right)
    requires kept == Surviving(|events|, wrong) && loops == RealLoops(potential, right)
    ensures forall i: nat :: i in kept <==> KeepsPoint(events, located, i)
    ensures forall i: nat :: i in loops <==> IsLoop(events, located, i)
  {
    forall i: nat ensures (i in kept <==> KeepsPoint(events, located, i)) && (i in loops <==> IsLoop(events, located, i)) {
      assert i in potential <==> i < |events| && events[i].kind == Circular;
      assert i in right <==> Count(located, i) == 2;
      assert i in wrong <==> i in potential && i !in right;
      assert i in kept <==> i < |events| && i !in wrong;
      assert i in loops <==> i in potential && i in right;
    }
  }

  /** Every circular point is either kept as a loop or deleted, never both,
      and a point that is not circular is never deleted. */
  lemma LoopCheckPartitions(events: seq<Typed>, located: seq<nat>, i: nat)
    requires i < |events|
    ensures events[i].kind == Circular ==> (i in LoopCheck(events, located).0 <==> i in LoopCheck(events, located).1)
    ensures events[i].kind != Circular ==> i in LoopCheck(events, located).0 && i !in LoopCheck(events, located).1
  {
    var r := LoopCheck(events, located);
    assert i in r.0 <==> KeepsPoint(events, located, i);
    assert i in r.1 <==> IsLoop(events, located, i);
  }

  // ---------------------------------------------------------------------------
  // Dangle points and the final locate filter

  /** A row of the intersection layer with its object id.  The detected
      points carry their position as id (the `TSS_ID` copied from it). */
  datatype Stored = Stored(oid: nat, point: Typed)

  /** The detected points the loop check keeps, in layer order. */
  function Survivors(events: seq<Typed>, kept: seq<nat>): (r: seq<Stored>)
    ensures forall s :: s in r <==> s.oid in kept && s.oid < |events| && s.point == events[s.oid]
    decreases |kept|
  {
    if |kept| == 0 then []
    else
      assert kept == [kept[0]] + kept[1..];
      (if kept[0] < |events| then [Stored(kept[0], events[kept[0]])] else []) + Survivors(events, kept[1..])
  }

  /** The dangle points appended after the layer's rows, numbered on from
      `next`. */
  function Appended(dangles: seq<Typed>, next: nat): (r: seq<Stored>)
    ensures |r| == |dangles|
    ensures forall k :: 0 <= k < |r| ==> r[k] == Stored(next + k, dangles[k])
  {
    seq(|dangles|, k requires 0 <= k < |dangles| => Stored(next + k, dangles[k]))
  }

  /** The update cursor of the final filter: rows whose object id the
      second locate did not return are deleted. */
  function FilterLocated(rows: seq<Stored>, located: seq<nat>): (r: seq<Stored>)
    ensures |r| <= |rows|
    ensures forall s :: s in r <==> s in rows && s.oid in located
    decreases |rows|
  {
    if |rows| == 0 then []
    else (if rows[0].oid in located then [rows[0]] else []) + FilterLocated(rows[1..], located)
  }

  /** Filtering a concatenation filters each part in turn, so the kept rows
      keep their order. */
  lemma {:induction false} FilterLocatedAppend(a: seq<Stored>, b: seq<Stored>, located: seq<nat>)
    ensures FilterLocated(a + b, located) == FilterLocated(a, located) + FilterLocated(b, located)
    decreases |a|
  {
    if |a| == 0 {
      assert a + b == b;
    } else {
      assert (a + b)[0] == a[0] && (a + b)[1..] == a[1..] + b;
      FilterLocatedAppend(a[1..], b, located);
    }
  }

  function Points(rows: seq<Stored>): (r: seq<Typed>)
    ensures |r| == |rows|
    ensures forall i :: 0 <= i < |rows| ==> r[i] == rows[i].point
  {
    seq(|rows|, i requires 0 <= i < |rows| => rows[i].point)
  }

  /** The layer before the final filter: the points the loop check keeps,
      then the dangle points. */
  function Collected(events: seq<Typed>, loopLocated: seq<nat>, dangles: seq<Typed>): seq<Stored> {
    Survivors(events, LoopCheck(events, loopLocated).0) + Appended(dangles, |events|)
  }

  /** The end of `detect_intersections` after the loop check: the dangle
      points (found geometrically, given here) are appended, the rows the
      second locate (`located`, the input object ids it returned) misses
      are deleted, and `DeleteIdentical` leaves one row per location.  The
      result holds one point per location, each a located row of the
      collected layer, and every location of a located row. */
  function FinishIntersections(events: seq<Typed>, loopLocated: seq<nat>, dangles: seq<Typed>, located: seq<nat>)
    : (r: seq<Typed>)
    ensures UniqueXY(r)
    ensures forall t :: t in r ==> exists s :: s in Collected(events, loopLocated, dangles) && s.oid in located && s.point == t
    ensures forall xy :: HasXY(r, xy) <==>
      exists s :: s in Collected(events, loopLocated, dangles) && s.oid in located && s.point.xy == xy
  {
    var all := Collected(events, loopLocated, dangles);
    var rows := FilterLocated(all, located);
    var pts := Points(rows);
    forall t | t in pts
      ensures exists s :: s in all && s.oid in located && s.point == t
    {
      var i :| 0 <= i < |pts| && pts[i] == t;
      assert rows[i] in rows;
    }
    forall xy | HasXY(pts, xy)
      ensures exists s :: s in all && s.oid in located && s.point.xy == xy
    {
      var i :| 0 <= i < |pts| && pts[i].xy == xy;
      assert rows[i] in rows;
    }
    forall xy | exists s :: s in all && s.oid in located && s.point.xy == xy
      ensures HasXY(pts, xy)
    {
      var s :| s in all && s.oid in located && s.point.xy == xy;
      assert s in rows;
      var i :| 0 <= i < |rows| && rows[i] == s;
      assert pts[i].xy == xy;
    }
    FirstPerXY(pts)
  }

  /** A detected point the loop check keeps and the second locate finds
      leaves its location in the output. */
  lemma FinishKeepsLocated(events: seq<Typed>, loopLocated: seq<nat>, dangles: seq<Typed>, located: seq<nat>, i: nat)
    requires i < |events| && KeepsPoint(events, loopLocated, i) && i in located
    ensures HasXY(FinishIntersections(events, loopLocated, dangles, located), events[i].xy)
  {
    var s := Stored(i, events[i]);
    assert s in Survivors(events, LoopCheck(events, loopLocated).0);
    assert s in Collected(events, loopLocated, dangles);
  }

  /** Every dangle point is collected, under the id it is appended with;
      with `LocatedRowPresent`, one the second locate finds leaves its
      location in the output. */
  lemma DangleCollected(events: seq<Typed>, loopLocated: seq<nat>, dangles: seq<Typed>, k: nat)
    requires k < |dangles|
    ensures Stored(|events| + k, dangles[k]) in Collected(events, loopLocated, dangles)
  {
    InAppended(Survivors(events, LoopCheck(events, loopLocated).0), dangles, |events|, k);
  }

  lemma InAppended(front: seq<Stored>, dangles: seq<Typed>, next: nat, k: nat)
    requires k < |dangles|
    ensures Stored(next + k, dangles[k]) in front + Appended(dangles, next)
  {
    var all := front + Appended(dangles, next);
    assert all[|front| + k] == Stored(next + k, dangles[k]);
  }

  /** A located row of the collected layer leaves its location in the
      output. */
  lemma LocatedRowPresent(events: seq<Typed>, loopLocated: seq<nat>, dangles: seq<Typed>, located: seq<nat>, oid: nat, p: Typed)
    requires Stored(oid, p) in Collected(events, loopLocated, dangles) && oid in located
    ensures HasXY(FinishIntersections(events, loopLocated, dangles, located), p.xy)
  {
    assert Stored(oid, p).point.xy == p.xy;
  }

  /** Every collected row with a detected point's id is that point, and one
      the loop check keeps: a circular point it deleted never comes back. */
  lemma FinishDropsWrongLoops(events: seq<Typed>, loopLocated: seq<nat>, dangles: seq<Typed>)
    ensures forall s :: s in Collected(events, loopLocated, dangles) && s.oid < |events| ==>
      KeepsPoint(events, loopLocated, s.oid) && s.point == events[s.oid]
  {
    var tail := Appended(dangles, |events|);
    assert forall k :: 0 <= k < |tail| ==> tail[k].oid >= |events|;
  }

  // ---------------------------------------------------------------------------
  // populate_intersection_id

  /** `populate_intersection_id`: the rows get "1", "2", ... in cursor
      order. */
  function IntersectionIds(n: nat): (r: seq<string>)
    ensures |r| == n
    ensures forall i :: 0 <= i < n ==> r[i] == NatToString(i + 1)
  {
    seq(n, i requires 0 <= i < n => NatToString(i + 1))
  }

  /** The ids are pairwise distinct and read back as their row numbers. */
  lemma IntersectionIdsUnique(n: nat)
    ensures NoDuplicates(IntersectionIds(n))
    ensures forall i :: 0 <= i < n ==> ParseDigits(IntersectionIds(n)[i]) == i + 1
  {
    var r := IntersectionIds(n);
    forall i, j | 0 <= i < j < n ensures r[i] != r[j] {
      NatToStringInjective(i + 1, j + 1);
    }
    forall i | 0 <= i < n ensures ParseDigits(r[i]) == i + 1 {
      ParseRendersBack(i + 1);
    }
  }
}

=== FILE: intersection_route.dfy ===
/** The intersection-route event table: for every intersection, one row per
    (on route, at route) pair of the routes meeting there, with the
    measure of the intersection along the on route. */
module IntersectionRoute {
  import opened Base

  /** A row of the locate output: an intersection found on a route at a
      measure.  A loop finds the same intersection twice on one route. */
  datatype Located = Located(iid: string, rid: string, meas: real)

  /** A row of the spatial join of intersections and routes. */
  datatype Joined = Joined(iid: string, rid: string)

  /** A row of the output table; `meas` is None for a route without
      measures. */
  datatype Row = Row(iid: string, on: string, at: string, meas: Option<real>)

  // ---------------------------------------------------------------------------
  // The two dictionaries

  function KeysOf(located: seq<Located>): (r: seq<(string, string)>)
    ensures |r| == |located|
    ensures forall i :: 0 <= i < |located| ==> r[i] == (located[i].iid, located[i].rid)
  {
    seq(|located|, i requires 0 <= i < |located| => (located[i].iid, located[i].rid))
  }

  /** The measure list of an intersection on a route, in cursor order. */
  function Measures(located: seq<Located>, iid: string, rid: string): (r: seq<real>)
    ensures forall m :: m in r <==> Located(iid, rid, m) in located
    decreases |located|
  {
    if |located| == 0 then []
    else
      var front := located[..|located| - 1];
      var x := located[|located| - 1];
      assert located == front + [x];
      Measures(front, iid, rid) + (if x.iid == iid && x.rid == rid then [x.meas] else [])
  }

  /** Every located row of the pair adds an entry, repeats included: a
      loop crossing contributes one measure per crossing. */
  lemma {:induction false} MeasuresKeepRepeats(located: seq<Located>, iid: string, rid: string)
    ensures |Measures(located, iid, rid)| == Count(KeysOf(located), (iid, rid))
    decreases |located|
  {
    if |located| > 0 {
      var front := located[..|located| - 1];
      var x := located[|located| - 1];
      var hit := x.iid == iid && x.rid == rid;
      MeasuresKeepRepeats(front, iid, rid);
      assert |Measures(located, iid, rid)| == |Measures(front, iid, rid)| + (if hit then 1 else 0);
      KeysOfSnoc(located, front, x);
      CountAppend(KeysOf(front), [(x.iid, x.rid)], (iid, rid));
      CountOne((x.iid, x.rid), (iid, rid));
    }
  }

  lemma KeysOfSnoc(located: seq<Located>, front: seq<Located>, x: Located)
    requires |located| > 0 && front == located[..|located| - 1] && x == located[|located| - 1]
    ensures KeysOf(located) == KeysOf(front) + [(x.iid, x.rid)]
  {
    var a, b := KeysOf(located), KeysOf(front) + [(x.iid, x.rid)];
    assert |a| == |b|;
    forall i | 0 <= i < |a|
      ensures a[i] == b[i]
    {
      if i < |front| {
        assert front[i] == located[i];
      }
    }
  }

  lemma CountOne<T>(y: T, x: T)
    ensures Count([y], x) == if y == x then 1 else 0
  {
    assert [y][1..] == [];
  }

  /** The routes the spatial join finds at an intersection, in cursor
      order. */
  function RouteList(joined: seq<Joined>, iid: string): (r: seq<string>)
    ensures forall rid :: rid in r <==> Joined(iid, rid) in joined
    decreases |joined|
  {
    if |joined| == 0 then []
    else
      var front := joined[..|joined| - 1];
      var x := joined[|joined| - 1];
      assert joined == front + [x];
      RouteList(front, iid) + (if x.iid == iid then [x.rid] else [])
  }

  // ---------------------------------------------------------------------------
  // permutations(route_list, 2)

  /** The pairs (list[i], list[k]) for every k < j other than i. */
  function PairsAt(list: seq<string>, i: nat, j: nat): (r: seq<(string, string)>)
    requires i < |list| && j <= |list|
    ensures |r| == (if i < j then j - 1 else j)
    ensures forall p :: p in r <==> exists k :: 0 <= k < j && k != i && p == (list[i], list[k])
  {
    if j == 0 then []
    else
      var rest := PairsAt(list, i, j - 1);
      if j - 1 == i then rest else rest + [(list[i], list[j - 1])]
  }

  /** The ordered pairs of distinct positions whose first position is
      below `i`. */
  function PairsUpTo(list: seq<string>, i: nat): (r: seq<(string, string)>)
    requires i <= |list|
    ensures |r| == i * (|list| - 1)
    ensures forall p :: p in r <==> exists a, b :: 0 <= a < i && 0 <= b < |list| && a != b && p == (list[a], list[b])
  {
    if i == 0 then []
    else
      var rest := PairsUpTo(list, i - 1);
      var last := PairsAt(list, i - 1, |list|);
      assert |rest + last| == i * (|list| - 1) by {
        assert (i - 1) * (|list| - 1) + (|list| - 1) == i * (|list| - 1);
      }
      rest + last
  }

  /** `permutations(route_list, 2)`: every ordered pair of distinct
      positions, n(n-1) of them. */
  function Permutations2(list: seq<string>): (r: seq<(string, string)>)
    ensures |r| == |list| * (|list| - 1)
    ensures forall p :: p in r <==> exists a, b :: 0 <= a < |list| && 0 <= b < |list| && a != b && p == (list[a], list[b])
  {
    PairsUpTo(list, |list|)
  }

  /** For routes that do not repeat, no pair puts a route at itself. */
  lemma DistinctRoutesNeverSelfPaired(list: seq<string>, p: (string, string))
    requires NoDuplicates(list)
    requires p in Permutations2(list)
    ensures p.0 != p.1
  {
    var a, b :| 0 <= a < |list| && 0 <= b < |list| && a != b && p == (list[a], list[b]);
    if a > b {
      assert list[b] != list[a];
    }
  }

  // ---------------------------------------------------------------------------
  // The rows of one intersection

  /** The rows of one (on, at) pair: one per measure of the on route, or a
      single row without measure when the on route has none. */
  function PairRows(located: seq<Located>, iid: string, on: string, at: string): (r: seq<Row>)
    ensures |r| == (if |Measures(located, iid, on)| == 0 then 1 else |Measures(located, iid, on)|)
    ensures forall row :: row in r ==> row.iid == iid && row.on == on && row.at == at
    ensures forall row :: row in r ==> (row.meas.None? <==> |Measures(located, iid, on)| == 0)
    ensures forall row :: row in r && row.meas.Some? ==> row.meas.value in Measures(located, iid, on)
  {
    var ms := Measures(located, iid, on);
    if |ms| == 0 then [Row(iid, on, at, None)]
    else seq(|ms|, k requires 0 <= k < |ms| => Row(iid, on, at, Some(ms[k])))
  }

  function RowsOfPairs(located: seq<Located>, iid: string, pairs: seq<(string, string)>): (r: seq<Row>)
    ensures |r| >= |pairs|
    ensures forall row :: row in r ==> row.iid == iid && (row.on, row.at) in pairs
    ensures forall row :: row in r ==> (row.meas.None? <==> |Measures(located, iid, row.on)| == 0)
    ensures forall row :: row in r && row.meas.Some? ==> row.meas.value in Measures(located, iid, row.on)
    ensures forall p :: p in pairs ==> exists row :: row in r && (row.on, row.at) == p
  {
    if |pairs| == 0 then []
    else
      var head := PairRows(located, iid, pairs[0].0, pairs[0].1);
      var rest := RowsOfPairs(located, iid, pairs[1..]);
      PairsCovered(pairs, head, rest);
      head + rest
  }

  /** The first pair is covered by its own rows and the others by the
      rows after them. */
  lemma PairsCovered(pairs: seq<(string, string)>, head: seq<Row>, rest: seq<Row>)
    requires |pairs| > 0 && |head| > 0 && (head[0].on, head[0].at) == pairs[0]
    requires forall p :: p in pairs[1..] ==> exists row :: row in rest && (row.on, row.at) == p
    ensures forall p :: p in pairs ==> exists row :: row in head + rest && (row.on, row.at) == p
  {
    assert pairs == [pairs[0]] + pairs[1..];
    assert head[0] in head + rest;
    forall p | p in pairs[1..] ensures exists row :: row in head + rest && (row.on, row.at) == p {
      var row :| row in rest && (row.on, row.at) == p;
      assert row in head + rest;
    }
  }

  /** The rows of one intersection.  A single route is paired with itself,
      one row per measure, and raises a KeyError when the route has no
      measure there; otherwise every ordered pair of the route list
      contributes its rows. */
  function IntersectionRows(located: seq<Located>, iid: string, routes: seq<string>): (r: Result<seq<Row>>)
    ensures r.Err? <==> |routes| == 1 && |Measures(located, iid, routes[0])| == 0
    ensures r.Ok? && |routes| == 1 ==>
      |r.value| == |Measures(located, iid, routes[0])| &&
      forall k :: 0 <= k < |r.value| ==> r.value[k] == Row(iid, routes[0], routes[0], Some(Measures(located, iid, routes[0])[k]))
    ensures r.Ok? && |routes| != 1 ==> r.value == RowsOfPairs(located, iid, Permutations2(routes))
  {
    if |routes| == 1 then
      var ms := Measures(located, iid, routes[0]);
      if |ms| == 0 then Err("KeyError: " + routes[0])
      else Ok(PairRows(located, iid, routes[0], routes[0]))
    else Ok(RowsOfPairs(located, iid, Permutations2(routes)))
  }

  /** Two or more distinct routes at an intersection yield at least n(n-1)
      rows, every one pairing two different routes. */
  lemma CrossingRows(located: seq<Located>, iid: string, routes: seq<string>)
    requires |routes| >= 2 && NoDuplicates(routes)
    ensures IntersectionRows(located, iid, routes).Ok?
    ensures |IntersectionRows(located, iid, routes).value| >= |routes| * (|routes| - 1)
    ensures forall row :: row in IntersectionRows(located, iid, routes).value ==> row.on != row.at
  {
    var pairs := Permutations2(routes);
    forall row | row in IntersectionRows(located, iid, routes).value ensures row.on != row.at {
      DistinctRoutesNeverSelfPaired(routes, (row.on, row.at));
    }
  }

  // ---------------------------------------------------------------------------
  // populate_intersection_route_event_table

  /** True when the spatial join found the intersection on some route. */
  ghost predicate Found(joined: seq<Joined>, iid: string) {
    exists rid :: Joined(iid, rid) in joined
  }

  function JoinedIds(joined: seq<Joined>): (r: seq<string>)
    ensures NoDuplicates(r)
    ensures forall iid :: iid in r <==> Found(joined, iid)
  {
    var ids := seq(|joined|, i requires 0 <= i < |joined| => joined[i].iid);
    assert forall iid :: iid in ids <==> exists rid :: Joined(iid, rid) in joined by {
      forall iid ensures iid in ids <==> exists rid :: Joined(iid, rid) in joined {
        if exists rid :: Joined(iid, rid) in joined {
          var rid :| Joined(iid, rid) in joined;
          var i :| 0 <= i < |joined| && joined[i] == Joined(iid, rid);
          assert ids[i] == iid;
        }
      }
    }
    Distinct(ids)
  }

  /** True when the intersection's rows raise. */
  predicate Raises(located: seq<Located>, joined: seq<Joined>, iid: string) {
    IntersectionRows(located, iid, RouteList(joined, iid)).Err?
  }

  function RowsOfIds(located: seq<Located>, joined: seq<Joined>, ids: seq<string>): (r: Result<seq<Row>>)
    ensures r.Err? <==> exists iid :: iid in ids && Raises(located, joined, iid)
    ensures r.Ok? ==> forall row :: row in r.value <==>
      row.iid in ids && row in IntersectionRows(located, row.iid, RouteList(joined, row.iid)).value
  {
    if |ids| == 0 then Ok([])
    else
      assert ids == [ids[0]] + ids[1..];
      var head := IntersectionRows(located, ids[0], RouteList(joined, ids[0]));
      if head.Err? then
        assert ids[0] in ids && Raises(located, joined, ids[0]);
        Err(head.msg)
      else
        var rest := RowsOfIds(located, joined, ids[1..]);
        if rest.Err? then rest
        else
          assert forall row :: row in head.value ==> row.iid == ids[0] by {
            var routes := RouteList(joined, ids[0]);
            if |routes| != 1 {
              assert head.value == RowsOfPairs(located, ids[0], Permutations2(routes));
            } else {
              assert forall k :: 0 <= k < |head.value| ==> head.value[k].iid == ids[0];
            }
          }
          Ok(head.value + rest.value)
  }

  /** `populate_intersection_route_event_table` on the locate output and
      the spatial join: the rows of every intersection the join found, or
      the KeyError of a single-route intersection without a measure. */
  function PopulateIntersectionRoutes(located: seq<Located>, joined: seq<Joined>): (r: Result<seq<Row>>)
    ensures r.Err? <==> exists iid :: Found(joined, iid) && Raises(located, joined, iid)
    ensures r.Ok? ==> forall row :: row in r.value <==>
      Found(joined, row.iid) && row in IntersectionRows(located, row.iid, RouteList(joined, row.iid)).value
  {
    RowsOfIds(located, joined, JoinedIds(joined))
  }

  /** A route crossing itself once at an intersection, with no other route
      there: the two measures of the loop both become rows on and at that
      route. */
  lemma LoopExample(iid: string, rid: string, m1: real, m2: real)
    ensures IntersectionRows([Located(iid, rid, m1), Located(iid, rid, m2)], iid, [rid]) ==
      Ok([Row(iid, rid, rid, Some(m1)), Row(iid, rid, rid, Some(m2))])
  {
    var located := [Located(iid, rid, m1), Located(iid, rid, m2)];
    assert located[..1] == [Located(iid, rid, m1)];
    assert located[..1][..0] == [];
    assert Measures(located[..1][..0], iid, rid) == [];
    assert Measures(located[..1], iid, rid) == [m1];
    assert Measures(located, iid, rid) == [m1, m2];
    var rows := PairRows(located, iid, rid, rid);
    assert rows[0] == Row(iid, rid, rid, Some(m1)) && rows[1] == Row(iid, rid, rid, Some(m2));
    assert rows == [Row(iid, rid, rid, Some(m1)), Row(iid, rid, rid, Some(m2))];
  }

  /** A route without measures at an intersection it shares with another
      route still gets its pairs, without a measure. */
  lemma UnmeasuredRouteExample(iid: string, a: string, b: string, m: real)
    requires a != b
    ensures IntersectionRows([Located(iid, a, m)], iid, [a, b]).Ok?
    ensures Row(iid, b, a, None) in IntersectionRows([Located(iid, a, m)], iid, [a, b]).value
    ensures Row(iid, a, b, Some(m)) in IntersectionRows([Located(iid, a, m)], iid, [a, b]).value
  {
    var located := [Located(iid, a, m)];
    assert located[..0] == [];
    assert Measures(located, iid, a) == [m];
    assert Measures(located, iid, b) == [];
    var pairs := Permutations2([a, b]);
    assert (b, a) in pairs by {
      assert [a, b][1] == b && [a, b][0] == a;
    }
    assert (a, b) in pairs by {
      assert [a, b][1] == b && [a, b][0] == a;
    }
    var rows := RowsOfPairs(located, iid, pairs);
    var x :| x in rows && (x.on, x.at) == (b, a);
    var y :| y in rows && (y.on, y.at) == (a, b);
  }
}

=== FILE: match_candidate.dfy ===
/** The decision logic of the match-candidate tool: the angle between a HERE
    link and the DOT route segment inside its buffer is folded to a line angle,
    each spatial-join row is turned into at most one candidate row, and a
    knowledge pass upgrades ambiguous ('Low') candidates.

    The spatial join, buffering, splitting and dissolving are done by the
    geoprocessing engine; the model receives their result as a sequence of
    join rows, each already carrying its angle outcome. */
module MatchCandidate {
  import opened Base

  /** The confidence levels written to the candidate table. */
  datatype Confidence = NoMatch | Low | Medium | High | UserConfirmed {
    function Label(): string {
      match this
      case NoMatch => "No Match"
      case Low => "Low"
      case Medium => "Medium"
      case High => "High"
      case UserConfirmed => "User Confirmed"
    }

    /** The position of the level in the order the tools list them, from
        'No Match' up to 'User Confirmed'. */
    function Rank(): nat {
      match this
      case NoMatch => 0
      case Low => 1
      case Medium => 2
      case High => 3
      case UserConfirmed => 4
    }
  }

  /** The level a table cell names, if it names one. */
  function LevelOf(text: string): (r: Option<Confidence>)
    ensures r.Some? ==> r.value.Label() == text
    ensures r.None? ==> forall c: Confidence :: c.Label() != text
  {
    if text == "No Match" then Some(NoMatch)
    else if text == "Low" then Some(Low)
    else if text == "Medium" then Some(Medium)
    else if text == "High" then Some(High)
    else if text == "User Confirmed" then Some(UserConfirmed)
    else None
  }

  /** Every level is read back from its text, and levels are ordered by
      rank without ties. */
  lemma LabelRoundTrip(c: Confidence, d: Confidence)
    ensures LevelOf(c.Label()) == Some(c)
    ensures c.Rank() == d.Rank() <==> c == d
  {
  }

  // ---------------------------------------------------------------------------
  // Angle folding

  /** What the vector-angle helper gave for one (link, route) pair: it raised,
      or it returned a value in degrees (-1 for a zero vector). */
  datatype AngleOutcome = Raised | Degrees(value: real)

  /** The value stored in the pair's angle column, or None when the pair is
      skipped (helper raised, or zero vector). */
  function StoredAngle(a: AngleOutcome): (r: Option<real>)
    ensures r.None? <==> a.Raised? || a.value == -1.0
    ensures r.Some? ==> r.value == a.value || r.value == 180.0 - a.value
    ensures r.Some? && 0.0 <= a.value <= 180.0 ==> 0.0 <= r.value <= 90.0
  {
    match a
    case Raised => None
    case Degrees(t) =>
      if t == -1.0 then None
      else if t > 90.0 then Some(180.0 - t)
      else Some(t)
  }

  /** Folding turns a vector angle into an angle between undirected lines:
      reversing one vector (t becomes 180 - t) stores the same angle. */
  lemma FoldIgnoresDirection(t: real)
    requires 0.0 <= t <= 180.0
    ensures StoredAngle(Degrees(t)) == StoredAngle(Degrees(180.0 - t))
  {
  }

  /** A right angle is kept as it is, and folding is idempotent. */
  lemma FoldKeepsLineAngles(t: real)
    requires 0.0 <= t <= 90.0
    ensures StoredAngle(Degrees(t)) == Some(t)
    ensures StoredAngle(Degrees(90.0)) == Some(90.0)
  {
  }

  /** The angle column of a join row: pairs the angle pass never reached
      (missing geometry, no dissolved route segment) stay null. */
  function RowAngle(outcome: Option<AngleOutcome>): (r: Option<real>)
    ensures outcome.None? ==> r.None?
    ensures outcome.Some? ==> r == StoredAngle(outcome.value)
  {
    match outcome
    case None => None
    case Some(a) => StoredAngle(a)
  }

  // ---------------------------------------------------------------------------
  // Row decision

  /** One row of the link-to-route spatial join, read in link-id order.  A link
      with no route in range has a null route id (and a null frequency, which is
      never read for such a row). */
  datatype JoinRow = JoinRow(
    routeId: Option<string>,
    linkId: string,
    routeName: Option<string>,
    dotCounty: Option<string>,
    stName: Option<string>,
    hereCounty: Option<string>,
    angle: Option<real>,
    frequency: int)

  /** One row of the candidate table. */
  datatype Candidate = Candidate(
    routeId: Option<string>,
    linkId: string,
    routeName: Option<string>,
    dotCounty: Option<string>,
    stName: Option<string>,
    hereCounty: Option<string>,
    conf: Confidence,
    verified: Option<string>,
    rejected: Option<string>)

  predicate HasRoute(r: JoinRow) {
    r.routeId.Some? && !IsBlank(r.routeId.value)
  }

  /** A bad match: no angle could be computed, or it exceeds the tolerance. */
  predicate IsBad(r: JoinRow, tolerance: real) {
    r.angle.None? || r.angle.value > tolerance
  }

  function NoMatchRow(r: JoinRow): Candidate {
    Candidate(None, r.linkId, None, None, r.stName, r.hereCounty, NoMatch, None, None)
  }

  function MatchRow(r: JoinRow): Candidate {
    Candidate(r.routeId, r.linkId, r.routeName, r.dotCounty, r.stName, r.hereCounty,
              if r.frequency == 1 then High else Low, None, None)
  }

  /** Per-link list of the routes found bad so far. */
  type BadMatches = map<string, seq<string>>

  function BadSoFar(bad: BadMatches, link: string): nat {
    if link in bad then |bad[link]| else 0
  }

  /** The decision for one join row: the updated bad-match accumulator and the
      rows inserted into the candidate table. */
  function DecideRow(bad: BadMatches, r: JoinRow, tolerance: real): (res: (BadMatches, seq<Candidate>))
    ensures |res.1| <= 1
    ensures !HasRoute(r) ==> res == (bad, [NoMatchRow(r)])
    ensures HasRoute(r) && !IsBad(r, tolerance) ==> res == (bad, [MatchRow(r)])
    ensures HasRoute(r) && IsBad(r, tolerance) && r.frequency == 1 ==> res == (bad, [NoMatchRow(r)])
    ensures HasRoute(r) && IsBad(r, tolerance) && r.frequency != 1 ==>
      && BadSoFar(res.0, r.linkId) == BadSoFar(bad, r.linkId) + 1
      && (forall l :: l != r.linkId ==> BadSoFar(res.0, l) == BadSoFar(bad, l))
      && res.1 == (if BadSoFar(res.0, r.linkId) == r.frequency then [NoMatchRow(r)] else [])
    ensures !(HasRoute(r) && IsBad(r, tolerance) && r.frequency != 1) ==> res.0 == bad
  {
    if !HasRoute(r) then (bad, [NoMatchRow(r)])
    else if IsBad(r, tolerance) then
      if r.frequency == 1 then (bad, [NoMatchRow(r)])
      else
        var list := (if r.linkId in bad then bad[r.linkId] else []) + [r.routeId.value];
        var bad' := bad[r.linkId := list];
        (bad', if |list| == r.frequency then [NoMatchRow(r)] else [])
    else (bad, [MatchRow(r)])
  }

  /** The row pass over the whole join table, threading the accumulator. */
  function DecideRows(bad: BadMatches, rows: seq<JoinRow>, tolerance: real): (res: (BadMatches, seq<Candidate>))
    decreases |rows|
  {
    if |rows| == 0 then (bad, [])
    else
      var first := DecideRow(bad, rows[0], tolerance);
      var rest := DecideRows(first.0, rows[1..], tolerance);
      (rest.0, first.1 + rest.1)
  }

  /** The candidate table written by the row pass. */
  function CandidateTable(rows: seq<JoinRow>, tolerance: real): seq<Candidate> {
    DecideRows(map[], rows, tolerance).1
  }

  /** Every emitted row is 'No Match' exactly when it carries no route, and the
      row pass only ever writes 'No Match', 'Low' or 'High'. */
  lemma {:induction false} RowPassShape(bad: BadMatches, rows: seq<JoinRow>, tolerance: real)
    ensures forall c :: c in DecideRows(bad, rows, tolerance).1 ==>
      && (c.conf == NoMatch <==> c.routeId.None?)
      && c.conf in {NoMatch, Low, High}
      && c.verified.None? && c.rejected.None?
      && (c.conf == NoMatch ==> c.routeName.None? && c.dotCounty.None?)
      && exists r :: r in rows && r.linkId == c.linkId
    decreases |rows|
  {
    if |rows| > 0 {
      var first := DecideRow(bad, rows[0], tolerance);
      RowPassShape(first.0, rows[1..], tolerance);
      forall c | c in DecideRows(bad, rows, tolerance).1
        ensures exists r :: r in rows && r.linkId == c.linkId
      {
        if c in first.1 {
          assert rows[0] in rows;
        } else {
          var r :| r in rows[1..] && r.linkId == c.linkId;
          assert r in rows;
        }
      }
    }
  }

  /** A row carrying a route comes from a good join row for the same pair,
      and it is 'High' exactly when that row's frequency is 1: no route-bearing
      candidate has an angle above the tolerance. */
  lemma {:induction false} RouteRowsAreGood(bad: BadMatches, rows: seq<JoinRow>, tolerance: real)
    ensures forall c :: c in DecideRows(bad, rows, tolerance).1 && c.routeId.Some? ==>
      exists r :: r in rows && HasRoute(r) && !IsBad(r, tolerance) && c == MatchRow(r)
    decreases |rows|
  {
    if |rows| > 0 {
      var first := DecideRow(bad, rows[0], tolerance);
      RouteRowsAreGood(first.0, rows[1..], tolerance);
      forall c | c in DecideRows(bad, rows, tolerance).1 && c.routeId.Some?
        ensures exists r :: r in rows && HasRoute(r) && !IsBad(r, tolerance) && c == MatchRow(r)
      {
        if c in first.1 {
          assert rows[0] in rows;
        } else {
          var r :| r in rows[1..] && HasRoute(r) && !IsBad(r, tolerance) && c == MatchRow(r);
          assert r in rows;
        }
      }
    }
  }

  /** Conversely every good join row with a route yields its candidate row. */
  lemma {:induction false} GoodRowsAreEmitted(bad: BadMatches, rows: seq<JoinRow>, tolerance: real)
    ensures forall r :: r in rows && HasRoute(r) && !IsBad(r, tolerance) ==>
      MatchRow(r) in DecideRows(bad, rows, tolerance).1
    decreases |rows|
  {
    if |rows| > 0 {
      var first := DecideRow(bad, rows[0], tolerance);
      GoodRowsAreEmitted(first.0, rows[1..], tolerance);
    }
  }

  // ---------------------------------------------------------------------------
  // Per-link accounting

  /** Number of bad join rows of a link. */
  function BadCount(rows: seq<JoinRow>, link: string, tolerance: real): nat
    decreases |rows|
  {
    if |rows| == 0 then 0
    else (if rows[0].linkId == link && IsBad(rows[0], tolerance) then 1 else 0) + BadCount(rows[1..], link, tolerance)
  }

  /** Number of join rows of a link. */
  function RowCount(rows: seq<JoinRow>, link: string): nat
    decreases |rows|
  {
    if |rows| == 0 then 0
    else (if rows[0].linkId == link then 1 else 0) + RowCount(rows[1..], link)
  }

  /** Number of 'No Match' rows written for a link. */
  function NoMatchCount(table: seq<Candidate>, link: string): nat
    decreases |table|
  {
    if |table| == 0 then 0
    else (if table[0].linkId == link && table[0].conf == NoMatch then 1 else 0) + NoMatchCount(table[1..], link)
  }

  lemma NoMatchCountAppend(a: seq<Candidate>, b: seq<Candidate>, link: string)
    ensures NoMatchCount(a + b, link) == NoMatchCount(a, link) + NoMatchCount(b, link)
  {
    if |a| == 0 {
      assert a + b == b;
    } else {
      assert (a + b)[1..] == a[1..] + b;
      NoMatchCountAppend(a[1..], b, link);
    }
  }

  lemma BadCountAtMostRows(rows: seq<JoinRow>, link: string, tolerance: real)
    ensures BadCount(rows, link, tolerance) <= RowCount(rows, link)
  {
  }

  /** The accumulator walk: starting with k bad routes recorded for a link of
      frequency f > 1, the pass writes one 'No Match' for it exactly when the
      count passes through f. */
  lemma {:induction false} AccountingFrom(bad: BadMatches, rows: seq<JoinRow>, tolerance: real, link: string, f: int)
    requires f > 1
    requires forall r :: r in rows && r.linkId == link ==> HasRoute(r) && r.frequency == f
    ensures var res := DecideRows(bad, rows, tolerance);
      && BadSoFar(res.0, link) == BadSoFar(bad, link) + BadCount(rows, link, tolerance)
      && NoMatchCount(res.1, link) ==
         (if BadSoFar(bad, link) < f <= BadSoFar(bad, link) + BadCount(rows, link, tolerance) then 1 else 0)
    decreases |rows|
  {
    if |rows| > 0 {
      var r := rows[0];
      var first := DecideRow(bad, r, tolerance);
      AccountingFrom(first.0, rows[1..], tolerance, link, f);
      NoMatchCountAppend(first.1, DecideRows(first.0, rows[1..], tolerance).1, link);
      assert r in rows;
      if r.linkId == link {
        if IsBad(r, tolerance) {
          assert NoMatchCount(first.1, link) == (if BadSoFar(first.0, link) == f then 1 else 0);
        } else {
          assert NoMatchCount(first.1, link) == 0;
        }
      } else {
        assert NoMatchCount(first.1, link) == 0 by {
          if |first.1| == 1 {
            assert first.1[0].linkId == r.linkId;
          }
        }
        assert BadSoFar(first.0, link) == BadSoFar(bad, link);
      }
    }
  }

  /** For a link whose f > 1 candidates all carry a route, the row pass writes
      exactly one 'No Match' row when at least f of them are bad and none
      otherwise. */
  lemma LinkAccounting(rows: seq<JoinRow>, tolerance: real, link: string, f: int)
    requires f > 1
    requires forall r :: r in rows && r.linkId == link ==> HasRoute(r) && r.frequency == f
    ensures NoMatchCount(CandidateTable(rows, tolerance), link) ==
      (if BadCount(rows, link, tolerance) >= f then 1 else 0)
  {
    AccountingFrom(map[], rows, tolerance, link, f);
  }

  /** If a link has exactly f candidate rows and one of them is good, no
      'No Match' row is written for it. */
  lemma GoodCandidateSuppressesNoMatch(rows: seq<JoinRow>, tolerance: real, link: string, f: int, good: JoinRow)
    requires f > 1
    requires forall r :: r in rows && r.linkId == link ==> HasRoute(r) && r.frequency == f
    requires RowCount(rows, link) == f
    requires good in rows && good.linkId == link && !IsBad(good, tolerance)
    ensures NoMatchCount(CandidateTable(rows, tolerance), link) == 0
  {
    LinkAccounting(rows, tolerance, link, f);
    BadBelowRows(rows, tolerance, link, good);
  }

  lemma {:induction false} BadBelowRows(rows: seq<JoinRow>, tolerance: real, link: string, good: JoinRow)
    requires good in rows && good.linkId == link && !IsBad(good, tolerance)
    ensures BadCount(rows, link, tolerance) < RowCount(rows, link)
    decreases |rows|
  {
    if rows[0] == good {
      BadCountAtMostRows(rows[1..], link, tolerance);
    } else {
      BadBelowRows(rows[1..], tolerance, link, good);
    }
  }

  // ---------------------------------------------------------------------------
  // Knowledge propagation

  /** Python's `'{0}'.format(None)` renders a null as "None". */
  function Show(o: Option<string>): string {
    match o
    case None => "None"
    case Some(s) => s
  }

  /** The "county-street" key of the HERE side of a candidate. */
  function HereKey(c: Candidate): string {
    Show(c.hereCounty) + "-" + Show(c.stName)
  }

  /** The "county-routename" key of the DOT side of a candidate. */
  function DotKey(c: Candidate): string {
    Show(c.dotCounty) + "-" + Show(c.routeName)
  }

  /** Some 'High' row of the table pairs these two keys. */
  ghost predicate Known(table: seq<Candidate>, dotKey: string, hereKey: string) {
    exists i :: 0 <= i < |table| && table[i].conf == High && DotKey(table[i]) == dotKey && HereKey(table[i]) == hereKey
  }

  /** The knowledge dictionary: for every DOT key, the HERE keys seen with it
      on 'High' rows. */
  function Knowledge(table: seq<Candidate>): map<string, set<string>>
    decreases |table|
  {
    if |table| == 0 then map[]
    else
      var k := Knowledge(table[..|table| - 1]);
      var c := table[|table| - 1];
      if c.conf == High then
        k[DotKey(c) := (if DotKey(c) in k then k[DotKey(c)] else {}) + {HereKey(c)}]
      else k
  }

  /** The dictionary records a key pair exactly when some 'High' row of the
      table carries it; rows of any other level contribute nothing. */
  lemma {:induction false} KnowledgeIsKnown(table: seq<Candidate>)
    ensures forall d, h :: (d in Knowledge(table) && h in Knowledge(table)[d]) <==> Known(table, d, h)
    decreases |table|
  {
    if |table| > 0 {
      var prefix := table[..|table| - 1];
      var c := table[|table| - 1];
      KnowledgeIsKnown(prefix);
      forall d, h
        ensures Known(table, d, h) <==> Known(prefix, d, h) || (c.conf == High && DotKey(c) == d && HereKey(c) == h)
      {
        if Known(table, d, h) {
          var i :| 0 <= i < |table| && table[i].conf == High && DotKey(table[i]) == d && HereKey(table[i]) == h;
          if i < |prefix| {
            assert prefix[i] == table[i];
          }
        }
        if Known(prefix, d, h) {
          var i :| 0 <= i < |prefix| && prefix[i].conf == High && DotKey(prefix[i]) == d && HereKey(prefix[i]) == h;
          assert table[i] == prefix[i];
        }
        if c.conf == High && DotKey(c) == d && HereKey(c) == h {
          assert table[|table| - 1] == c;
        }
      }
    }
  }

  /** Number of candidate rows of a link (the frequency table of the output). */
  function LinkCount(table: seq<Candidate>, link: string): nat
    decreases |table|
  {
    if |table| == 0 then 0
    else (if table[0].linkId == link then 1 else 0) + LinkCount(table[1..], link)
  }

  /** The new level of one row, given the knowledge gathered before the pass. */
  function Upgrade(table: seq<Candidate>, k: map<string, set<string>>, c: Candidate): Candidate {
    if c.conf != Low then c
    else if LinkCount(table, c.linkId) == 1 then c.(conf := High)
    else if DotKey(c) in k && HereKey(c) in k[DotKey(c)] then c.(conf := Medium)
    else c
  }

  /** The knowledge pass. Only 'Low' rows change, only their level changes, and
      no row is inserted or deleted. */
  function Propagate(table: seq<Candidate>): (r: seq<Candidate>)
    ensures |r| == |table|
    ensures forall i :: 0 <= i < |r| ==> r[i] == table[i].(conf := r[i].conf)
    ensures forall i :: 0 <= i < |r| && table[i].conf != Low ==> r[i] == table[i]
    ensures forall i :: 0 <= i < |r| && table[i].conf == Low ==>
      (r[i].conf == High <==> LinkCount(table, table[i].linkId) == 1)
    ensures forall i :: 0 <= i < |r| && table[i].conf == Low && LinkCount(table, table[i].linkId) != 1 ==>
      (r[i].conf == Medium <==> Known(table, DotKey(table[i]), HereKey(table[i])))
    ensures forall i :: 0 <= i < |r| ==> r[i].conf in {table[i].conf, Medium, High}
  {
    KnowledgeIsKnown(table);
    var k := Knowledge(table);
    seq(|table|, i requires 0 <= i < |table| => Upgrade(table, k, table[i]))
  }

  /** Changing only levels keeps every link's row count. */
  lemma {:induction false} LinkCountLevelsOnly(a: seq<Candidate>, b: seq<Candidate>, link: string)
    requires |a| == |b|
    requires forall i :: 0 <= i < |a| ==> b[i] == a[i].(conf := b[i].conf)
    ensures LinkCount(a, link) == LinkCount(b, link)
    decreases |a|
  {
    if |a| > 0 {
      LinkCountLevelsOnly(a[1..], b[1..], link);
    }
  }

  /** Running the pass a second time can still upgrade rows: a row promoted to
      'High' by the single-candidate rule becomes knowledge only then. */
  lemma PropagateNotIdempotent()
    ensures exists t :: Propagate(Propagate(t)) != Propagate(t)
  {
    var a := Candidate(Some("R1"), "A", Some("SR 1"), Some("C1"), Some("Main St"), Some("H1"), Low, None, None);
    var b := a.(linkId := "B");
    var t := [a, b, b];
    var p := Propagate(t);
    assert "A" != "B";
    assert t[1..] == [b, b] && [b, b][1..] == [b] && [b][1..] == [];
    assert LinkCount([b], "A") == 0 && LinkCount([b], "B") == 1;
    assert LinkCount([b, b], "A") == 0 && LinkCount([b, b], "B") == 2;
    assert LinkCount(t, "A") == 1;
    assert LinkCount(t, "B") == 2;
    assert p[0].conf == High;
    assert !Known(t, DotKey(b), HereKey(b));
    assert p[1].conf == Low;
    LinkCountLevelsOnly(t, p, "B");
    assert Known(p, DotKey(b), HereKey(b)) by {
      assert p[0].conf == High && DotKey(p[0]) == DotKey(b) && HereKey(p[0]) == HereKey(b);
    }
    var q := Propagate(p);
    assert q[1].conf == Medium;
  }

  /** When no 'Low' row is the only candidate of its link, the pass is
      idempotent: its 'High' rows, and hence its knowledge, do not change. */
  lemma PropagateIdempotentWithoutSingleUpgrades(t: seq<Candidate>)
    requires forall i :: 0 <= i < |t| && t[i].conf == Low ==> LinkCount(t, t[i].linkId) != 1
    ensures Propagate(Propagate(t)) == Propagate(t)
  {
    var p := Propagate(t);
    var q := Propagate(p);
    SameHighSameKnowledge(t, p);
    forall i | 0 <= i < |t|
      ensures q[i] == p[i]
    {
      SecondPassRow(t, p, q, i);
    }
  }

  /** One row of the second pass: it is left as the first pass made it. */
  lemma SecondPassRow(t: seq<Candidate>, p: seq<Candidate>, q: seq<Candidate>, i: int)
    requires forall j :: 0 <= j < |t| && t[j].conf == Low ==> LinkCount(t, t[j].linkId) != 1
    requires p == Propagate(t) && q == Propagate(p)
    requires forall d, h :: Known(p, d, h) <==> Known(t, d, h)
    requires 0 <= i < |t|
    ensures q[i] == p[i]
  {
    LinkCountLevelsOnly(t, p, t[i].linkId);
    assert p[i].linkId == t[i].linkId;
    assert DotKey(p[i]) == DotKey(t[i]) && HereKey(p[i]) == HereKey(t[i]);
  }

  /** One row of the first pass keeps its keys, and is 'High' after it
      exactly when it was before. */
  lemma SameHighRow(t: seq<Candidate>, p: seq<Candidate>, i: int)
    requires forall j :: 0 <= j < |t| && t[j].conf == Low ==> LinkCount(t, t[j].linkId) != 1
    requires p == Propagate(t) && 0 <= i < |t|
    ensures |p| == |t|
    ensures (p[i].conf == High <==> t[i].conf == High)
    ensures DotKey(p[i]) == DotKey(t[i]) && HereKey(p[i]) == HereKey(t[i])
  {
    assert p[i] == t[i].(conf := p[i].conf);
    if t[i].conf == Low {
      assert LinkCount(t, t[i].linkId) != 1;
    }
  }

  /** The first pass creates no 'High' row here, so the knowledge is unchanged. */
  lemma SameHighSameKnowledge(t: seq<Candidate>, p: seq<Candidate>)
    requires forall i :: 0 <= i < |t| && t[i].conf == Low ==> LinkCount(t, t[i].linkId) != 1
    requires p == Propagate(t)
    ensures forall d, h :: Known(p, d, h) <==> Known(t, d, h)
  {
    forall d, h
      ensures Known(p, d, h) <==> Known(t, d, h)
    {
      if Known(p, d, h) {
        var i :| 0 <= i < |p| && p[i].conf == High && DotKey(p[i]) == d && HereKey(p[i]) == h;
        SameHighRow(t, p, i);
      }
      if Known(t, d, h) {
        var i :| 0 <= i < |t| && t[i].conf == High && DotKey(t[i]) == d && HereKey(t[i]) == h;
        SameHighRow(t, p, i);
      }
    }
  }

  /** The row pass followed by the knowledge pass: the table the tool writes.
      Row i is row i of the row pass with, for a 'Low' row, the level the
      knowledge pass assigns: 'High' for the only candidate of its link,
      else 'Medium' when a 'High' row of the row pass pairs the same DOT and
      HERE keys, else still 'Low'.  Every other row is written as the row
      pass made it. */
  function GenerateMatchCandidates(rows: seq<JoinRow>, tolerance: real): (r: seq<Candidate>)
    ensures |r| == |CandidateTable(rows, tolerance)|
    ensures forall i :: 0 <= i < |r| ==> r[i] == CandidateTable(rows, tolerance)[i].(conf := r[i].conf)
    ensures forall i :: 0 <= i < |r| && CandidateTable(rows, tolerance)[i].conf != Low ==>
      r[i] == CandidateTable(rows, tolerance)[i]
    ensures forall i :: 0 <= i < |r| && CandidateTable(rows, tolerance)[i].conf == Low ==>
      && (r[i].conf == High <==> LinkCount(CandidateTable(rows, tolerance), r[i].linkId) == 1)
      && (r[i].conf == Medium <==> LinkCount(CandidateTable(rows, tolerance), r[i].linkId) != 1 &&
                                   Known(CandidateTable(rows, tolerance), DotKey(r[i]), HereKey(r[i])))
      && (r[i].conf in {Low, Medium, High})
    ensures forall c :: c in r ==> (c.conf == NoMatch <==> c.routeId.None?)
  {
    var t := CandidateTable(rows, tolerance);
    RowPassShape(map[], rows, tolerance);
    var p := Propagate(t);
    assert forall i :: 0 <= i < |p| ==> t[i] in t;
    assert forall i :: 0 <= i < |p| ==> p[i].routeId == t[i].routeId && (p[i].conf == NoMatch <==> t[i].conf == NoMatch);
    p
  }

  /** Every row of the written table that carries a route comes from a join
      row with a route within the angle tolerance, with that row's values;
      only its level may differ. */
  lemma GeneratedRoutesAreGood(rows: seq<JoinRow>, tolerance: real)
    ensures forall c :: c in GenerateMatchCandidates(rows, tolerance) && c.routeId.Some? ==>
      exists r :: r in rows && HasRoute(r) && !IsBad(r, tolerance) && c == MatchRow(r).(conf := c.conf)
  {
    var t := CandidateTable(rows, tolerance);
    var g := GenerateMatchCandidates(rows, tolerance);
    RouteRowsAreGood(map[], rows, tolerance);
    forall c | c in g && c.routeId.Some?
      ensures exists r :: r in rows && HasRoute(r) && !IsBad(r, tolerance) && c == MatchRow(r).(conf := c.conf)
    {
      var i :| 0 <= i < |g| && g[i] == c;
      assert t[i] in t && t[i].routeId.Some?;
      var r :| r in rows && HasRoute(r) && !IsBad(r, tolerance) && t[i] == MatchRow(r);
      assert c == MatchRow(r).(conf := c.conf);
    }
  }

  /** The knowledge pass keeps every 'No Match' row and creates none, so
      the per-link accounting of the row pass holds for the written table:
      a link whose f > 1 candidates all carry a route gets one 'No Match'
      row exactly when at least f of them are bad. */
  lemma GeneratedLinkAccounting(rows: seq<JoinRow>, tolerance: real, link: string, f: int)
    requires f > 1
    requires forall r :: r in rows && r.linkId == link ==> HasRoute(r) && r.frequency == f
    ensures NoMatchCount(GenerateMatchCandidates(rows, tolerance), link) ==
      (if BadCount(rows, link, tolerance) >= f then 1 else 0)
  {
    var t := CandidateTable(rows, tolerance);
    LinkAccounting(rows, tolerance, link, f);
    NoMatchCountLevels(t, GenerateMatchCandidates(rows, tolerance), link);
  }

  /** Changing levels other than to or from 'No Match' keeps every link's
      'No Match' count. */
  lemma {:induction false} NoMatchCountLevels(a: seq<Candidate>, b: seq<Candidate>, link: string)
    requires |a| == |b|
    requires forall i :: 0 <= i < |a| ==> b[i] == a[i].(conf := b[i].conf)
    requires forall i :: 0 <= i < |a| ==> (b[i].conf == NoMatch <==> a[i].conf == NoMatch)
    ensures NoMatchCount(a, link) == NoMatchCount(b, link)
    decreases |a|
  {
    if |a| > 0 {
      NoMatchCountLevels(a[1..], b[1..], link);
    }
  }
}

=== FILE: meta.dfy ===
/** The intersection-manager metadata table: one row per component with its
    creation and last-update dates, written as an upsert and read back by
    component. */
module Meta {
  import opened Base
  import opened DatetimeUtil

  datatype MetaRow = MetaRow(component: string, createDate: Option<DateTime>, updateDate: Option<DateTime>)

  /** What a read returns: the dictionary with or without its "Component"
      key (`component` is None when the key is absent). */
  datatype MetaRead = MetaRead(component: Option<string>, createDate: Option<DateTime>, updateDate: Option<DateTime>)

  /** The first row of the component, if any. */
  function FirstRowOf(rows: seq<MetaRow>, component: string): (r: Option<nat>)
    ensures r.None? <==> forall i :: 0 <= i < |rows| ==> rows[i].component != component
    ensures r.Some? ==> (r.value < |rows| && rows[r.value].component == component &&
      forall i :: 0 <= i < r.value ==> rows[i].component != component)
    decreases |rows|
  {
    if |rows| == 0 then None
    else if rows[0].component == component then Some(0)
    else
      match FirstRowOf(rows[1..], component)
      case None => None
      case Some(k) => Some(k + 1)
  }

  /** Every row of the component gets the update date. */
  function SetUpdateDate(rows: seq<MetaRow>, component: string, date: DateTime): (r: seq<MetaRow>)
    ensures |r| == |rows|
    ensures forall i :: 0 <= i < |rows| ==>
      r[i] == (if rows[i].component == component then rows[i].(updateDate := Some(date)) else rows[i])
  {
    seq(|rows|, i requires 0 <= i < |rows| =>
      if rows[i].component == component then rows[i].(updateDate := Some(date)) else rows[i])
  }

  /** `write_im_meta_data` on the table's rows (an absent table is created
      empty).  A create date overwrites the first row of the component and
      stops there, update date unused; without such a row it inserts one.  An
      update date then goes to every row of the component and never
      inserts. */
  function WriteMeta(table: Option<seq<MetaRow>>, component: string,
                     createDate: Option<DateTime>, updateDate: Option<DateTime>): (r: seq<MetaRow>)
    ensures forall i :: 0 <= i < |r| && r[i].component != component ==> table.Some? && r[i] in table.value
    ensures |r| == (if table.Some? then |table.value| else 0) +
                   (if createDate.Some? && (table.None? || FirstRowOf(table.value, component).None?) then 1 else 0)
    ensures table.Some? ==> forall i :: 0 <= i < |table.value| && table.value[i].component != component ==>
      r[i] == table.value[i]
  {
    var rows := if table.Some? then table.value else [];
    if createDate.Some? && FirstRowOf(rows, component).Some? then
      var k := FirstRowOf(rows, component).value;
      rows[k := rows[k].(createDate := createDate)]
    else
      var inserted := if createDate.Some? then rows + [MetaRow(component, createDate, None)] else rows;
      if updateDate.Some? then SetUpdateDate(inserted, component, updateDate.value) else inserted
  }

  /** The last row of the component, if any. */
  function LastRowOf(rows: seq<MetaRow>, component: string): (r: Option<nat>)
    ensures r.None? <==> forall i :: 0 <= i < |rows| ==> rows[i].component != component
    ensures r.Some? ==> (r.value < |rows| && rows[r.value].component == component &&
      forall i :: r.value < i < |rows| ==> rows[i].component != component)
    decreases |rows|
  {
    if |rows| == 0 then None
    else if rows[|rows| - 1].component == component then Some(|rows| - 1)
    else LastRowOf(rows[..|rows| - 1], component)
  }

  /** `read_im_meta_data`: both dates None (and no "Component" key) for an
      absent table or a component without rows; otherwise the dates of the
      component's last row. */
  function ReadMeta(table: Option<seq<MetaRow>>, component: string): (r: MetaRead)
    ensures r.component.None? <==> table.None? || forall i :: 0 <= i < |table.value| ==> table.value[i].component != component
    ensures r.component.None? ==> r.createDate.None? && r.updateDate.None?
    ensures r.component.Some? ==> (table.Some? && r.component.value == component &&
      exists i :: 0 <= i < |table.value| && table.value[i] == MetaRow(component, r.createDate, r.updateDate))
  {
    if table.None? then MetaRead(None, None, None)
    else
      match LastRowOf(table.value, component)
      case None => MetaRead(None, None, None)
      case Some(k) => MetaRead(Some(component), table.value[k].createDate, table.value[k].updateDate)
  }

  /** Each component has at most one row. */
  predicate UniqueComponents(rows: seq<MetaRow>) {
    forall i, j :: 0 <= i < j < |rows| ==> rows[i].component != rows[j].component
  }

  /** Writing keeps components unique. */
  lemma WritePreservesUnique(table: Option<seq<MetaRow>>, component: string,
                             createDate: Option<DateTime>, updateDate: Option<DateTime>)
    requires table.Some? ==> UniqueComponents(table.value)
    ensures UniqueComponents(WriteMeta(table, component, createDate, updateDate))
  {
    var rows := if table.Some? then table.value else [];
    if createDate.Some? && FirstRowOf(rows, component).None? {
      var inserted := rows + [MetaRow(component, createDate, None)];
      assert UniqueComponents(inserted);
    }
  }

  /** With one row per component, a written create date reads back, and so
      does a written update date, except when a create date for an existing
      row cut the write short. */
  lemma WriteThenRead(table: Option<seq<MetaRow>>, component: string,
                      createDate: Option<DateTime>, updateDate: Option<DateTime>)
    requires table.Some? ==> UniqueComponents(table.value)
    ensures createDate.Some? ==> ReadMeta(Some(WriteMeta(table, component, createDate, updateDate)), component).createDate == createDate
    ensures updateDate.Some? && createDate.Some? && (table.None? || FirstRowOf(table.value, component).None?) ==>
      ReadMeta(Some(WriteMeta(table, component, createDate, updateDate)), component).updateDate == updateDate
    ensures updateDate.Some? && createDate.None? && table.Some? && FirstRowOf(table.value, component).Some? ==>
      ReadMeta(Some(WriteMeta(table, component, createDate, updateDate)), component).updateDate == updateDate
  {
    WritePreservesUnique(table, component, createDate, updateDate);
    var rows := if table.Some? then table.value else [];
    var w := WriteMeta(table, component, createDate, updateDate);
    if createDate.Some? {
      if FirstRowOf(rows, component).Some? {
        var k := FirstRowOf(rows, component).value;
        assert w[k].component == component;
        assert LastRowOf(w, component) == Some(k);
      } else {
        var n := |rows|;
        assert w[n].component == component;
        assert LastRowOf(w, component) == Some(n);
      }
    } else if updateDate.Some? && FirstRowOf(rows, component).Some? {
      var k := FirstRowOf(rows, component).value;
      assert w[k].component == component;
      assert LastRowOf(w, component) == Some(k);
    }
  }

  /** An update date reaches the component's rows only when it has one:
      updating a component with no row and no create date leaves the table
      unchanged, so the read still finds nothing. */
  lemma UpdateNeverInserts(rows: seq<MetaRow>, component: string, date: DateTime)
    requires forall i :: 0 <= i < |rows| ==> rows[i].component != component
    ensures WriteMeta(Some(rows), component, None, Some(date)) == rows
    ensures ReadMeta(Some(WriteMeta(Some(rows), component, None, Some(date))), component) == MetaRead(None, None, None)
  {
  }

  /** With two rows of one component, the create date goes to the first and
      the read reports the last, so the written date is not read back. */
  lemma DuplicateRowsHideCreateDate(d0: DateTime, d1: DateTime)
    requires d0 != d1
    ensures
      var rows := [MetaRow("A", Some(d0), None), MetaRow("A", Some(d0), None)];
      ReadMeta(Some(WriteMeta(Some(rows), "A", Some(d1), None)), "A").createDate == Some(d0)
  {
    var rows := [MetaRow("A", Some(d0), None), MetaRow("A", Some(d0), None)];
    assert FirstRowOf(rows, "A") == Some(0);
    var w := WriteMeta(Some(rows), "A", Some(d1), None);
    assert w[1] == rows[1];
    assert LastRowOf(w, "A") == Some(1);
  }

  /** A create date for a component that already has a row returns before
      the update date is applied: the read still shows the old update date. */
  lemma ExistingCreateSkipsUpdate(rows: seq<MetaRow>, component: string, c: DateTime, u: DateTime)
    requires UniqueComponents(rows) && FirstRowOf(rows, component).Some?
    ensures ReadMeta(Some(WriteMeta(Some(rows), component, Some(c), Some(u))), component).updateDate
      == rows[FirstRowOf(rows, component).value].updateDate
  {
    var k := FirstRowOf(rows, component).value;
    var w := WriteMeta(Some(rows), component, Some(c), Some(u));
    WritePreservesUnique(Some(rows), component, Some(c), Some(u));
    assert w[k].component == component;
    assert LastRowOf(w, component) == Some(k);
  }
}

=== FILE: node.dfy ===
/** HERE link nodes: which nodes the tool builds from the links' end points,
    and how a node located more than once on one route is collapsed to a
    single row at the mean measure. */
module Node {
  import opened Base

  // ---------------------------------------------------------------------------
  // identify_node

  datatype Point = Point(x: real, y: real)

  /** A HERE link with its reference (start) and non-reference (end) node. */
  datatype Link = Link(refNode: int, nonRefNode: int, start: Point, end: Point)

  /** A row of the node feature class: the node id and its location. */
  datatype NodeRow = NodeRow(nodeId: int, at: Point)

  function StartRow(l: Link): NodeRow {
    NodeRow(l.refNode, l.start)
  }

  function EndRow(l: Link): NodeRow {
    NodeRow(l.nonRefNode, l.end)
  }

  /** The reference nodes: the links' start points dissolved on the
      reference id into single parts, so one row per id and location. */
  function RefNodes(links: seq<Link>): (r: seq<NodeRow>)
    ensures NoDuplicates(r)
    ensures forall n :: n in r <==> exists i :: 0 <= i < |links| && n == StartRow(links[i])
  {
    var starts := seq(|links|, i requires 0 <= i < |links| => StartRow(links[i]));
    assert forall n :: n in starts <==> exists i :: 0 <= i < |links| && n == StartRow(links[i]) by {
      forall n | exists i :: 0 <= i < |links| && n == StartRow(links[i]) ensures n in starts {
        var i :| 0 <= i < |links| && n == StartRow(links[i]);
        assert starts[i] == n;
      }
    }
    Distinct(starts)
  }

  /** True when some reference node lies on `p`: the spatial join found a
      match, so the end point is not a missing node. */
  predicate OnRefNode(refNodes: seq<NodeRow>, p: Point) {
    exists i :: 0 <= i < |refNodes| && refNodes[i].at == p
  }

  /** The end points that no reference node intersects (`JOIN_FID = -1`),
      with the non-reference id as node id, in link order. */
  function LooseEnds(links: seq<Link>, refNodes: seq<NodeRow>): (r: seq<NodeRow>)
    ensures forall n :: n in r <==>
      !OnRefNode(refNodes, n.at) && exists i :: 0 <= i < |links| && n == EndRow(links[i])
    decreases |links|
  {
    if |links| == 0 then []
    else
      var rest := LooseEnds(links[1..], refNodes);
      assert forall i :: 1 <= i < |links| ==> links[1..][i - 1] == links[i];
      if OnRefNode(refNodes, links[0].end) then rest else [EndRow(links[0])] + rest
  }

  /** `identify_node`: all reference nodes, then the missing nodes (end
      points with no reference node on them) dissolved on the non-reference
      id, each carrying the id it came from as its node id. */
  function IdentifyNodes(links: seq<Link>): (r: seq<NodeRow>)
    ensures NoDuplicates(r)
    ensures forall n :: n in r <==>
      (exists i :: 0 <= i < |links| && n == StartRow(links[i])) ||
      (!OnRefNode(RefNodes(links), n.at) && exists i :: 0 <= i < |links| && n == EndRow(links[i]))
  {
    var refs := RefNodes(links);
    var missing := Distinct(LooseEnds(links, refs));
    assert forall a, b :: a in refs && b in missing ==> a != b by {
      forall a, b | a in refs && b in missing ensures a != b {
        var k :| 0 <= k < |refs| && refs[k] == a;
        assert !OnRefNode(refs, b.at);
      }
    }
    DisjointConcat(refs, missing);
    refs + missing
  }

  /** Two duplicate-free lists with no common element concatenate to a
      duplicate-free list. */
  lemma DisjointConcat(a: seq<NodeRow>, b: seq<NodeRow>)
    requires NoDuplicates(a) && NoDuplicates(b)
    requires forall x, y :: x in a && y in b ==> x != y
    ensures NoDuplicates(a + b)
  {
    forall i, j | 0 <= i < j < |a + b| ensures (a + b)[i] != (a + b)[j] {
      if j < |a| {
        assert (a + b)[i] == a[i] && (a + b)[j] == a[j];
      } else if i >= |a| {
        assert (a + b)[i] == b[i - |a|] && (a + b)[j] == b[j - |a|];
      } else {
        assert (a + b)[i] in a && (a + b)[j] in b;
      }
    }
  }

  /** Every reference id and every uncovered non-reference id becomes a
      node id, and no missing node lies on a reference node. */
  lemma NodeIdsCovered(links: seq<Link>, i: nat)
    requires i < |links|
    ensures StartRow(links[i]) in IdentifyNodes(links)
    ensures !OnRefNode(RefNodes(links), links[i].end) <==> EndRow(links[i]) in IdentifyNodes(links) && EndRow(links[i]) !in RefNodes(links)
  {
    var refs := RefNodes(links);
    if EndRow(links[i]) in refs {
      var k :| 0 <= k < |refs| && refs[k] == EndRow(links[i]);
      assert OnRefNode(refs, links[i].end);
    }
  }

  function StartPoints(links: seq<Link>): set<Point> {
    set i | 0 <= i < |links| :: links[i].start
  }

  function EndPoints(links: seq<Link>): set<Point> {
    set i | 0 <= i < |links| :: links[i].end
  }

  /** A network where every end point is some link's start point has no
      missing node: the node table is the reference nodes alone. */
  lemma ClosedNetworkHasOnlyRefNodes(links: seq<Link>)
    requires EndPoints(links) <= StartPoints(links)
    ensures IdentifyNodes(links) == RefNodes(links)
  {
    var refs := RefNodes(links);
    forall i | 0 <= i < |links| ensures OnRefNode(refs, links[i].end) {
      assert links[i].end in EndPoints(links);
      var j :| 0 <= j < |links| && links[j].start == links[i].end;
      assert StartRow(links[j]) in refs;
      var k :| 0 <= k < |refs| && refs[k] == StartRow(links[j]);
    }
    NoLooseEnds(links, refs);
    assert Distinct<NodeRow>([]) == [];
    assert refs + [] == refs;
  }

  lemma {:induction false} NoLooseEnds(links: seq<Link>, refs: seq<NodeRow>)
    requires forall i :: 0 <= i < |links| ==> OnRefNode(refs, links[i].end)
    ensures LooseEnds(links, refs) == []
    decreases |links|
  {
    if |links| > 0 {
      assert forall i :: 0 <= i < |links[1..]| ==> links[1..][i] == links[i + 1];
      NoLooseEnds(links[1..], refs);
    }
  }

  // ---------------------------------------------------------------------------
  // locate_node_along_route

  /** A row of the located-node table: the route it lies on, the node, the
      measure, and the distance the locate reports. */
  datatype Located = Located(rid: string, nodeId: int, meas: real, distance: real)

  /** The frequency key of a row. */
  datatype Key = Key(rid: string, nodeId: int)

  function KeyOf(x: Located): Key {
    Key(x.rid, x.nodeId)
  }

  /** The rows of one key, in table order: what a cursor with the key's
      where clause visits. */
  function Group(rows: seq<Located>, k: Key): (r: seq<Located>)
    ensures |r| <= |rows|
  {
    if |rows| == 0 then []
    else (if KeyOf(rows[0]) == k then [rows[0]] else []) + Group(rows[1..], k)
  }

  /** A group holds exactly the rows of its key. */
  lemma {:induction false} GroupMembers(rows: seq<Located>, k: Key)
    ensures forall x :: x in Group(rows, k) <==> x in rows && KeyOf(x) == k
  {
    if |rows| > 0 {
      GroupMembers(rows[1..], k);
      assert rows == [rows[0]] + rows[1..];
    }
  }

  lemma {:induction false} GroupAppend(a: seq<Located>, b: seq<Located>, k: Key)
    ensures Group(a + b, k) == Group(a, k) + Group(b, k)
  {
    if |a| == 0 {
      assert a + b == b;
    } else {
      assert (a + b)[1..] == a[1..] + b;
      GroupAppend(a[1..], b, k);
    }
  }

  /** Two rows of one key make a group of at least two. */
  lemma SharedKeyGroup(rows: seq<Located>, i: nat, j: nat)
    requires i < j < |rows| && KeyOf(rows[i]) == KeyOf(rows[j])
    ensures |Group(rows, KeyOf(rows[i]))| >= 2
  {
    var k := KeyOf(rows[i]);
    assert rows == rows[..j] + rows[j..];
    GroupAppend(rows[..j], rows[j..], k);
    GroupMembers(rows[..j], k);
    GroupMembers(rows[j..], k);
    assert rows[..j][i] == rows[i];
    assert rows[i] in Group(rows[..j], k);
    assert rows[j..][0] == rows[j];
    assert rows[j] in Group(rows[j..], k);
  }

  function MeasSum(g: seq<Located>): real {
    if |g| == 0 then 0.0 else g[0].meas + MeasSum(g[1..])
  }

  /** The average measure of a group: its sum over the frequency. */
  function Mean(g: seq<Located>): real
    requires |g| > 0
  {
    MeasSum(g) / (|g| as real)
  }

  /** Every row of the key gets measure `a` (the second cursor pass). */
  function SetMeasure(rows: seq<Located>, k: Key, a: real): seq<Located>
  {
    if |rows| == 0 then []
    else [if KeyOf(rows[0]) == k then rows[0].(meas := a) else rows[0]] + SetMeasure(rows[1..], k, a)
  }

  /** Deletes the first `n` rows of the key (the third cursor pass). */
  function DropFirst(rows: seq<Located>, k: Key, n: nat): seq<Located>
  {
    if |rows| == 0 then []
    else if KeyOf(rows[0]) == k && n > 0 then DropFirst(rows[1..], k, n - 1)
    else [rows[0]] + DropFirst(rows[1..], k, n)
  }

  function WithMeasure(g: seq<Located>, a: real): (r: seq<Located>)
    ensures |r| == |g|
    ensures forall i :: 0 <= i < |g| ==> r[i] == g[i].(meas := a)
  {
    seq(|g|, i requires 0 <= i < |g| => g[i].(meas := a))
  }

  lemma {:induction false} GroupSetMeasure(rows: seq<Located>, k: Key, a: real, other: Key)
    ensures Group(SetMeasure(rows, k, a), other) == (if other == k then WithMeasure(Group(rows, k), a) else Group(rows, other))
  {
    if |rows| > 0 {
      var x := rows[0];
      var y := if KeyOf(x) == k then x.(meas := a) else x;
      var u := SetMeasure(rows, k, a);
      assert u == [y] + SetMeasure(rows[1..], k, a);
      assert u[0] == y && u[1..] == SetMeasure(rows[1..], k, a);
      assert KeyOf(y) == KeyOf(x);
      assert Group(u, other) == (if KeyOf(x) == other then [y] else []) + Group(u[1..], other);
      GroupSetMeasure(rows[1..], k, a, other);
      if other == k {
        var head := if KeyOf(x) == k then [x] else [];
        assert Group(rows, k) == head + Group(rows[1..], k);
        WithMeasureAppend(head, Group(rows[1..], k), a);
        assert WithMeasure(head, a) == (if KeyOf(x) == k then [y] else []);
      }
    }
  }

  lemma WithMeasureAppend(g: seq<Located>, h: seq<Located>, a: real)
    ensures WithMeasure(g + h, a) == WithMeasure(g, a) + WithMeasure(h, a)
  {
  }

  lemma {:induction false} GroupDropFirst(rows: seq<Located>, k: Key, n: nat, other: Key)
    requires n <= |Group(rows, k)|
    ensures Group(DropFirst(rows, k, n), other) == (if other == k then Group(rows, k)[n..] else Group(rows, other))
  {
    if |rows| > 0 {
      var rest := rows[1..];
      var x := rows[0];
      GroupCons(x, rest, k);
      GroupCons(x, rest, other);
      assert rows == [x] + rest;
      if KeyOf(x) == k && n > 0 {
        assert DropFirst(rows, k, n) == DropFirst(rest, k, n - 1);
        GroupDropFirst(rest, k, n - 1, other);
        assert ([x] + Group(rest, k))[n..] == Group(rest, k)[n - 1..];
      } else {
        var d := DropFirst(rest, k, n);
        assert DropFirst(rows, k, n) == [x] + d;
        GroupCons(x, d, other);
        GroupDropFirst(rest, k, n, other);
      }
    }
  }

  /** The group of a list with one more row in front. */
  lemma GroupCons(x: Located, rest: seq<Located>, k: Key)
    ensures Group([x] + rest, k) == (if KeyOf(x) == k then [x] else []) + Group(rest, k)
  {
    assert ([x] + rest)[0] == x && ([x] + rest)[1..] == rest;
  }

  /** The row that stays of a duplicated group: its last, at the mean. */
  function Survivor(g: seq<Located>): seq<Located>
    requires |g| > 0
  {
    [g[|g| - 1].(meas := Mean(g))]
  }

  /** One row of the frequency table: sum the group, write the mean to every
      row of it, then delete the first frequency - 1 rows in cursor order. */
  function CollapseKey(rows: seq<Located>, k: Key): seq<Located>
    requires |Group(rows, k)| > 0
  {
    var g := Group(rows, k);
    DropFirst(SetMeasure(rows, k, Mean(g)), k, |g| - 1)
  }

  /** Collapsing a key leaves that key's group as its survivor and every
      other group as it was. */
  lemma CollapseKeyEffect(rows: seq<Located>, k: Key)
    requires |Group(rows, k)| > 0
    ensures Group(CollapseKey(rows, k), k) == Survivor(Group(rows, k))
    ensures forall other :: other != k ==> Group(CollapseKey(rows, k), other) == Group(rows, other)
  {
    var g := Group(rows, k);
    var u := SetMeasure(rows, k, Mean(g));
    GroupSetMeasure(rows, k, Mean(g), k);
    GroupDropFirst(u, k, |g| - 1, k);
    assert WithMeasure(g, Mean(g))[|g| - 1..] == Survivor(g);
    forall other | other != k
      ensures Group(CollapseKey(rows, k), other) == Group(rows, other)
    {
      GroupSetMeasure(rows, k, Mean(g), other);
      GroupDropFirst(u, k, |g| - 1, other);
    }
  }

  /** The loop over the frequency table rows, one key at a time. */
  function CollapseKeys(rows: seq<Located>, keys: seq<Key>): seq<Located>
    requires NoDuplicates(keys)
    requires forall k :: k in keys ==> |Group(rows, k)| > 0
    decreases |keys|
  {
    if |keys| == 0 then rows
    else
      CollapseKeyEffect(rows, keys[0]);
      assert forall k :: k in keys[1..] ==> k != keys[0];
      CollapseKeys(CollapseKey(rows, keys[0]), keys[1..])
  }

  lemma {:induction false} CollapseKeysEffect(rows: seq<Located>, keys: seq<Key>, k: Key)
    requires NoDuplicates(keys)
    requires forall k :: k in keys ==> |Group(rows, k)| > 0
    ensures Group(CollapseKeys(rows, keys), k) == (if k in keys then Survivor(Group(rows, k)) else Group(rows, k))
    decreases |keys|
  {
    if |keys| > 0 {
      CollapseKeyEffect(rows, keys[0]);
      assert forall j :: j in keys[1..] ==> j != keys[0];
      CollapseKeysEffect(CollapseKey(rows, keys[0]), keys[1..], k);
    }
  }

  /** The keys of the rows `rows[..n]` whose group has more than one row. */
  function Flagged(rows: seq<Located>, n: nat): (r: seq<Key>)
    requires n <= |rows|
    ensures forall k :: k in r <==> exists i :: 0 <= i < n && KeyOf(rows[i]) == k && |Group(rows, k)| > 1
  {
    if n == 0 then []
    else
      var k := KeyOf(rows[n - 1]);
      Flagged(rows, n - 1) + (if |Group(rows, k)| > 1 then [k] else [])
  }

  /** The frequency table's rows with `FREQUENCY > 1`, one per key. */
  function FrequentKeys(rows: seq<Located>): (r: seq<Key>)
    ensures NoDuplicates(r)
    ensures forall k :: k in r <==> |Group(rows, k)| > 1
  {
    var r := Distinct(Flagged(rows, |rows|));
    assert forall k :: |Group(rows, k)| > 1 ==> k in r by {
      forall k | |Group(rows, k)| > 1 ensures k in r {
        GroupMembers(rows, k);
        var x := Group(rows, k)[0];
        assert x in Group(rows, k);
        var i :| 0 <= i < |rows| && rows[i] == x;
      }
    }
    r
  }

  /** `locate_node_along_route` on the located rows: a node located on a
      route once keeps its row; one located there several times keeps only
      its last row, at the mean of the measures. */
  function LocateNodeAlongRoute(rows: seq<Located>): (r: seq<Located>)
    ensures forall k :: |Group(rows, k)| > 1 ==> Group(r, k) == Survivor(Group(rows, k))
    ensures forall k :: |Group(rows, k)| <= 1 ==> Group(r, k) == Group(rows, k)
  {
    var keys := FrequentKeys(rows);
    CollapseAll(rows, keys);
    CollapseKeys(rows, keys)
  }

  lemma CollapseAll(rows: seq<Located>, keys: seq<Key>)
    requires keys == FrequentKeys(rows)
    ensures forall k :: Group(CollapseKeys(rows, keys), k) == (if k in keys then Survivor(Group(rows, k)) else Group(rows, k))
  {
    forall k ensures Group(CollapseKeys(rows, keys), k) == (if k in keys then Survivor(Group(rows, k)) else Group(rows, k)) {
      CollapseKeysEffect(rows, keys, k);
    }
  }

  /** Afterwards every (route, node) pair has exactly one row when it had
      any and none otherwise; in particular no two rows share a pair. */
  lemma LocatedKeysUnique(rows: seq<Located>)
    ensures forall k :: |Group(LocateNodeAlongRoute(rows), k)| == (if |Group(rows, k)| == 0 then 0 else 1)
    ensures forall i, j :: 0 <= i < j < |LocateNodeAlongRoute(rows)| ==>
      KeyOf(LocateNodeAlongRoute(rows)[i]) != KeyOf(LocateNodeAlongRoute(rows)[j])
  {
    var r := LocateNodeAlongRoute(rows);
    forall k ensures |Group(r, k)| == (if |Group(rows, k)| == 0 then 0 else 1) {
      if |Group(rows, k)| > 1 {
        assert Group(r, k) == Survivor(Group(rows, k));
      }
    }
    forall i, j | 0 <= i < j < |r| ensures KeyOf(r[i]) != KeyOf(r[j]) {
      if KeyOf(r[i]) == KeyOf(r[j]) {
        SharedKeyGroup(r, i, j);
        assert false;
      }
    }
  }

  /** A table with no duplicated pair is left as it is, so collapsing twice
      is collapsing once. */
  lemma LocateIdempotent(rows: seq<Located>)
    ensures (forall k :: |Group(rows, k)| <= 1) ==> LocateNodeAlongRoute(rows) == rows
    ensures LocateNodeAlongRoute(LocateNodeAlongRoute(rows)) == LocateNodeAlongRoute(rows)
  {
    var r := LocateNodeAlongRoute(rows);
    LocatedKeysUnique(rows);
    NoFrequentKeys(r);
    if forall k :: |Group(rows, k)| <= 1 {
      NoFrequentKeys(rows);
    }
  }

  lemma NoFrequentKeys(rows: seq<Located>)
    requires forall k :: |Group(rows, k)| <= 1
    ensures FrequentKeys(rows) == []
  {
    NoneFlagged(rows, |rows|);
    assert Distinct<Key>([]) == [];
  }

  lemma {:induction false} NoneFlagged(rows: seq<Located>, n: nat)
    requires n <= |rows|
    requires forall k :: |Group(rows, k)| <= 1
    ensures Flagged(rows, n) == []
  {
    if n > 0 {
      NoneFlagged(rows, n - 1);
    }
  }

  // ---------------------------------------------------------------------------
  // The mean measure

  function MinMeas(g: seq<Located>): (m: real)
    requires |g| > 0
    ensures exists i :: 0 <= i < |g| && g[i].meas == m
    ensures forall i :: 0 <= i < |g| ==> m <= g[i].meas
  {
    if |g| == 1 then g[0].meas
    else
      var rest := MinMeas(g[1..]);
      assert forall i :: 1 <= i < |g| ==> g[i] == g[1..][i - 1];
      if g[0].meas <= rest then g[0].meas else rest
  }

  function MaxMeas(g: seq<Located>): (m: real)
    requires |g| > 0
    ensures exists i :: 0 <= i < |g| && g[i].meas == m
    ensures forall i :: 0 <= i < |g| ==> g[i].meas <= m
  {
    if |g| == 1 then g[0].meas
    else
      var rest := MaxMeas(g[1..]);
      assert forall i :: 1 <= i < |g| ==> g[i] == g[1..][i - 1];
      if g[0].meas >= rest then g[0].meas else rest
  }

  lemma {:induction false} SumAtLeast(g: seq<Located>, lo: real)
    requires forall i :: 0 <= i < |g| ==> lo <= g[i].meas
    ensures (|g| as real) * lo <= MeasSum(g)
  {
    if |g| > 0 {
      var rest := g[1..];
      assert forall i :: 0 <= i < |rest| ==> rest[i] == g[i + 1];
      SumAtLeast(rest, lo);
      AddOne(|rest| as real, lo);
    }
  }

  lemma {:induction false} SumAtMost(g: seq<Located>, hi: real)
    requires forall i :: 0 <= i < |g| ==> g[i].meas <= hi
    ensures MeasSum(g) <= (|g| as real) * hi
  {
    if |g| > 0 {
      var rest := g[1..];
      assert forall i :: 0 <= i < |rest| ==> rest[i] == g[i + 1];
      SumAtMost(rest, hi);
      AddOne(|rest| as real, hi);
    }
  }

  lemma AddOne(n: real, x: real)
    ensures (n + 1.0) * x == n * x + x
  {
  }

  lemma DivLower(s: real, n: real, lo: real)
    requires n > 0.0 && n * lo <= s
    ensures lo <= s / n
  {
    assert s / n * n == s;
  }

  lemma DivUpper(s: real, n: real, hi: real)
    requires n > 0.0 && s <= n * hi
    ensures s / n <= hi
  {
    assert s / n * n == s;
  }

  /** A lower bound of every measure of a group bounds its mean. */
  lemma MeanAtLeast(g: seq<Located>, lo: real)
    requires |g| > 0
    requires forall i :: 0 <= i < |g| ==> lo <= g[i].meas
    ensures lo <= Mean(g)
  {
    SumAtLeast(g, lo);
    var s, n := MeasSum(g), |g| as real;
    DivLower(s, n, lo);
    assert Mean(g) == s / n;
  }

  /** An upper bound of every measure of a group bounds its mean. */
  lemma MeanAtMost(g: seq<Located>, hi: real)
    requires |g| > 0
    requires forall i :: 0 <= i < |g| ==> g[i].meas <= hi
    ensures Mean(g) <= hi
  {
    SumAtMost(g, hi);
    var s, n := MeasSum(g), |g| as real;
    DivUpper(s, n, hi);
    assert Mean(g) == s / n;
  }

  /** The mean lies between the smallest and the largest measure of its
      group, so the surviving row stays within the span the locate found;
      a group located at one measure keeps it. */
  lemma MeanWithinGroup(g: seq<Located>)
    requires |g| > 0
    ensures MinMeas(g) <= Mean(g) <= MaxMeas(g)
    ensures (forall i :: 0 <= i < |g| ==> g[i].meas == g[0].meas) ==> Mean(g) == g[0].meas
  {
    MeanAtLeast(g, MinMeas(g));
    MeanAtMost(g, MaxMeas(g));
    if forall i :: 0 <= i < |g| ==> g[i].meas == g[0].meas {
      MeanAtLeast(g, g[0].meas);
      MeanAtMost(g, g[0].meas);
    }
  }

  /** A two-row group of one key. */
  lemma PairGroup(a: Located, b: Located, rows: seq<Located>)
    requires KeyOf(a) == KeyOf(b) && rows == [a, b]
    ensures Group(rows, KeyOf(a)) == rows && MeasSum(rows) == a.meas + b.meas
  {
    assert rows[1..] == [b];
    assert [b][1..] == [];
    assert MeasSum([b]) == b.meas;
  }

  /** Two locations of a node on one route collapse to the later row at
      the midpoint. */
  lemma TwoLocationsExample(a: Located, b: Located)
    requires KeyOf(a) == KeyOf(b)
    ensures Group(LocateNodeAlongRoute([a, b]), KeyOf(a)) == [b.(meas := (a.meas + b.meas) / 2.0)]
  {
    var k := KeyOf(a);
    var rows := [a, b];
    PairGroup(a, b, rows);
    MidpointSurvivor(a, b, rows);
    var r := LocateNodeAlongRoute(rows);
    assert |Group(rows, k)| > 1;
    assert Group(r, k) == Survivor(Group(rows, k));
  }

  /** The survivor of two rows is the later one at their midpoint. */
  lemma MidpointSurvivor(a: Located, b: Located, rows: seq<Located>)
    requires rows == [a, b] && MeasSum(rows) == a.meas + b.meas
    ensures Survivor(rows) == [b.(meas := (a.meas + b.meas) / 2.0)]
  {
    assert Mean(rows) == (a.meas + b.meas) / 2.0;
    assert rows[|rows| - 1] == b;
  }
}

=== FILE: path_util.dfy ===
/** Windows path handling as Python 2's `ntpath` performs it (drive letters,
    both separators; UNC shares are not modelled), and `get_parent_directory`
    built on `dirname`. */
module NtPath {
  import opened Base

  predicate IsSep(c: char) {
    c == '\\' || c == '/'
  }

  predicate NoSep(s: string) {
    forall k :: 0 <= k < |s| ==> !IsSep(s[k])
  }

  predicate EndsWithSep(s: string) {
    |s| > 0 && IsSep(s[|s| - 1])
  }

  /** A name with no separator and no drive: what a table or file name is. */
  predicate PlainName(s: string) {
    NoSep(s) && !(|s| >= 2 && s[1] == ':')
  }

  // ---------------------------------------------------------------------------
  // splitdrive

  function DrivePart(p: string): (d: string)
    ensures d == "" || (|d| == 2 && d[1] == ':')
  {
    if |p| >= 2 && p[1] == ':' then p[..2] else ""
  }

  function PathPart(p: string): (r: string)
    ensures DrivePart(p) + r == p
  {
    if |p| >= 2 && p[1] == ':' then p[2..] else p
  }

  // ---------------------------------------------------------------------------
  // split / dirname / basename

  /** Where the last component starts: just after the last separator. */
  function TailStart(p: string): (i: nat)
    ensures i <= |p|
    decreases |p|
  {
    if |p| == 0 then 0
    else if IsSep(p[|p| - 1]) then |p|
    else TailStart(p[..|p| - 1])
  }

  /** The last component follows a separator (or starts the path) and holds
      none. */
  lemma {:induction false} TailStartSpec(p: string)
    ensures TailStart(p) == 0 || IsSep(p[TailStart(p) - 1])
    ensures forall k :: TailStart(p) <= k < |p| ==> !IsSep(p[k])
    decreases |p|
  {
    if |p| > 0 && !IsSep(p[|p| - 1]) {
      TailStartSpec(p[..|p| - 1]);
    }
  }

  /** The head with its trailing separators removed. */
  function TrimSeps(h: string): (r: string)
    ensures |r| <= |h|
    decreases |h|
  {
    if EndsWithSep(h) then TrimSeps(h[..|h| - 1]) else h
  }

  /** Trimming keeps a prefix that does not end in a separator and removes
      only separators. */
  lemma {:induction false} TrimSepsSpec(h: string)
    ensures TrimSeps(h) == h[..|TrimSeps(h)|]
    ensures !EndsWithSep(TrimSeps(h))
    ensures forall k :: |TrimSeps(h)| <= k < |h| ==> IsSep(h[k])
    decreases |h|
  {
    if EndsWithSep(h) {
      TrimSepsSpec(h[..|h| - 1]);
    }
  }

  /** `ntpath.split`: a head that keeps the drive and loses trailing
      separators (unless it is nothing but separators), and the last
      component. */
  function Split(p: string): (string, string) {
    var q := PathPart(p);
    var i := TailStart(q);
    var head := q[..i];
    var trimmed := TrimSeps(head);
    (DrivePart(p) + (if trimmed == "" then head else trimmed), q[i..])
  }

  function Dirname(p: string): string {
    Split(p).0
  }

  function Basename(p: string): string {
    Split(p).1
  }

  // ---------------------------------------------------------------------------
  // join

  /** `ntpath.join(a, b)`: an absolute `b` replaces the path (keeping `a`'s
      drive when `b` has none), a `b` on another drive replaces everything,
      otherwise `b` is appended after one separator. */
  function PathJoin(a: string, b: string): (r: string)
    ensures PlainName(b) && |PathPart(a)| > 0 && !EndsWithSep(a) ==> r == a + "\\" + b
    ensures PlainName(b) && (|PathPart(a)| == 0 || EndsWithSep(a)) ==> r == a + b
  {
    var ad := DrivePart(a);
    var ap := PathPart(a);
    var bd := DrivePart(b);
    var bp := PathPart(b);
    if |bp| > 0 && IsSep(bp[0]) then
      (if bd != "" || ad == "" then bd else ad) + bp
    else if bd != "" && Lower(bd) != Lower(ad) then b
    else
      (if bd != "" then bd else ad) + (if |ap| > 0 && !IsSep(ap[|ap| - 1]) then ap + "\\" else ap) + bp
  }

  /** A name without separators placed after a separator (or at the start)
      is the last component. */
  lemma TailAfterSep(x: string, b: string)
    requires NoSep(b) && !(|x| > 0 && !IsSep(x[|x| - 1]))
    ensures TailStart(x + b) == |x|
  {
    var q := x + b;
    TailStartSpec(q);
    assert |x| > 0 ==> IsSep(q[|x| - 1]);
    assert forall k :: |x| <= k < |q| ==> !IsSep(q[k]) by {
      forall k | |x| <= k < |q| ensures !IsSep(q[k]) {
        assert q[k] == b[k - |x|];
      }
    }
  }

  /** One separator after a head that does not end in one is trimmed away. */
  lemma TrimOneSep(ap: string)
    requires !EndsWithSep(ap)
    ensures TrimSeps(ap + "\\") == ap
  {
    assert (ap + "\\")[..|ap|] == ap;
  }

  /** The split of a path whose path part is `h + t`, with `t` the last
      component. */
  lemma SplitAt(p: string, h: string, t: string)
    requires PathPart(p) == h + t && TailStart(h + t) == |h|
    ensures Basename(p) == t
    ensures Dirname(p) == DrivePart(p) + (if TrimSeps(h) == "" then h else TrimSeps(h))
  {
    assert (h + t)[..|h|] == h && (h + t)[|h|..] == t;
  }

  /** A drive followed by a path part that does not itself look like a
      drive splits back into the two. */
  lemma DriveThenPath(ad: string, rest: string)
    requires ad == "" || (|ad| == 2 && ad[1] == ':')
    requires ad == "" ==> !(|rest| >= 2 && rest[1] == ':')
    ensures DrivePart(ad + rest) == ad && PathPart(ad + rest) == rest
  {
    if ad != "" {
      assert (ad + rest)[..2] == ad && (ad + rest)[1] == ':';
      assert (ad + rest)[2..] == rest;
    } else {
      assert ad + rest == rest;
    }
  }

  /** Joining a plain name onto a directory and splitting the result gives
      both parts back: `dirname` and `basename` undo `join`. */
  lemma JoinThenSplit(a: string, b: string)
    requires PlainName(b) && !EndsWithSep(a)
    ensures Basename(PathJoin(a, b)) == b
    ensures Dirname(PathJoin(a, b)) == a
  {
    if |PathPart(a)| == 0 {
      JoinOntoDrive(a, b);
    } else {
      JoinOntoPath(a, b);
    }
  }

  lemma JoinOntoDrive(a: string, b: string)
    requires PlainName(b) && |PathPart(a)| == 0
    ensures Basename(PathJoin(a, b)) == b && Dirname(PathJoin(a, b)) == a
  {
    var ad := DrivePart(a);
    var r := PathJoin(a, b);
    assert a == ad;
    assert r == ad + b;
    DriveThenPath(ad, b);
    assert PathPart(r) == "" + b;
    TailAfterSep("", b);
    SplitAt(r, "", b);
  }

  lemma JoinOntoPath(a: string, b: string)
    requires PlainName(b) && !EndsWithSep(a) && |PathPart(a)| > 0
    ensures Basename(PathJoin(a, b)) == b && Dirname(PathJoin(a, b)) == a
  {
    var ad := DrivePart(a);
    var ap := PathPart(a);
    var r := PathJoin(a, b);
    var h := ap + "\\";
    assert r == ad + (h + b);
    if ad == "" && |h + b| >= 2 {
      assert (h + b)[1] == (if |ap| >= 2 then a[1] else '\\');
    }
    DriveThenPath(ad, h + b);
    assert !EndsWithSep(ap);
    TailAfterSep(h, b);
    SplitAt(r, h, b);
    TrimOneSep(ap);
  }

  // ---------------------------------------------------------------------------
  // get_parent_directory

  /** `step` applied `k` times, outermost last: the shape of a loop that
      replaces a value by its image `k` times. */
  function Iterate(step: string -> string, p: string, k: nat): string
    decreases k
  {
    if k == 0 then p else Iterate(step, step(p), k - 1)
  }

  /** One more round is one more `step` of the previous answer. */
  lemma {:induction false} IterateStep(step: string -> string, p: string, k: nat)
    ensures Iterate(step, p, k + 1) == step(Iterate(step, p, k))
    decreases k
  {
    if k > 0 {
      IterateStep(step, step(p), k - 1);
    }
  }

  /** `dirname` applied `k` times. */
  function DirnameN(p: string, k: nat): string {
    Iterate(Dirname, p, k)
  }

  /** `get_parent_directory(path, level)`: a ValueError for a level below one,
      otherwise `level` applications of `dirname`. */
  method GetParentDirectory(path: string, level: int) returns (r: Result<string>)
    ensures level <= 0 <==> r.Err?
    ensures level > 0 ==> r == Ok(DirnameN(path, level))
  {
    if level <= 0 {
      return Err("Level cannot be < 1");
    }
    var parent := path;
    var remaining := level;
    while remaining > 0
      invariant 0 <= remaining <= level
      invariant parent == DirnameN(path, level - remaining)
      decreases remaining
    {
      IterateStep(Dirname, path, level - remaining);
      parent := Dirname(parent);
      remaining := remaining - 1;
    }
    return Ok(parent);
  }

  /** One `dirname` removes a plain last component. */
  lemma DirnameDropsName(d: string, name: string, p: string)
    requires PlainName(name) && |PathPart(d)| > 0 && !EndsWithSep(d)
    requires p == d + "\\" + name
    ensures Dirname(p) == d
  {
    JoinThenSplit(d, name);
  }

  /** Three levels are three `dirname`s in a row. */
  lemma ThreeLevels(p: string, d3: string, d2: string, d1: string)
    requires Dirname(p) == d3 && Dirname(d3) == d2 && Dirname(d2) == d1
    ensures DirnameN(p, 1) == d3 && DirnameN(p, 2) == d2 && DirnameN(p, 3) == d1
  {
    IterateStep(Dirname, p, 0);
    IterateStep(Dirname, p, 1);
    IterateStep(Dirname, p, 2);
  }

  /** The first `dirname` of the documented path drops the file name. */
  lemma FileLevel()
    ensures Dirname("C:\\Dir1\\Dir2\\Dir3\\test.txt") == "C:\\Dir1\\Dir2\\Dir3"
  {
    DirnameDropsName("C:\\Dir1\\Dir2\\Dir3", "test.txt", "C:\\Dir1\\Dir2\\Dir3\\test.txt");
  }

  /** Levels one to three above a file under two plain directories each drop
      one more component. */
  lemma NestedParents(d: string, a: string, b: string, file: string)
    requires PlainName(a) && PlainName(b) && PlainName(file) && |a| > 0 && |b| > 0
    requires |PathPart(d)| > 0 && !EndsWithSep(d)
    ensures DirnameN(d + "\\" + a + "\\" + b + "\\" + file, 1) == d + "\\" + a + "\\" + b
    ensures DirnameN(d + "\\" + a + "\\" + b + "\\" + file, 2) == d + "\\" + a
    ensures DirnameN(d + "\\" + a + "\\" + b + "\\" + file, 3) == d
  {
    var da := d + "\\" + a;
    var dab := da + "\\" + b;
    var p := dab + "\\" + file;
    ExtendKeepsPathPart(d, a);
    ExtendKeepsPathPart(da, b);
    DirnameDropsName(dab, file, p);
    DirnameDropsName(da, b, dab);
    DirnameDropsName(d, a, da);
    ThreeLevels(p, dab, da, d);
  }

  /** Appending a separator and a non-empty plain name keeps a non-empty
      path part and does not end in a separator. */
  lemma ExtendKeepsPathPart(d: string, a: string)
    requires PlainName(a) && |a| > 0 && |PathPart(d)| > 0
    ensures |PathPart(d + "\\" + a)| > 0 && !EndsWithSep(d + "\\" + a)
  {
    var da := d + "\\" + a;
    assert da[|da| - 1] == a[|a| - 1];
    if |d| >= 2 {
      assert da[1] == d[1];
    }
  }

  /** The documented example: levels 1, 2 and 3 above a file path. */
  lemma ParentDirectoryExamples()
    ensures DirnameN("C:\\Dir1\\Dir2\\Dir3\\test.txt", 1) == "C:\\Dir1\\Dir2\\Dir3"
    ensures DirnameN("C:\\Dir1\\Dir2\\Dir3\\test.txt", 2) == "C:\\Dir1\\Dir2"
    ensures DirnameN("C:\\Dir1\\Dir2\\Dir3\\test.txt", 3) == "C:\\Dir1"
  {
    assert "C:\\Dir1" + "\\" + "Dir2" == "C:\\Dir1\\Dir2";
    assert "C:\\Dir1\\Dir2" + "\\" + "Dir3" == "C:\\Dir1\\Dir2\\Dir3";
    assert "C:\\Dir1\\Dir2\\Dir3" + "\\" + "test.txt" == "C:\\Dir1\\Dir2\\Dir3\\test.txt";
    NestedParents("C:\\Dir1", "Dir2", "Dir3", "test.txt");
  }
}

=== FILE: review.dfy ===
/** The review step for match candidates: which candidate rows the reviewer
    is shown for a confidence threshold, and how the reviewer's edits are
    written back to the candidate table. The window, its grid and the
    table cursors are not modelled; a table is a sequence of rows. */
module Review {
  import opened Base
  import opened MatchCandidate

  // ---------------------------------------------------------------------------
  // Threshold filter

  /** The level with a given rank. */
  function LevelAt(j: nat): (c: Confidence)
    requires j < 5
    ensures c.Rank() == j
  {
    if j == 0 then NoMatch else if j == 1 then Low else if j == 2 then Medium
    else if j == 3 then High else UserConfirmed
  }

  /** The level texts in rank order. */
  function Labels(): (r: seq<string>)
    ensures |r| == 5
  {
    seq(5, j requires 0 <= j < 5 => LevelAt(j).Label())
  }

  /** The threshold choices offered: 'All', then every level. */
  function Choices(): seq<string> {
    ["All"] + Labels()
  }

  /** `list.index(x)`, None where Python raises ValueError. */
  function IndexOf(s: seq<string>, x: string): (r: Option<nat>)
    ensures r.Some? ==> r.value < |s| && s[r.value] == x && forall k :: 0 <= k < r.value ==> s[k] != x
    ensures r.None? ==> x !in s
  {
    if |s| == 0 then None
    else if s[0] == x then Some(0)
    else
      var rest := IndexOf(s[1..], x);
      if rest.None? then None else Some(rest.value + 1)
  }

  /** The levels a threshold selects: every choice after 'All' up to and
      including the threshold; a threshold that is not a choice raises. */
  function ThresholdLevels(threshold: string): Result<seq<string>> {
    match IndexOf(Choices(), threshold)
    case None => Err("ValueError: threshold is not in list")
    case Some(k) => Ok(Choices()[1..k + 1])
  }

  /** A table cell: null, text, or a number. */
  datatype Cell = Null | Text(text: string) | Number(n: int)

  /** Whether the query for the threshold returns a row with this level
      cell: with 'All' (or no level selected) every row, otherwise the rows
      whose level text is one of the selected levels; a null level never
      matches the `IN` list. */
  predicate Shown(threshold: string, levels: seq<string>, level: Cell) {
    if threshold != "All" && |levels| > 0 then level.Text? && level.text in levels else true
  }

  /** The rows of a candidate table listed for review. */
  function ShownRows(threshold: string, rows: seq<Row>): (r: Result<seq<Row>>)
    ensures r.Err? <==> threshold !in Choices()
    ensures r.Ok? ==> forall x :: x in r.value <==> x in rows && Shown(threshold, ThresholdLevels(threshold).value, x.level)
  {
    match ThresholdLevels(threshold)
    case Err(msg) => Err(msg)
    case Ok(levels) => Ok(Filter(threshold, levels, rows))
  }

  function Filter(threshold: string, levels: seq<string>, rows: seq<Row>): (r: seq<Row>)
    ensures forall x :: x in r <==> x in rows && Shown(threshold, levels, x.level)
  {
    if |rows| == 0 then []
    else
      assert rows == [rows[0]] + rows[1..];
      (if Shown(threshold, levels, rows[0].level) then [rows[0]] else []) + Filter(threshold, levels, rows[1..])
  }

  lemma LabelsNamed(t: string, j: nat)
    requires j < 5 && Labels()[j] == t
    ensures LevelOf(t) == Some(LevelAt(j))
  {
    LabelRoundTrip(LevelAt(j), LevelAt(j));
  }

  /** `index` finds the first occurrence. */
  lemma {:induction false} IndexOfFirst(s: seq<string>, x: string, k: nat)
    requires k < |s| && s[k] == x
    requires forall j :: 0 <= j < k ==> s[j] != x
    ensures IndexOf(s, x) == Some(k)
    decreases k
  {
    if k > 0 {
      IndexOfFirst(s[1..], x, k - 1);
    }
  }

  /** The levels a level threshold selects are those of its rank and
      below. */
  lemma ThresholdPrefix(c: Confidence)
    ensures ThresholdLevels(c.Label()) == Ok(Labels()[..c.Rank() + 1])
  {
    var ch := Choices();
    assert forall j :: 0 <= j < 5 ==> ch[j + 1] == LevelAt(j).Label();
    assert ch[c.Rank() + 1] == c.Label() by {
      assert LevelAt(c.Rank()) == c;
    }
    forall k | 0 <= k < c.Rank() + 1
      ensures ch[k] != c.Label()
    {
      if k > 0 {
        LabelRoundTrip(LevelAt(k - 1), c);
      }
    }
    IndexOfFirst(ch, c.Label(), c.Rank() + 1);
    assert ch[1..c.Rank() + 2] == Labels()[..c.Rank() + 1];
  }

  /** The rows a threshold lists, as a property of the level cell; a
      threshold that is not a choice lists nothing. */
  predicate ShownFor(threshold: string, level: Cell) {
    ThresholdLevels(threshold).Ok? && Shown(threshold, ThresholdLevels(threshold).value, level)
  }

  /** 'All' lists every row. */
  lemma AllShowsEverything(level: Cell)
    ensures ThresholdLevels("All") == Ok([]) && ShownFor("All", level)
  {
    IndexOfFirst(Choices(), "All", 0);
  }

  /** A level threshold lists exactly the rows whose level is at or below
      it, in the order 'No Match', 'Low', 'Medium', 'High', 'User
      Confirmed'. */
  lemma ShownMeaning(c: Confidence, level: Cell)
    ensures ShownFor(c.Label(), level) <==>
      level.Text? && LevelOf(level.text).Some? && LevelOf(level.text).value.Rank() <= c.Rank()
  {
    ThresholdPrefix(c);
    var levels := Labels()[..c.Rank() + 1];
    assert c.Label() != "All";
    if level.Text? && level.text in levels {
      var j :| 0 <= j < |levels| && levels[j] == level.text;
      LabelsNamed(level.text, j);
    }
    if level.Text? && LevelOf(level.text).Some? && LevelOf(level.text).value.Rank() <= c.Rank() {
      var d := LevelOf(level.text).value;
      assert LevelAt(d.Rank()) == d;
      assert levels[d.Rank()] == level.text;
    }
  }

  /** A higher threshold never hides a row a lower one lists. */
  lemma ShownMonotone(c: Confidence, d: Confidence, level: Cell)
    requires c.Rank() <= d.Rank()
    requires ShownFor(c.Label(), level)
    ensures ShownFor(d.Label(), level)
  {
    ShownMeaning(c, level);
    ShownMeaning(d, level);
  }

  // ---------------------------------------------------------------------------
  // Display and save

  /** A candidate row: its OBJECTID, the six descriptive cells (route id,
      link id, names and county ids), the level, and the reviewer's
      verified and rejected flags. */
  datatype Row = Row(oid: int, info: seq<Cell>, level: Cell, verified: Cell, rejected: Cell)

  /** A null cell is shown as an empty string. */
  function Blank(c: Cell): (r: Cell)
    ensures r != Null
  {
    if c == Null then Text("") else c
  }

  /** An empty string is saved as null. */
  function Unblank(c: Cell): (r: Cell)
    ensures r != Text("")
  {
    if c == Text("") then Null else c
  }

  /** Saving undoes displaying for every cell that was not an empty string
      already; displaying undoes saving for every cell that was not null. */
  lemma BlankRoundTrip(c: Cell)
    ensures c != Text("") ==> Unblank(Blank(c)) == c
    ensures c != Null ==> Blank(Unblank(c)) == c
  {
  }

  function MapCells(cells: seq<Cell>): (r: seq<Cell>)
    ensures |r| == |cells|
    ensures forall k :: 0 <= k < |cells| ==> r[k] == Unblank(cells[k])
  {
    seq(|cells|, k requires 0 <= k < |cells| => Unblank(cells[k]))
  }

  /** One edited row as it is saved: empty strings back to null, then a
      verified flag of '1' confirms the match and a rejected flag of '1'
      marks it 'No Match', the rejection applied second. */
  function Normalise(e: Row): (r: Row)
    ensures r.oid == e.oid && r.info == MapCells(e.info)
    ensures r.verified == Unblank(e.verified) && r.rejected == Unblank(e.rejected)
    ensures e.rejected == Text("1") ==> r.level == Text(NoMatch.Label())
    ensures e.rejected != Text("1") && e.verified == Text("1") ==> r.level == Text(UserConfirmed.Label())
    ensures e.rejected != Text("1") && e.verified != Text("1") ==> r.level == Unblank(e.level)
  {
    var level := Unblank(e.level);
    var confirmed := if Unblank(e.verified) == Text("1") then Text(UserConfirmed.Label()) else level;
    var decided := if Unblank(e.rejected) == Text("1") then Text(NoMatch.Label()) else confirmed;
    Row(e.oid, MapCells(e.info), decided, Unblank(e.verified), Unblank(e.rejected))
  }

  /** Saving a saved row again changes nothing. */
  lemma NormaliseIdempotent(e: Row)
    ensures Normalise(Normalise(e)) == Normalise(e)
  {
    var n := Normalise(e);
    assert MapCells(n.info) == n.info;
  }

  /** The rows to write, keyed by OBJECTID; a later edit of the same row
      replaces an earlier one. */
  function EditMap(edits: seq<Row>): (m: map<int, Row>)
    ensures forall k :: k in m <==> exists i :: 0 <= i < |edits| && edits[i].oid == k
    ensures forall k :: k in m ==> m[k].oid == k
  {
    if |edits| == 0 then map[]
    else
      var front := edits[..|edits| - 1];
      var last := edits[|edits| - 1];
      var m := EditMap(front);
      assert forall i :: 0 <= i < |front| ==> front[i] == edits[i];
      m[last.oid := Normalise(last)]
  }

  /** The row written for an OBJECTID is the last edit of it, saved. */
  lemma {:induction false} LastEditWins(edits: seq<Row>, i: nat)
    requires i < |edits|
    requires forall j :: i < j < |edits| ==> edits[j].oid != edits[i].oid
    ensures edits[i].oid in EditMap(edits) && EditMap(edits)[edits[i].oid] == Normalise(edits[i])
    decreases |edits|
  {
    if i < |edits| - 1 {
      var front := edits[..|edits| - 1];
      assert front[i] == edits[i];
      LastEditWins(front, i);
    }
  }

  /** `update_match_candidate_table`: nothing when the table does not exist
      or there is no edit; otherwise every row whose OBJECTID was edited is
      replaced by its saved edit, and the others stay as they were. */
  function UpdateTable(table: Option<seq<Row>>, edits: seq<Row>): (r: Option<seq<Row>>)
    ensures table.None? || |edits| == 0 ==> r == table
    ensures table.Some? ==> r.Some? && |r.value| == |table.value|
  {
    if table.None? || |edits| == 0 then table
    else
      var m := EditMap(edits);
      Some(seq(|table.value|, i requires 0 <= i < |table.value| =>
        var row := table.value[i];
        if row.oid in m then m[row.oid] else row))
  }

  /** A row nobody edited is untouched; an edited row becomes its last
      edit, saved, keeping its OBJECTID. */
  lemma UpdateTableEffect(table: seq<Row>, edits: seq<Row>, i: nat)
    requires i < |table|
    ensures var r := UpdateTable(Some(table), edits).value;
      (forall j :: 0 <= j < |edits| ==> edits[j].oid != table[i].oid) ==> r[i] == table[i]
    ensures var r := UpdateTable(Some(table), edits).value;
      forall j :: (0 <= j < |edits| && edits[j].oid == table[i].oid &&
        (forall l :: j < l < |edits| ==> edits[l].oid != table[i].oid)) ==>
        r[i] == Normalise(edits[j]) && r[i].oid == table[i].oid
  {
    forall j | 0 <= j < |edits| && edits[j].oid == table[i].oid &&
        (forall l :: j < l < |edits| ==> edits[l].oid != table[i].oid)
      ensures UpdateTable(Some(table), edits).value[i] == Normalise(edits[j])
    {
      LastEditWins(edits, j);
    }
  }

  /** Saving the same edits twice leaves the table as saving them once. */
  lemma UpdateTableIdempotent(table: seq<Row>, edits: seq<Row>)
    ensures UpdateTable(UpdateTable(Some(table), edits), edits) == UpdateTable(Some(table), edits)
  {
    if |edits| > 0 {
      var m := EditMap(edits);
      var once := UpdateTable(Some(table), edits).value;
      var twice := UpdateTable(Some(once), edits).value;
      forall i | 0 <= i < |table|
        ensures twice[i] == once[i]
      {
        assert once[i].oid == table[i].oid;
      }
      assert twice == once;
    }
  }

  /** A row both confirmed and rejected is saved as 'No Match'. */
  lemma RejectionWins(e: Row)
    requires e.verified == Text("1") && e.rejected == Text("1")
    ensures Normalise(e).level == Text("No Match")
  {
  }
}

=== FILE: transfer.dfy ===
/** Event transfer between the two networks.

    DOT to HERE: events on DOT routes that have a HERE route of the same id
    get their measures rescaled onto the HERE route (the reverse crosswalk
    for line events, the tool's own point formula for point events, see
    `Crosswalk.PointQuirk`), and the output renames the
    rescaled columns to the original measure names.

    HERE to DOT: each HERE event is joined, by link id, to every XREF row of
    its link and takes the route id and measures of that row.

    Placing the events on the routes is done by the geoprocessing engine; the
    model stops at the event rows handed to it. */
module EventTransfer {
  import opened Base
  import opened Crosswalk
  import opened DaoUtil

  // ---------------------------------------------------------------------------
  // DOT to HERE: route information

  /** The DOT records whose id is among the given HERE route ids, in cursor
      order. */
  function Among(records: seq<RouteRecord>, known: set<string>): (r: seq<RouteRecord>)
    ensures |r| <= |records|
    decreases |records|
  {
    if |records| == 0 then []
    else
      var front := Among(records[..|records| - 1], known);
      var last := records[|records| - 1];
      if last.rid in known then front + [last] else front
  }

  /** The DOT route dictionary of the transfer: records with a null shape or
      with an id that is not a HERE route id are skipped; the last record of
      an id wins. */
  function DotInfo(records: seq<RouteRecord>, hereInfo: map<string, RouteInfo>): (r: map<string, RouteInfo>)
    ensures r.Keys <= hereInfo.Keys
  {
    AmongInfo(records, hereInfo.Keys);
    InfoDict(Among(records, hereInfo.Keys))
  }

  /** Skipping the ids outside `known` is restricting the dictionary to
      `known`: the kept ids keep the information they would have had. */
  lemma {:induction false} AmongInfo(records: seq<RouteRecord>, known: set<string>)
    ensures forall rid :: rid in InfoDict(Among(records, known)) <==> rid in known && rid in InfoDict(records)
    ensures forall rid :: rid in InfoDict(Among(records, known)) ==> InfoDict(Among(records, known))[rid] == InfoDict(records)[rid]
    decreases |records|
  {
    if |records| > 0 {
      var front := records[..|records| - 1];
      var last := records[|records| - 1];
      AmongInfo(front, known);
      assert records == front + [last];
      InfoDictSnoc(front, last);
      if last.rid in known {
        assert Among(records, known) == Among(front, known) + [last];
        InfoDictSnoc(Among(front, known), last);
      } else {
        assert Among(records, known) == Among(front, known);
      }
    }
  }

  /** The dictionary of a list with one more record: that record's shape
      overwrites the entry of its id, unless it is null. */
  lemma InfoDictSnoc(front: seq<RouteRecord>, last: RouteRecord)
    ensures InfoDict(front + [last]) ==
      if last.shape.None? then InfoDict(front) else InfoDict(front)[last.rid := last.shape.value]
  {
    var all := front + [last];
    assert all[..|all| - 1] == front && all[|all| - 1] == last;
  }

  // ---------------------------------------------------------------------------
  // DOT to HERE: event selection

  /** The clause selecting the events on the kept routes: quoted ids for a
      text route-id field, bare ids (their `str` rendering) otherwise, and
      "1=2" when no route is kept. */
  function EventRouteClause(field: string, fieldType: string, ids: seq<string>): (r: string)
    ensures r == "1=2" <==> |ids| == 0
    ensures |ids| > 0 && fieldType == "TEXT" ==> r == field + " in (" + Join(",", RenderStrings(ids)) + ")"
    ensures |ids| > 0 && fieldType != "TEXT" ==> r == field + " in (" + Join(",", ids) + ")"
  {
    if fieldType == "TEXT" then StringIn(field, ids) else InExpression(field, ids)
  }

  /** A DOT event: its route, from and to measures (the to measure is unused
      for point events) and the values of the other transferred fields. */
  datatype DotEvent = DotEvent(rid: string, fmeas: real, tmeas: real, attrs: seq<string>)

  /** The events the clause lets through, in order. */
  function SelectEvents(events: seq<DotEvent>, kept: set<string>): (r: seq<DotEvent>)
    ensures |r| <= |events|
    ensures forall e :: e in r <==> e in events && e.rid in kept
    ensures kept == {} ==> r == []
    decreases |events|
  {
    if |events| == 0 then []
    else (if events[0].rid in kept then [events[0]] else []) + SelectEvents(events[1..], kept)
  }

  /** Filtering a concatenation filters each part in turn: together with the one-item case of the definition, the kept items keep their order. */
  lemma {:induction false} SelectEventsAppend(a: seq<DotEvent>, b: seq<DotEvent>, kept: set<string>)
    ensures SelectEvents(a + b, kept) == SelectEvents(a, kept) + SelectEvents(b, kept)
    decreases |a|
  {
    if |a| == 0 {
      assert a + b == b;
    } else {
      assert (a + b)[0] == a[0] && (a + b)[1..] == a[1..] + b;
      SelectEventsAppend(a[1..], b, kept);
    }
  }

  /** Each kept item is kept as often as it occurs, each other one not at
      all. */
  lemma {:induction false} SelectEventsCount(s: seq<DotEvent>, kept: set<string>, x: DotEvent)
    ensures Count(SelectEvents(s, kept), x) == if x.rid in kept then Count(s, x) else 0
    decreases |s|
  {
    if |s| > 0 {
      SelectEventsCount(s[1..], kept, x);
      CountAppend(if s[0].rid in kept then [s[0]] else [], SelectEvents(s[1..], kept), x);
    }
  }

  // ---------------------------------------------------------------------------
  // DOT to HERE: rescaling

  /** One event rescaled as the tool does it: both ends of a line event by
      the line formula, the one measure of a point event by the point
      formula, which adds the DOT MMin where the line formula subtracts it;
      route id and other values unchanged. */
  function AdjustEvent(e: DotEvent, d: RouteInfo, h: RouteInfo, line: bool): (r: DotEvent)
    requires TransferDefined(d, h)
    ensures r.rid == e.rid && r.attrs == e.attrs
    ensures line ==> r.fmeas == TransferLine(e.fmeas, d, h) && r.tmeas == TransferLine(e.tmeas, d, h)
    ensures !line ==> r.fmeas == TransferPoint(e.fmeas, d, h) && r.tmeas == e.tmeas
  {
    if line then e.(fmeas := TransferLineByRatios(e.fmeas, d, h), tmeas := TransferLineByRatios(e.tmeas, d, h))
    else e.(fmeas := TransferPointByRatios(e.fmeas, d, h))
  }

  /** One event rescaled as evidently intended: the line formula for point
      events too, so that a point lands where a line end at the same measure
      lands. */
  function AdjustEventIntended(e: DotEvent, d: RouteInfo, h: RouteInfo, line: bool): (r: DotEvent)
    requires TransferDefined(d, h)
    ensures r.rid == e.rid && r.attrs == e.attrs
    ensures r.fmeas == TransferLine(e.fmeas, d, h)
    ensures line ==> r.tmeas == TransferLine(e.tmeas, d, h)
    ensures !line ==> r.tmeas == e.tmeas
  {
    if line then e.(fmeas := TransferLineByRatios(e.fmeas, d, h), tmeas := TransferLineByRatios(e.tmeas, d, h))
    else e.(fmeas := TransferLineByRatios(e.fmeas, d, h))
  }

  /** The intended rescaling is undone by the XREF crosswalk for both kinds
      of event; the tool's point rescaling is the intended one shifted by
      twice the DOT MMin, so it is undone only up to that shift. */
  lemma IntendedMapsBack(e: DotEvent, d: RouteInfo, h: RouteInfo, line: bool)
    requires TransferDefined(d, h) && XrefDefined(h, d)
    ensures XrefMeasure(AdjustEventIntended(e, d, h, line).fmeas, h, d) == e.fmeas
    ensures line ==> XrefMeasure(AdjustEventIntended(e, d, h, line).tmeas, h, d) == e.tmeas
    ensures !line ==> XrefMeasure(AdjustEvent(e, d, h, line).fmeas, h, d) == e.fmeas + 2.0 * d.mmin
    ensures !line ==> (AdjustEvent(e, d, h, line) == AdjustEventIntended(e, d, h, line) <==> d.mmin == 0.0)
  {
    XrefUndoesTransfer(e.fmeas, h, d);
    XrefUndoesTransfer(e.tmeas, h, d);
    if !line {
      PointQuirk(e.fmeas, d, h);
      XrefUndoesTransfer(e.fmeas + 2.0 * d.mmin, h, d);
    }
  }

  /** The ids of the DOT dictionary: routes with a shape in both
      networks. */
  function KeptRoutes(hereRoutes: seq<RouteRecord>, dotRoutes: seq<RouteRecord>): (r: set<string>)
    ensures forall rid :: rid in r <==> HasShape(hereRoutes, rid) && HasShape(dotRoutes, rid)
    ensures forall rid :: rid in r ==> rid in InfoDict(hereRoutes) && rid in InfoDict(dotRoutes)
  {
    AmongInfo(dotRoutes, InfoDict(hereRoutes).Keys);
    DotInfo(dotRoutes, InfoDict(hereRoutes)).Keys
  }

  /** The events the transfer reads: those on kept routes, in order. */
  function Transferable(events: seq<DotEvent>, hereRoutes: seq<RouteRecord>, dotRoutes: seq<RouteRecord>): seq<DotEvent> {
    SelectEvents(events, KeptRoutes(hereRoutes, dotRoutes))
  }

  /** The kept route of an event cannot be rescaled without a division by
      zero. */
  predicate Degenerate(e: DotEvent, hereRoutes: seq<RouteRecord>, dotRoutes: seq<RouteRecord>)
    requires HasInfo(e, hereRoutes, dotRoutes)
  {
    !TransferDefined(InfoDict(dotRoutes)[e.rid], InfoDict(hereRoutes)[e.rid])
  }

  /** Both dictionaries hold the route of the event. */
  predicate HasInfo(e: DotEvent, hereRoutes: seq<RouteRecord>, dotRoutes: seq<RouteRecord>) {
    e.rid in InfoDict(hereRoutes) && e.rid in InfoDict(dotRoutes)
  }

  /** `transfer_dot_event_attribute_to_here` on the cursors' records (the
      DOT routes and events already cut to the active ones): the events on
      kept routes, in order, each rescaled with the information of its DOT
      and HERE route (the DOT dictionary agrees with the full one on kept
      ids, see `AmongInfo`); line mode when a to-measure field is given.  A
      route that makes a formula divide by zero raises. */
  function TransferDotToHere(events: seq<DotEvent>, hereRoutes: seq<RouteRecord>, dotRoutes: seq<RouteRecord>, line: bool)
    : (r: Result<seq<DotEvent>>)
    ensures r.Err? <==> exists e :: e in Transferable(events, hereRoutes, dotRoutes) && Degenerate(e, hereRoutes, dotRoutes)
    ensures r.Ok? ==> |r.value| == |Transferable(events, hereRoutes, dotRoutes)|
    ensures r.Ok? ==> forall i :: 0 <= i < |r.value| ==>
      r.value[i].rid == Transferable(events, hereRoutes, dotRoutes)[i].rid &&
      r.value[i].attrs == Transferable(events, hereRoutes, dotRoutes)[i].attrs
  {
    AdjustAll(Transferable(events, hereRoutes, dotRoutes), hereRoutes, dotRoutes, line)
  }

  /** The selected events rescaled in cursor order; the first one whose
      route makes a formula divide by zero raises. */
  function AdjustAll(sel: seq<DotEvent>, hereRoutes: seq<RouteRecord>, dotRoutes: seq<RouteRecord>, line: bool)
    : (r: Result<seq<DotEvent>>)
    requires forall i :: 0 <= i < |sel| ==> HasInfo(sel[i], hereRoutes, dotRoutes)
    ensures r.Err? <==> exists e :: e in sel && Degenerate(e, hereRoutes, dotRoutes)
    ensures r.Ok? ==> |r.value| == |sel|
    ensures r.Ok? ==> forall i :: 0 <= i < |sel| ==>
      r.value[i] == AdjustKept(sel[i], hereRoutes, dotRoutes, line)
  {
    if |sel| == 0 then Ok([])
    else if Degenerate(sel[0], hereRoutes, dotRoutes) then
      assert sel[0] in sel;
      Err("float division by zero")
    else
      var tail := sel[1..];
      assert forall i :: 0 <= i < |tail| ==> tail[i] == sel[i + 1];
      var rest := AdjustAll(tail, hereRoutes, dotRoutes, line);
      if rest.Err? then rest
      else Ok([AdjustKept(sel[0], hereRoutes, dotRoutes, line)] + rest.value)
  }

  /** An event on a kept route rescaled with the information of its two
      routes. */
  function AdjustKept(e: DotEvent, hereRoutes: seq<RouteRecord>, dotRoutes: seq<RouteRecord>, line: bool): (r: DotEvent)
    requires HasInfo(e, hereRoutes, dotRoutes) && !Degenerate(e, hereRoutes, dotRoutes)
    ensures r.rid == e.rid && r.attrs == e.attrs
  {
    AdjustEvent(e, InfoDict(dotRoutes)[e.rid], InfoDict(hereRoutes)[e.rid], line)
  }

  /** A transferred line event maps back onto its DOT measures through the
      crosswalk: the transfer is the inverse of the XREF rescaling. */
  lemma TransferredLineMapsBack(events: seq<DotEvent>, hereRoutes: seq<RouteRecord>, dotRoutes: seq<RouteRecord>, i: nat)
    requires TransferDotToHere(events, hereRoutes, dotRoutes, true).Ok?
    requires i < |TransferDotToHere(events, hereRoutes, dotRoutes, true).value|
    ensures
      var out := TransferDotToHere(events, hereRoutes, dotRoutes, true).value[i];
      var orig := Transferable(events, hereRoutes, dotRoutes)[i];
      var h := InfoDict(hereRoutes)[orig.rid];
      var d := InfoDict(dotRoutes)[orig.rid];
      && TransferDefined(d, h)
      && (h.mmax != h.mmin ==> XrefMeasure(out.fmeas, h, d) == orig.fmeas && XrefMeasure(out.tmeas, h, d) == orig.tmeas)
  {
    var sel := Transferable(events, hereRoutes, dotRoutes);
    assert sel[i] in sel;
    var h := InfoDict(hereRoutes)[sel[i].rid];
    var d := InfoDict(dotRoutes)[sel[i].rid];
    if h.mmax != h.mmin {
      XrefUndoesTransfer(sel[i].fmeas, h, d);
      XrefUndoesTransfer(sel[i].tmeas, h, d);
    }
  }

  /** A transferred point event keeps its unused to measure, and maps back
      through the crosswalk onto its DOT measure shifted by twice the DOT
      MMin (see `Crosswalk.PointQuirk`): onto the measure itself only on a
      DOT route starting at zero. */
  lemma TransferredPointMapsBack(events: seq<DotEvent>, hereRoutes: seq<RouteRecord>, dotRoutes: seq<RouteRecord>, i: nat)
    requires TransferDotToHere(events, hereRoutes, dotRoutes, false).Ok?
    requires i < |TransferDotToHere(events, hereRoutes, dotRoutes, false).value|
    ensures
      var out := TransferDotToHere(events, hereRoutes, dotRoutes, false).value[i];
      var orig := Transferable(events, hereRoutes, dotRoutes)[i];
      var h := InfoDict(hereRoutes)[orig.rid];
      var d := InfoDict(dotRoutes)[orig.rid];
      && TransferDefined(d, h)
      && out.tmeas == orig.tmeas
      && (h.mmax != h.mmin ==> XrefMeasure(out.fmeas, h, d) == orig.fmeas + 2.0 * d.mmin)
  {
    var sel := Transferable(events, hereRoutes, dotRoutes);
    assert sel[i] in sel;
    var h := InfoDict(hereRoutes)[sel[i].rid];
    var d := InfoDict(dotRoutes)[sel[i].rid];
    var out := TransferDotToHere(events, hereRoutes, dotRoutes, false).value[i];
    assert out == AdjustEvent(sel[i], d, h, false);
    if h.mmax != h.mmin {
      IntendedMapsBack(sel[i], d, h, false);
    }
  }

  /** With no DOT route kept, nothing is transferred. */
  lemma NoRoutesNoEvents(events: seq<DotEvent>, hereRoutes: seq<RouteRecord>, dotRoutes: seq<RouteRecord>, line: bool)
    requires forall k :: 0 <= k < |dotRoutes| ==> dotRoutes[k].shape.None? || !HasShape(hereRoutes, dotRoutes[k].rid)
    ensures TransferDotToHere(events, hereRoutes, dotRoutes, line) == Ok([])
  {
    assert KeptRoutes(hereRoutes, dotRoutes) == {};
  }

  // ---------------------------------------------------------------------------
  // DOT to HERE: output columns

  /** The two measure fields are different, and neither is the other's
      rescaled name. */
  predicate DistinctMeasures(fmeasField: string, tmeasField: Option<string>) {
    tmeasField.None? ||
    (fmeasField != tmeasField.value && tmeasField.value != "ADJUSTED_" + fmeasField && fmeasField != "ADJUSTED_" + tmeasField.value)
  }

  /** The output name of a field: a rescaled column takes its measure's
      name, an original measure column gets a 'DOT_' prefix, and any other
      field keeps its name. */
  function OutputName(field: string, fmeasField: string, tmeasField: Option<string>): (r: string)
    ensures DistinctMeasures(fmeasField, tmeasField) ==>
      (&& (field == "ADJUSTED_" + fmeasField ==> r == fmeasField)
       && (field == fmeasField ==> r == "DOT_" + fmeasField)
       && (tmeasField.Some? && field == "ADJUSTED_" + tmeasField.value ==> r == tmeasField.value)
       && (tmeasField.Some? && field == tmeasField.value ==> r == "DOT_" + tmeasField.value))
    ensures (&& field != "ADJUSTED_" + fmeasField && field != fmeasField
             && (tmeasField.None? || (field != "ADJUSTED_" + tmeasField.value && field != tmeasField.value)))
            ==> r == field
  {
    AdjustedNameDiffers(fmeasField);
    AdjustedNameDiffers(if tmeasField.Some? then tmeasField.value else "");
    AdjustedInjective(fmeasField, if tmeasField.Some? then tmeasField.value else "");
    if field == "ADJUSTED_" + fmeasField then fmeasField
    else if tmeasField.Some? && field == "ADJUSTED_" + tmeasField.value then tmeasField.value
    else if field == fmeasField then "DOT_" + fmeasField
    else if tmeasField.Some? && field == tmeasField.value then "DOT_" + tmeasField.value
    else field
  }

  /** A measure name is never its own rescaled name. */
  lemma AdjustedNameDiffers(f: string)
    ensures f != "ADJUSTED_" + f
  {
    assert |"ADJUSTED_" + f| > |f|;
  }

  lemma AdjustedInjective(f: string, t: string)
    ensures "ADJUSTED_" + f == "ADJUSTED_" + t ==> f == t
  {
    assert ("ADJUSTED_" + f)[9..] == f && ("ADJUSTED_" + t)[9..] == t;
  }

  /** A measure field or its rescaled copy: the names the field mapping renames. */
  predicate MeasureName(field: string, fmeasField: string, tmeasField: Option<string>) {
    || field == fmeasField || field == "ADJUSTED_" + fmeasField
    || (tmeasField.Some? && (field == tmeasField.value || field == "ADJUSTED_" + tmeasField.value))
  }

  /** The output columns: the route id, the rescaled measures (under the
      measure names; one for point events), then the transferred fields. */
  function DotToHereColumns(ridField: string, fmeasField: string, tmeasField: Option<string>, fields: seq<string>): (r: seq<string>)
    ensures |r| == (if tmeasField.Some? then 3 else 2) + |fields|
    ensures DistinctMeasures(fmeasField, tmeasField) ==> r[1] == fmeasField
    ensures DistinctMeasures(fmeasField, tmeasField) && tmeasField.Some? ==> r[2] == tmeasField.value
    ensures r[0] == OutputName(ridField, fmeasField, tmeasField)
    ensures !MeasureName(ridField, fmeasField, tmeasField) ==> r[0] == ridField
    ensures forall k :: 0 <= k < |fields| ==> r[|r| - |fields| + k] == OutputName(fields[k], fmeasField, tmeasField)
    ensures forall k :: 0 <= k < |fields| && !MeasureName(fields[k], fmeasField, tmeasField) ==> r[|r| - |fields| + k] == fields[k]
    ensures DistinctMeasures(fmeasField, tmeasField) ==>
      forall k :: 0 <= k < |fields| && fields[k] == fmeasField ==> r[|r| - |fields| + k] == "DOT_" + fmeasField
  {
    var adjusted := ["ADJUSTED_" + fmeasField] + (if tmeasField.Some? then ["ADJUSTED_" + tmeasField.value] else []);
    var inputs := [ridField] + adjusted + fields;
    var r := Renamed(inputs, fmeasField, tmeasField);
    assert inputs[|inputs| - |fields|..] == fields;
    RenamedTail(inputs, fields, fmeasField, tmeasField);
    r
  }

  /** The last columns of a renaming are the renamed trailing fields. */
  lemma RenamedTail(inputs: seq<string>, fields: seq<string>, fmeasField: string, tmeasField: Option<string>)
    requires |fields| <= |inputs| && inputs[|inputs| - |fields|..] == fields
    ensures forall k :: 0 <= k < |fields| ==>
      Renamed(inputs, fmeasField, tmeasField)[|inputs| - |fields| + k] == OutputName(fields[k], fmeasField, tmeasField)
  {
    forall k | 0 <= k < |fields|
      ensures Renamed(inputs, fmeasField, tmeasField)[|inputs| - |fields| + k] == OutputName(fields[k], fmeasField, tmeasField)
    {
      assert inputs[|inputs| - |fields| + k] == fields[k];
    }
  }

  /** Each field mapped to its output name, in order. */
  function Renamed(inputs: seq<string>, fmeasField: string, tmeasField: Option<string>): (r: seq<string>)
    ensures |r| == |inputs|
    ensures forall i :: 0 <= i < |inputs| ==> r[i] == OutputName(inputs[i], fmeasField, tmeasField)
  {
    seq(|inputs|, i requires 0 <= i < |inputs| => OutputName(inputs[i], fmeasField, tmeasField))
  }

  /** The example of a line event with measures BEG and END carrying BEG,
      END and SPEED: the original measures come out as DOT_BEG and DOT_END. */
  lemma DotToHereColumnsExample(f: string, t: string)
    requires f == "BEG" && t == "END"
    ensures DotToHereColumns("RID", f, Some(t), [f, t, "SPEED"]) == ["RID", f, t, "DOT_" + f, "DOT_" + t, "SPEED"]
  {
    assert |"ADJUSTED_" + t| == 12 && |"ADJUSTED_" + f| == 12;
    assert DistinctMeasures(f, Some(t));
    var r := DotToHereColumns("RID", f, Some(t), [f, t, "SPEED"]);
    assert r[0] == OutputName("RID", f, Some(t)) == "RID";
    assert r[1] == f && r[2] == t;
    assert r[3] == OutputName(f, f, Some(t)) == "DOT_" + f;
    assert r[4] == OutputName(t, f, Some(t)) == "DOT_" + t;
    assert "SPEED" != "ADJUSTED_" + f && "SPEED" != "ADJUSTED_" + t;
    assert r[5] == OutputName("SPEED", f, Some(t)) == "SPEED";
    assert |r| == 6;
  }

  // ---------------------------------------------------------------------------
  // HERE to DOT

  /** The link-id field is added to the transferred fields when missing
      (the caller's list is extended in place). */
  function AppendIfAbsent(fields: seq<string>, lidField: string): (r: seq<string>)
    ensures lidField in fields ==> r == fields
    ensures lidField !in fields ==> r == fields + [lidField]
  {
    if lidField in fields then fields else fields + [lidField]
  }

  /** The field is present afterwards, nothing else is added, and a second
      call changes nothing. */
  lemma AppendIfAbsentProperties(fields: seq<string>, lidField: string)
    ensures lidField in AppendIfAbsent(fields, lidField)
    ensures forall x :: x in AppendIfAbsent(fields, lidField) <==> x in fields || x == lidField
    ensures AppendIfAbsent(AppendIfAbsent(fields, lidField), lidField) == AppendIfAbsent(fields, lidField)
  {
  }

  /** The output columns: the transferred fields (with the link id), then
      the XREF route id and measures. */
  function HereToDotColumns(fields: seq<string>, lidField: string): (r: seq<string>)
    ensures |r| == |AppendIfAbsent(fields, lidField)| + 3
    ensures r[..|r| - 3] == AppendIfAbsent(fields, lidField)
    ensures r[|r| - 3..] == ["DOT_RID", "FROM_MEASURE", "TO_MEASURE"]
  {
    AppendIfAbsent(fields, lidField) + ["DOT_RID", "FROM_MEASURE", "TO_MEASURE"]
  }

  /** A HERE event: its link id and the values of its other fields. */
  datatype HereEvent = HereEvent(lid: string, attrs: seq<string>)

  /** An event placed on a DOT route: the HERE event's values, with the route
      and measures of one XREF row. */
  datatype DotPlacement = DotPlacement(event: HereEvent, rid: string, fmeas: real, tmeas: real)

  /** The XREF rows of one event, in table order. */
  function JoinOne(e: HereEvent, xref: seq<XrefRow>): (r: seq<DotPlacement>)
    ensures forall p :: p in r <==> p.event == e && XrefRow(e.lid, p.rid, p.fmeas, p.tmeas) in xref
    decreases |xref|
  {
    if |xref| == 0 then []
    else
      var x := xref[0];
      (if x.lid == e.lid then [DotPlacement(e, x.rid, x.fmeas, x.tmeas)] else []) + JoinOne(e, xref[1..])
  }

  /** The query-table join on the link id: every event with every XREF row
      of its link. */
  function JoinXref(events: seq<HereEvent>, xref: seq<XrefRow>): (r: seq<DotPlacement>)
    ensures forall p :: p in r <==> p.event in events && XrefRow(p.event.lid, p.rid, p.fmeas, p.tmeas) in xref
    decreases |events|
  {
    if |events| == 0 then [] else JoinOne(events[0], xref) + JoinXref(events[1..], xref)
  }

  /** The number of XREF rows of a link. */
  function LinkRowCount(xref: seq<XrefRow>, lid: string): nat
    decreases |xref|
  {
    if |xref| == 0 then 0 else (if xref[0].lid == lid then 1 else 0) + LinkRowCount(xref[1..], lid)
  }

  function JoinRowCount(events: seq<HereEvent>, xref: seq<XrefRow>): nat
    decreases |events|
  {
    if |events| == 0 then 0 else LinkRowCount(xref, events[0].lid) + JoinRowCount(events[1..], xref)
  }

  /** The join makes one placement per (event, XREF row of its link) pair:
      an event whose link has no XREF row is dropped, one whose link has
      several is repeated. */
  lemma {:induction false} JoinCount(events: seq<HereEvent>, xref: seq<XrefRow>)
    ensures |JoinXref(events, xref)| == JoinRowCount(events, xref)
    decreases |events|
  {
    if |events| > 0 {
      JoinOneCount(events[0], xref);
      JoinCount(events[1..], xref);
    }
  }

  lemma {:induction false} JoinOneCount(e: HereEvent, xref: seq<XrefRow>)
    ensures |JoinOne(e, xref)| == LinkRowCount(xref, e.lid)
    decreases |xref|
  {
    if |xref| > 0 {
      JoinOneCount(e, xref[1..]);
    }
  }
}
